=== FILE: README.md ===
# robustirc IRC state machine: a Dafny model

RobustIRC runs IRC as a replicated state machine. Every server in a Raft
cluster applies the same sequence of IRC messages to the same in-memory
`IRCServer` state and produces the same output messages. This project models
the deterministic core of that state machine. It covers:

- the command table with its minimum parameter counts;
- the client handlers NICK and USER with the `maybeLogin` step they share,
  PASS, OPER, MOTD, AWAY, JOIN, PART, KICK, MODE, TOPIC and INVITE;
- the mode-string parser `normalizeModes` and its printer `IRCParams`;
- the handlers for the services link: SERVER, server NICK, server MODE,
  server KICK, SVSHOLD, SVSJOIN, SVSPART, SVSMODE and SVSNICK;
- the sequential contract of the output stream that clients poll:
  `Add`, `Get`, `GetNext`, `Delete` and `LastSeen`;
- three operator helpers: the privacy filters for logged messages, the
  cluster health decision of `EnsureNetworkHealthy`, and the comma-separated
  form of `ResolveNetwork`.

The directory of sessions, nicknames and channels is an immutable `State`.
Each handler is a pure function from the state, the calling session and the
parsed message to a `Reply`. A `Reply` holds the new state and the messages
the handler sends. Each message names its addressee:

- one session;
- a channel, together with the member set at sending time;
- the session's common channels;
- the services link.

`Directory.Valid` states what keeps this directory consistent:

- the nickname index and the sessions agree in both directions;
- every channel member is an indexed nickname;
- the channel sets of sessions and the member maps of channels agree;
- no channel is left without members.

Each handler has a lemma that it keeps `Valid`. `Dispatch.HandleValid` gathers
these lemmas for the whole table.

JOIN on a `+x` channel, by a session without an invite, checks the captcha
given as the JOIN key (commands.go:407-423). When it does not verify, the
join is refused with a NOTICE and ERR_INVITEONLYCHAN and nothing changes.

Some handlers index parameters or map entries that may be missing, and the
Go code then panics. `Dispatch` models each of these inputs as a `Panics`
outcome:

- server NICK, MODE, JOIN and PART have no MinParams entry, so each panics
  when it has no parameters;
- server NICK also panics when it introduces an unknown nickname with two or
  three parameters;
- a services message without a `:prefix` panics wherever its handler reads
  the sender's name: always for KICK (with its two parameters), JOIN and
  PART; for MODE whenever it sends anything, which is always outside a
  replay; for SVSJOIN and SVSPART only when they refuse
  (server_commands.go:107-126, 265-307, 426-435, 487-506, 625-636, 675-686);
- client TOPIC runs as written, so its clearing form panics when a
  non-member sends it on a `+t` channel.

SVSNICK also runs as written. A change of case only then drops the user from
the index, so the consistency lemma excludes that input.

Collaborators that live in files outside this model become parameters of the
`Env` record or concrete stand-ins:

- nickname case folding is ASCII lower-casing (`Text.Fold`);
- nickname and channel validity are `Text.IsValidNickname` and
  `Text.IsValidChannel`;
- captcha verification is `Env.captchaOk`;
- `extractPassword` is `Commands.ExtractPassword`, which reads the
  colon-separated "<key>=<password>" parts that `cmdPass` stores;
- the operator logins of the configuration are `Env.operators`;
- the server name, the creation time, a session's host, and the
  CHANNELLEN and NICKLEN values are `Env` fields;
- the FNV hash of a services-introduced nickname is `Env.nickHash`;
- the channel limit and the services passwords are `Env` fields;
- the IRC line parser and printer are `Util.IrcCodec`.

Times are integers counting nanoseconds.

## Model

| member | source | states |
|---|---|---|
| Dispatch.ClientMin | vendor/github.com/robustirc/robustirc/ircserver/commands.go:36-143 | exactly USER, SERVER, JOIN, PART, KICK, MODE, OPER, KILL, TOPIC, WHOIS, INVITE, USERHOST, KNOCK and ISON demand parameters; every other listed verb demands none |
| Dispatch.ServerMin | vendor/github.com/robustirc/robustirc/ircserver/server_commands.go:16-90 | among the `server_` entries, exactly TOPIC, SVSNICK, SVSMODE, SVSHOLD, SVSJOIN, SVSPART, KILL, KICK and INVITE demand parameters |
| Dispatch.MinParams | vendor/github.com/robustirc/robustirc/ircserver/commands.go:30-33 | a services link looks its verb up among the `server_` entries; any other session uses the client entries |
| Dispatch.Handle | vendor/github.com/robustirc/robustirc/ircserver/commands.go:30-33 | a message only runs a handler or panics when its verb has an entry in the table the session uses |
| Dispatch.Unlisted | vendor/github.com/robustirc/robustirc/ircserver/commands.go:30-33 | a verb without an entry neither runs a handler nor panics; it is left to the dispatcher (`NotModelled`) |
| Dispatch.Gate | vendor/github.com/robustirc/robustirc/ircserver/commands.go:30-33 | a message with fewer parameters than its entry's MinParams never reaches the handler; the state is unchanged and exactly one ERR_NEEDMOREPARAMS goes to the sender |
| Dispatch.GateExamples | vendor/github.com/robustirc/robustirc/ircserver/commands.go:46-61 | USER with fewer than 3 parameters, JOIN with none and KICK with fewer than 2 each get only ERR_NEEDMOREPARAMS |
| Dispatch.ServerHandler | vendor/github.com/robustirc/robustirc/ircserver/server_commands.go:36-61 | server NICK panics exactly when it has no parameters, or when it introduces an unknown nickname with 2 or 3 parameters. Server MODE, JOIN and PART panic when they have none. Without a prefix, KICK, JOIN and PART always panic, MODE panics when it sends anything, and SVSJOIN and SVSPART panic when they refuse. Nothing else panics. SVSNICK runs the handler as written, `SvsNickAsWritten` |
| Dispatch.ClientHandler | vendor/github.com/robustirc/robustirc/ircserver/commands.go:36-143 | a client message panics only as TOPIC, exactly where the handler as written reads a missing member entry; OPER and MOTD run their handlers |
| Dispatch.PanicsOnlyUnguarded | vendor/github.com/robustirc/robustirc/ircserver/server_commands.go:36-47 | handling panics if and only if a services link sends a message that reads a missing parameter or, lacking a prefix, reads the sender's name (as listed for ServerHandler), or a client sends a TOPIC on which the handler as written reads a missing member entry |
| Dispatch.HandleValid | vendor/github.com/robustirc/robustirc/ircserver/commands.go:36-143 | every modelled handler, reached through the gate, keeps the directory consistent when the caller meets `Admissible`. For SVSNICK `Admissible` excludes a change of case only, which the handler as written breaks (`SvsNickAsWrittenLosesCaseChange`) |
| Commands.MaybeLogin | vendor/github.com/robustirc/robustirc/ircserver/commands.go:163-264 | the session ends up logged in if and only if it already was, or it has a nickname and a user name and passes the login captcha when one is required. A fresh login changes only that session: it is logged in, its password is cleared, and it becomes an IRC operator with mode +o when its password carries a matching operator login. Otherwise the state is unchanged |
| Commands.LoginFrames | vendor/github.com/robustirc/robustirc/ircserver/commands.go:186-263 | a fresh login sends 9 messages plus the identification and operator replies. It opens with RPL_WELCOME. The sixth message introduces the user to services with the nine NICK parameters and no prefix. The last three are the message of the day |
| Commands.Welcome | vendor/github.com/robustirc/robustirc/ircserver/commands.go:188-242 | the welcome burst is six messages and starts with RPL_WELCOME. The first five go to the user from the server; the last introduces the user to services with the nine NICK parameters and no prefix |
| Commands.LoginIdentifies | vendor/github.com/robustirc/robustirc/ircserver/commands.go:244-250 | right after the welcome burst, the login sends PRIVMSG NickServ "IDENTIFY <password>" from the user's prefix to services, exactly when the password carries a NickServ password |
| Commands.LoginOpers | vendor/github.com/robustirc/robustirc/ircserver/commands.go:252-257 | an operator login with a name and a password runs `cmdOper`: a matching one adds RPL_YOUREOPER and the new modes to the user and to services, another adds ERR_PASSWDMISMATCH, and a password without one adds nothing |
| Commands.PassIdentifies | vendor/github.com/robustirc/robustirc/ircserver/commands.go:1192-1220 | a PASS with one bare password, without a colon or a known prefix, is filed so that the login identifies to NickServ with exactly that password |
| Commands.Oper | vendor/github.com/robustirc/robustirc/ircserver/commands.go:962-1003 | a name and password matching a configured operator make the session an IRC operator with mode +o; RPL_YOUREOPER follows, and the new mode string, which contains `o`, goes to the user and to services. Any other login gets only ERR_PASSWDMISMATCH and changes nothing |
| Commands.Motd | vendor/github.com/robustirc/robustirc/ircserver/commands.go:1173-1190 | MOTD changes nothing and sends the user three replies addressed to its nickname, from RPL_MOTDSTART to RPL_ENDOFMOTD |
| Commands.Nick | vendor/github.com/robustirc/robustirc/ircserver/commands.go:266-318 | a missing, invalid, taken (other than a change of case by the owner), services-reserved or held nickname leaves the state unchanged and sends one error to the sender |
| Commands.NickTakes | vendor/github.com/robustirc/robustirc/ircserver/commands.go:307-332 | an accepted NICK gives the session the nickname, points the index entry at the session, and lifts any hold on that key |
| Commands.NickRenames | vendor/github.com/robustirc/robustirc/ircserver/commands.go:320-347 | a rename removes the old index key, moves every membership entry to the new key, and announces NICK from the old prefix three times; a change of case only keeps both index and channels |
| Commands.NickValid | vendor/github.com/robustirc/robustirc/ircserver/commands.go:266-347 | NICK keeps the directory consistent |
| Commands.User | vendor/github.com/robustirc/robustirc/ircserver/commands.go:349-356 | the user name is the first parameter and the real name the trailing one; the session is logged in afterwards exactly when `maybeLogin` allows it |
| Commands.StoredPass | vendor/github.com/robustirc/robustirc/ircserver/commands.go:1192-1220 | the stored password always carries one of the known prefixes, because "nickserv=" is added to anything else |
| Commands.Pass | vendor/github.com/robustirc/robustirc/ircserver/commands.go:1192-1220 | a session that is not logged in stores the space-joined parameters under a known prefix; a login triggered by PASS clears the password again |
| Commands.Away | vendor/github.com/robustirc/robustirc/ircserver/commands.go:1055-1070 | the away message becomes the trimmed trailing parameter; the sender gets RPL_UNAWAY exactly when that parameter is blank, and RPL_NOWAWAY otherwise. Blank means Unicode white space only, as Go's `strings.TrimSpace` has it |
| ChannelCommands.JoinOne | vendor/github.com/robustirc/robustirc/ircserver/commands.go:363-437 | an invalid name, a creation beyond the channel limit, or an invite-only or captcha channel joined without an invite and without a valid captcha changes nothing and ends with ERR_NOSUCHCHANNEL or ERR_INVITEONLYCHAN to the sender; other channels and other sessions are untouched |
| ChannelCommands.JoinCreates | vendor/github.com/robustirc/robustirc/ircserver/commands.go:377-399 | joining a new channel creates it with modes `+nt` and the joiner as its only member and operator, announces MODE +nt, and tells services SJOIN with an `@` prefix |
| ChannelCommands.JoinExisting | vendor/github.com/robustirc/robustirc/ircserver/commands.go:424-455 | joining an existing channel adds the joiner as a non-operator, consumes the invite on `+i` or `+x` channels, and tells services SJOIN without a prefix |
| ChannelCommands.JoinAgainIsNoop | vendor/github.com/robustirc/robustirc/ircserver/commands.go:428-430 | a member joining again changes no channel and sends nothing |
| ChannelCommands.Announce | vendor/github.com/robustirc/robustirc/ircserver/commands.go:439-455 | a join is sent to the channel's members from the joiner's prefix; a created channel adds MODE +nt and an operator SJOIN, an existing one a plain SJOIN |
| ChannelCommands.JoinEachValid | vendor/github.com/robustirc/robustirc/ircserver/commands.go:358-461 | joining a comma-separated list of channels keeps the directory consistent |
| ChannelCommands.PartOne | vendor/github.com/robustirc/robustirc/ircserver/commands.go:520-553 | parting a channel the session is not in changes nothing and sends one error; otherwise the membership is removed on both sides, the channel is deleted if it was the last member, and PART goes to the former members and to services |
| ChannelCommands.PartEachValid | vendor/github.com/robustirc/robustirc/ircserver/commands.go:520-553 | parting a list of channels keeps the directory consistent |
| ChannelCommands.Kick | vendor/github.com/robustirc/robustirc/ircserver/commands.go:463-518 | a kick from a non-operator, of a non-member, or in a missing channel changes nothing and sends one error; otherwise the target leaves the channel on both sides, an emptied channel disappears, and KICK goes to the members and to services |
| ChannelCommands.KickValid | vendor/github.com/robustirc/robustirc/ircserver/commands.go:463-518 | KICK keeps the directory consistent |
| ChannelCommands.Topic | vendor/github.com/robustirc/robustirc/ircserver/commands.go:1072-1171 | a missing channel gives ERR_NOSUCHCHANNEL. On a `+t` channel a non-operator gets ERR_CHANOPRIVSNEEDED for the clearing form and for a set, and nothing changes. Otherwise the clearing form resets topic, setter and time, sends TOPIC with an empty text to the members and tells services TOPIC with time "0". A non-member gets ERR_NOTONCHANNEL for the other forms. A query changes nothing and answers RPL_NOTOPIC, or RPL_TOPIC and RPL_TOPICWHOTIME with the setter and Unix seconds. A set records the topic, the setter and the time, sends TOPIC to the members and tells services the setter, the time in seconds and the text |
| ChannelCommands.TopicSetThenQuery | vendor/github.com/robustirc/robustirc/ircserver/commands.go:1121-1171 | after a set, a query answers RPL_TOPIC with the new text and RPL_TOPICWHOTIME with the setter and the time in Unix seconds |
| ChannelCommands.TopicClearThenQuery | vendor/github.com/robustirc/robustirc/ircserver/commands.go:1084-1130 | after the topic is cleared, a query answers RPL_NOTOPIC |
| ChannelCommands.TopicAsWritten | vendor/github.com/robustirc/robustirc/ircserver/commands.go:1084-1092 | the handler as written panics exactly when it reads the operator bit of a session that has no member entry in a `+t` channel |
| ChannelCommands.TopicPanicsOnlyOnUnset | vendor/github.com/robustirc/robustirc/ircserver/commands.go:1084-1092 | in a consistent directory that panic happens only for the clearing form sent by a non-member |
| ChannelCommands.TopicUnsetPanics | vendor/github.com/robustirc/robustirc/ircserver/commands.go:1084-1092 | a concrete consistent directory on which "TOPIC #c :" panics |
| ChannelCommands.Invite | vendor/github.com/robustirc/robustirc/ircserver/commands.go:1342-1412 | any of these refusals changes nothing and sends one error: a missing channel, an inviter outside it, an unknown target, a target already in the channel, or a non-operator on a `+i` channel. Otherwise the target's invite set gains the channel, INVITE goes to the target and to services, and one more reply follows exactly when the target is away |
| ModeCommand.ChannelModeRefusals | vendor/github.com/robustirc/robustirc/ircserver/commands.go:741-770 | MODE with no mode string answers with the channel's modes. A non-operator never changes the channel, and any change it attempts ends with ERR_CHANOPRIVSNEEDED |
| ModeCommand.ChannelModeAnnounces | vendor/github.com/robustirc/robustirc/ircserver/commands.go:830-843 | MODE is broadcast to the members and to services if and only if an operator made a change outside a replay; the broadcast carries the normalised mode parameters |
| ModeCommand.ChannelModeFlags | vendor/github.com/robustirc/robustirc/ircserver/commands.go:773-785 | for an operator, each of `t s i n`, and `x` when captchas are configured, ends as the last sign given for it; every other flag is unchanged |
| ModeCommand.ChannelModeOps | vendor/github.com/robustirc/robustirc/ircserver/commands.go:787-802 | each member's operator bit ends as the last `o` given for that nickname when the sender is an operator, and is unchanged otherwise |
| ModeCommand.UserMode | vendor/github.com/robustirc/robustirc/ircserver/commands.go:847-896 | changing another user's modes without being an IRC operator gives ERR_USERSDONTMATCH; otherwise only the target's modes change, and the change goes to the target and to services |
| ModeCommand.UserModesEffect | vendor/github.com/robustirc/robustirc/ircserver/commands.go:874-882 | only `i` is settable on a user; it ends as the last sign given for it |
| ModeCommand.Mode | vendor/github.com/robustirc/robustirc/ircserver/commands.go:732-903 | a target that is neither one of the sender's channels nor a nickname changes nothing; a channel target never changes a session |
| ModeCommand.ModeValid | vendor/github.com/robustirc/robustirc/ircserver/commands.go:732-903 | MODE keeps the directory consistent |
| ModeRuns.RunDenied | vendor/github.com/robustirc/robustirc/ircserver/commands.go:758-770 | the loop stops with a refusal if and only if the sender is not an operator and some entry is not a ban-list query; a refusal is exactly the case where the last reply is ERR_CHANOPRIVSNEEDED |
| ModeRuns.RunUnknowns | vendor/github.com/robustirc/robustirc/ircserver/commands.go:803-808 | one ERR_UNKNOWNMODE is sent per letter the channel does not know |
| ModeRuns.RunStrangers | vendor/github.com/robustirc/robustirc/ircserver/commands.go:787-802 | one ERR_USERNOTINCHANNEL is sent per `o` naming a non-member |
| ModeRuns.RunKeeps | vendor/github.com/robustirc/robustirc/ircserver/commands.go:773-808 | a flag the policy cannot set is never changed by the loop |
| Modes.Normalize | vendor/github.com/robustirc/robustirc/ircserver/commands.go:696-730 | a message without a mode string yields no entries; otherwise there is one entry per non-sign character |
| Modes.ParseLetters | vendor/github.com/robustirc/robustirc/ircserver/commands.go:696-730 | the entries' letters, in order, are the mode string with its signs removed |
| Modes.ParseArgs | vendor/github.com/robustirc/robustirc/ircserver/commands.go:710-716 | `o` and `d` take the following arguments in order, with "" once they run out; every other letter takes none |
| Modes.NoMinusAllAdding | vendor/github.com/robustirc/robustirc/ircserver/commands.go:700-709 | a mode string without `-` yields only additions |
| Modes.NormalizeIrcParams | vendor/github.com/robustirc/robustirc/ircserver/commands.go:663-730 | parsing the printed form of well-formed entries with ASCII letters gives back all additions followed by all removals |
| Modes.PrintedLetter | vendor/github.com/robustirc/robustirc/ircserver/commands.go:676-687 | a mode letter is printed from its first UTF-8 byte: an ASCII letter as itself, any other as a character between U+00C2 and U+00F4 |
| Modes.PrintedNonAscii | vendor/github.com/robustirc/robustirc/ircserver/commands.go:676-687 | the printer writes the first UTF-8 byte of a letter, so a non-ASCII letter such as é comes out as a different character |
| Modes.IrcParamsCanonical | vendor/github.com/robustirc/robustirc/ircserver/commands.go:663-694 | the printed form does not depend on how additions and removals are interleaved |
| ServerCommands.ServerKick | vendor/github.com/robustirc/robustirc/ircserver/server_commands.go:99-138 | a missing channel or non-member target gets an error to services and changes nothing; otherwise the target leaves the channel on both sides, with no operator check, and KICK is sent from the services prefix |
| ServerCommands.ServerKickValid | vendor/github.com/robustirc/robustirc/ircserver/server_commands.go:99-138 | server KICK keeps the directory consistent |
| ServerCommands.ServerNick | vendor/github.com/robustirc/robustirc/ircserver/server_commands.go:222-255 | a one-parameter NICK is ignored, and a taken nickname gets ERR_NICKNAMEINUSE. A new nickname creates a session whose id has the link's id and the nickname's hash as reply part, indexed under the nickname, with the given user and real name |
| ServerCommands.ServerNickValid | vendor/github.com/robustirc/robustirc/ircserver/server_commands.go:222-255 | introducing a user keeps the directory consistent |
| ServerCommands.ServerMode | vendor/github.com/robustirc/robustirc/ircserver/server_commands.go:257-311 | only the named channel changes. Outside a replay, the change is broadcast to the members from the services prefix with the normalised parameters; all other replies go to services |
| ServerCommands.ServerModeNamesSender | vendor/github.com/robustirc/robustirc/ircserver/server_commands.go:260-310 | every message services MODE sends names the sender, as its prefix or first parameter, and it sends something whenever the channel is missing or no replay is running; so MODE reads the sender's name exactly when it sends |
| ServerCommands.ServerModeEffect | vendor/github.com/robustirc/robustirc/ircserver/server_commands.go:270-294 | `t s r i` end as the last sign given; other flags are unchanged; each member's operator bit ends as the last `o` for it |
| ServerCommands.ServerModeErrors | vendor/github.com/robustirc/robustirc/ircserver/server_commands.go:279-301 | one ERR_UNKNOWNMODE per unknown letter and one ERR_USERNOTINCHANNEL per `o` naming a non-member |
| ServerCommands.Server | vendor/github.com/robustirc/robustirc/ircserver/server_commands.go:313-391 | only a session whose password is "services=" followed by a configured services password becomes a link; it is appended to the server sessions and answered with SERVER; any other session gets ERROR "Invalid password" and nothing changes. Both ERROR and SERVER are sent without a prefix |
| ServerCommands.SvsHold | vendor/github.com/robustirc/robustirc/ircserver/server_commands.go:393-414 | a single parameter lifts the hold. A duration that does not parse gets a NOTICE and changes nothing. Otherwise the hold records the link's last activity, the duration and the reason. No other hold changes |
| ServerCommands.SvsHoldBlocksNick | vendor/github.com/robustirc/robustirc/ircserver/server_commands.go:393-414 | after SVSHOLD, NICK to that nickname is held exactly until the duration has passed since the hold was set, and is not held after a release |
| ServerCommands.SvsHoldSeconds | vendor/github.com/robustirc/robustirc/ircserver/server_commands.go:393-414 | a hold of n seconds lasts n·10⁹ nanoseconds |
| ServerCommands.SvsJoin | vendor/github.com/robustirc/robustirc/ircserver/server_commands.go:416-475 | an unknown nickname gets ERR_NOSUCHNICK and an invalid channel ERR_NOSUCHCHANNEL, and a member is left alone. Otherwise the user joins, becoming operator of a channel that did not exist, and JOIN and SJOIN are sent |
| ServerCommands.SvsJoinNamesSender | vendor/github.com/robustirc/robustirc/ircserver/server_commands.go:416-475 | SVSJOIN refuses exactly when it sends a single error to services naming the sender |
| ServerCommands.SvsJoinValid | vendor/github.com/robustirc/robustirc/ircserver/server_commands.go:416-475 | SVSJOIN keeps the directory consistent |
| ServerCommands.SvsPart | vendor/github.com/robustirc/robustirc/ircserver/server_commands.go:477-520 | an unknown nickname, a missing channel or a non-member gets an error to services and changes nothing; otherwise the user leaves the channel on both sides and PART goes to the members and to services |
| ServerCommands.SvsPartValid | vendor/github.com/robustirc/robustirc/ircserver/server_commands.go:477-520 | SVSPART keeps the directory consistent |
| ServerCommands.SvsModeRunEffect | vendor/github.com/robustirc/robustirc/ircserver/server_commands.go:532-560 | `r` ends as the last sign given for it, the services id as the last `d` argument, and no other user mode changes |
| ServerCommands.SvsModeRunErrors | vendor/github.com/robustirc/robustirc/ircserver/server_commands.go:532-560 | one ERR_UMODEUNKNOWNFLAG is sent per letter other than `d` and `r` |
| ServerCommands.SvsMode | vendor/github.com/robustirc/robustirc/ircserver/server_commands.go:522-572 | an unknown nickname gets ERR_NOSUCHNICK. Otherwise only the target's modes and services id change, and the last output tells the target its full mode string |
| ServerCommands.SvsNickAsWritten | vendor/github.com/robustirc/robustirc/ircserver/server_commands.go:574-615 | the handler as written sets the new index key and then deletes the old key, in the index and in every channel |
| ServerCommands.SvsNickAsWrittenLosesCaseChange | vendor/github.com/robustirc/robustirc/ircserver/server_commands.go:596-605 | when the new nickname differs from the old only in case, the user vanishes from the index and the directory is no longer consistent |
| ServerCommands.SvsNickAliceCounterexample | vendor/github.com/robustirc/robustirc/ircserver/server_commands.go:596-605 | "SVSNICK alice Alice" empties the index of a one-user network |
| ServerCommands.SvsNick | vendor/github.com/robustirc/robustirc/ircserver/server_commands.go:574-615 | an invalid nickname or unknown user gets an error to services. Otherwise the user gets the nickname and the index points to it under the new key. A rename moves the index and membership keys; a change of case keeps them |
| ServerCommands.SvsNickValid | vendor/github.com/robustirc/robustirc/ircserver/server_commands.go:574-615 | the corrected SVSNICK keeps the directory consistent, and agrees with the handler as written whenever the key changes |
| OutputStream.Empty | vendor/github.com/robustirc/robustirc/outputstream/outputstream_test.go:62-68 | a new stream holds no message and its last-seen id is 0.0 |
| OutputStream.Add | vendor/github.com/robustirc/robustirc/outputstream/outputstream_test.go:13-16 | adding a batch makes its id retrievable, leaves every other id as it was, and makes the batch's last message the last seen |
| OutputStream.Get | vendor/github.com/robustirc/robustirc/outputstream/outputstream_test.go:97-116 | lookup by id finds a batch exactly when one with that id was added and not deleted |
| OutputStream.Delete | vendor/github.com/robustirc/robustirc/outputstream/outputstream_test.go:119-136 | deleting an id makes only that id unretrievable and keeps the last-seen id |
| OutputStream.GetNextIsNext | vendor/github.com/robustirc/robustirc/outputstream/outputstream_test.go:70-84 | the next batch after an id has the smallest larger id present; there is none exactly when no larger id is present, where the Go call blocks |
| OutputStream.CatchUp | vendor/github.com/robustirc/robustirc/outputstream/outputstream_test.go:70-84 | walking from any id between two stored batches reaches the later one |
| OutputStream.AddWakes | vendor/github.com/robustirc/robustirc/outputstream/outputstream_test.go:18-45 | a poller with nothing newer is answered by the next batch added after its id |
| OutputStream.DeleteSkips | vendor/github.com/robustirc/robustirc/outputstream/outputstream_test.go:119-127 | after a delete, a poller just before the deleted id goes on to the batch after it |
| OutputStream.CatchUpScenario | vendor/github.com/robustirc/robustirc/outputstream/outputstream_test.go:56-85 | the test's three adds followed by the walk with GetNext |
| OutputStream.DeleteMiddleScenario | vendor/github.com/robustirc/robustirc/outputstream/outputstream_test.go:87-136 | the test's delete of id 2, the lookups, the skip, and the wake-up after deleting 3 and adding 4 |
| Util.PrivacyFilterIrcmsg | vendor/github.com/robustirc/robustirc/util/util.go:195-207 | a missing message stays missing. PRIVMSG and NOTICE have their trailing text replaced, PASS has its parameters replaced, and anything else is unchanged |
| Util.PrivacyFilterSettles | vendor/github.com/robustirc/robustirc/util/util.go:195-207 | filtering is idempotent and leaves no original body or password |
| Util.PrivacyFilterMsg | vendor/github.com/robustirc/robustirc/util/util.go:209-216 | the copy keeps id, session and type, and its payload is the parsed payload filtered and printed again. A payload that does not parse panics (None) |
| Util.PrivacyFilterMsgs | vendor/github.com/robustirc/robustirc/util/util.go:218-224 | a successful run returns one message per input |
| Util.PrivacyFilterMsgsPanics | vendor/github.com/robustirc/robustirc/util/util.go:218-224 | the list filter panics if and only if some payload does not parse |
| Util.PrivacyFilterMsgsEach | vendor/github.com/robustirc/robustirc/util/util.go:218-224 | otherwise the i-th output is the i-th input filtered |
| Util.PrivacyFilterMsgsAppend | vendor/github.com/robustirc/robustirc/util/util.go:218-224 | filtering a concatenation filters each part and concatenates the results; it panics if either part does |
| Util.CheckHealthAsWritten | vendor/github.com/robustirc/robustirc/util/util.go:102-117 | a bad-state verdict is only given when some report is in a state other than Leader or Follower |
| Util.HealthAsWrittenDependsOnOrder | vendor/github.com/robustirc/robustirc/util/util.go:102-120 | the loop as written accepts one order of two reports and rejects the other |
| Util.HealthMeansHealthy | vendor/github.com/robustirc/robustirc/util/util.go:94-122 | the corrected decision is healthy if and only if there is at least one report and all agree on one non-empty leader. Every node must also be Leader or Follower, and no follower's last contact may be more than 2 seconds old |
| Util.HealthOrderFree | vendor/github.com/robustirc/robustirc/util/util.go:94-122 | the corrected decision does not depend on the order of the reports |
| Util.HealthAsWrittenWhenNamed | vendor/github.com/robustirc/robustirc/util/util.go:102-120 | when every report names a leader, the loop as written and the corrected decision agree |
| Util.ResolveServerList | vendor/github.com/robustirc/robustirc/util/util.go:124-136 | the comma branch is taken exactly when the name holds a comma. It lists the comma-separated parts that are not blank, untrimmed and in their order |
| Util.ResolveNetworkList | vendor/github.com/robustirc/robustirc/util/util.go:127-135 | the loop that appends each non-blank part in turn builds exactly that list |
| Util.NonBlankSnoc | vendor/github.com/robustirc/robustirc/util/util.go:130-134 | one loop step appends the part as it stands, after all earlier kept parts, exactly when it is not blank |
| Util.NonBlankAppend | vendor/github.com/robustirc/robustirc/util/util.go:127-136 | dropping blank parts distributes over concatenation, so order is kept |
| Text.JoinSplit | vendor/github.com/robustirc/robustirc/util/util.go:127-136 | joining the parts of a split gives back the string |
| Text.SplitJoin | vendor/github.com/robustirc/robustirc/util/util.go:127-136 | splitting a join of separator-free parts gives back the parts |
| Text.SplitLength | vendor/github.com/robustirc/robustirc/util/util.go:127-136 | a split has one part more than there are separators, so more than one part exactly when the separator occurs |

## Left out

- The dispatcher that applies MinParams and the login gate live in files
  outside this model. `Dispatch.Handle` follows the table's documented
  contract and leaves the logged-in check out.
- Dispatch.Handle: a verb outside the table reaches `NotModelled`. The
  dispatcher's answer to it, such as ERR_UNKNOWNCOMMAND (section 5.2 of
  RFC 2812), is not part of this model.
- Client handlers that are not modelled reach `NotModelled`: PING, QUIT,
  PRIVMSG, NOTICE, WHO, KILL, WHOIS, LIST, NAMES, USERHOST, KNOCK, ISON and
  the services aliases. The same goes for server PING, QUIT, TOPIC, PRIVMSG,
  KILL and INVITE. They are outside the core modelled here.
- Server JOIN and PART are modelled only as the panics they have without
  parameters or without a prefix. Otherwise they reach `NotModelled`.
- Commands.ExtractPassword: `extractPassword` is not part of this model. The
  stand-in returns the first colon-separated part that starts with
  "<key>=", without that prefix, or "" when there is none.
- Commands.OperArgs: `maybeLogin` parses "OPER <password>" with the IRC line
  parser. The model splits the operator login at single spaces and does not
  model the parser's trailing-parameter syntax.
- Commands.Refusal: the captcha NOTICE of a refused login carries only the
  nickname; the captcha URL text is left out.
- NAMES output inside a JOIN is one RPL_NAMREPLY without the member list,
  followed by RPL_ENDOFNAMES. The member list formatting is outside this
  model.
- The texts of NOTICE replies and captcha URLs are left out, and so is the
  human-readable last parameter of numeric replies outside the login burst,
  OPER and MOTD.
- The wall-clock formatting of topic times is left out. Times are integer
  nanoseconds and are divided by 10⁹ where the source prints seconds.
- Services NICK uses `Env.nickHash` in place of the 64-bit FNV-1 hash. The
  session fields that `CreateSession` fills beyond nickname, user name and
  real name are left out.
- SERVER's state burst is not modelled: the introduction of every user and
  channel to the new link.
- Text.ParseSeconds: accepts an optionally signed string of decimal digits,
  that is, whole seconds. The Go duration syntax for fractions and units is
  not modelled.
- ServerCommands.SvsNick: SVSNICK onto a nickname held by another user is
  not checked by the source either. `Dispatch.Admissible` excludes it from
  the consistency lemma rather than changing the handler.
- Modes.NormalizeIrcParams: the round trip is stated for entries whose
  letters are ASCII. The printer writes only the first UTF-8 byte of a
  letter, so a non-ASCII letter does not read back (`Modes.PrintedNonAscii`).
- OutputStream.Add: requires a non-empty batch. The source always adds at
  least one message per id.
- The output stream's blocking, cancellation, concurrency and
  `InterruptGetNext` are left out: these are the TestInterrupt cases and the
  goroutines of testBlocking. Where the Go call blocks, `GetNext` returns
  None.
- Deleting id 0 is fatal in the source. That case is not modelled:
  `OutputStream.Delete` requires the id to be present.
- `CollectStatuses` (network I/O) and the SRV lookup of `ResolveNetwork`
  are left out. `Util.CheckHealth` takes the collected reports and the
  current time as parameters.
- `PrivacyFilterSnapshot` is left out. It applies `PrivacyFilterMsg` to
  every message of a protobuf snapshot, which this model does not represent.
- The IRC line parser and printer are a parameter (`Util.IrcCodec`), so
  `PrivacyFilterMsgs` says nothing about the text of the printed line. A
  payload that does not parse is `None` for the codec, and the filter then
  panics, as the Go code does when it prints the nil message.
- Case folding, nickname and channel validity, services nicknames and
  captcha checks are helpers from files outside this model. They appear as
  concrete stand-ins or `Env` parameters, as described above. Fold is ASCII
  lower-casing and does not follow RFC 1459 case mapping.

## Findings

| source | as written | input that shows it | evidently intended | confidence | as-written member | corrected member |
|---|---|---|---|---|---|---|
| vendor/github.com/robustirc/robustirc/ircserver/commands.go:1084-1092 | the clearing form of TOPIC reads `c.nicks[nick][chanop]` on a `+t` channel before checking membership, so for a non-member it indexes the nil entry of a missing member and panics | "TOPIC #c :" from a session that is not in the `+t` channel `#c` (`TopicUnsetPanics`) | a non-member is refused like any other non-operator | not executed | ChannelCommands.TopicAsWritten | ChannelCommands.Topic |
| vendor/github.com/robustirc/robustirc/ircserver/server_commands.go:596-605 | SVSNICK stores the new key in the index and in each channel and then deletes the old key; when both keys are equal the delete removes the entry just written | "SVSNICK alice Alice" (`SvsNickAliceCounterexample`): the user disappears from the index and from every channel | a change of case keeps the index and membership entries, as NICK does | not executed | ServerCommands.SvsNickAsWritten | ServerCommands.SvsNick |
| vendor/github.com/robustirc/robustirc/util/util.go:102-120 | the leader is taken from the first report with a non-empty leader in map iteration order, so a report with an empty leader passes or fails depending on that order | a follower reporting leader "" and one reporting leader "a" (`HealthAsWrittenDependsOnOrder`) | healthy only if all reports name the same non-empty leader, whatever the order | not executed | Util.CheckHealthAsWritten | Util.HealthMeansHealthy |

=== FILE: channels.dfy ===
/** Client commands about channel membership and channel state: JOIN, PART,
    KICK, TOPIC and INVITE, with the query replies JOIN shares with MODE,
    TOPIC and NAMES. */
module ChannelCommands {

  import opened Wrappers
  import opened Text
  import opened Modes
  import opened Numerics
  import opened Directory

  /** Member `nkey` of `c` holds channel-operator status. */
  predicate IsChanOp(c: Channel, nkey: string) {
    nkey in c.nicks && c.nicks[nkey]
  }

  // ---------------------------------------------------------------------
  // Query replies

  /** MODE on a channel without changes: RPL_CHANNELMODEIS with its flags. */
  function ModeQuery(st: State, sid: SessionId, name: string): Output
    requires sid in st.sessions && Fold(name) in st.channels
  {
    ToSession(sid, RPL_CHANNELMODEIS, [st.sessions[sid].nick, name, ModeString(st.channels[Fold(name)].modes)])
  }

  /** TOPIC without a new topic: RPL_NOTOPIC, or RPL_TOPIC followed by who
      set it and when (in Unix seconds). */
  function TopicQuery(st: State, sid: SessionId, name: string): seq<Output>
    requires sid in st.sessions && Fold(name) in st.channels
  {
    var nick, c := st.sessions[sid].nick, st.channels[Fold(name)];
    match c.topicTime
    case None => [ToSession(sid, RPL_NOTOPIC, [nick, name])]
    case Some(t) =>
      [ ToSession(sid, RPL_TOPIC, [nick, name, c.topic]),
        ToSession(sid, RPL_TOPICWHOTIME, [nick, name, c.topicNick, IntToString(t / NanosPerSecond)]) ]
  }

  /** NAMES of an existing channel; the sorted member list itself is not
      modelled. */
  function NamesReply(st: State, sid: SessionId, name: string): seq<Output>
    requires sid in st.sessions
  {
    [ ToSession(sid, RPL_NAMREPLY, [st.sessions[sid].nick, "=", name]),
      ToSession(sid, RPL_ENDOFNAMES, [st.sessions[sid].nick, name]) ]
  }

  /** What a successful join shows the joiner: the channel's modes, its topic
      and its members. */
  function JoinReplies(st: State, sid: SessionId, name: string): seq<Output>
    requires sid in st.sessions && Fold(name) in st.channels
  {
    [ModeQuery(st, sid, name)] + TopicQuery(st, sid, name) + NamesReply(st, sid, name)
  }

  // ---------------------------------------------------------------------
  // JOIN

  /** No new channel may be created: a non-zero limit is reached. */
  predicate LimitReached(env: Env, st: State) {
    env.channelLimit > 0 && |st.channels| >= env.channelLimit
  }

  /** The channel a new JOIN creates: no members yet, modes `n` and `t`. */
  function NewChannel(name: string): (c: Channel)
    ensures c.nicks == map[] && c.modes == {'n', 't'} && c.topicTime.None?
  {
    Channel(name, map[], {'n', 't'}, "", "", None)
  }

  /** An existing channel `c` under key `ckey` turns session `s` away: it is
      invite-only (`i`), or needs a captcha (`x`) that `key` does not solve,
      and `s` holds no invitation. */
  predicate Refuses(env: Env, c: Channel, ckey: string, s: Session, key: string) {
    ckey !in s.invitedTo && ('i' in c.modes || ('x' in c.modes && !env.captchaOk(key)))
  }

  /** The reasons JOIN of one channel fails. */
  predicate JoinRefused(env: Env, st: State, s: Session, name: string, key: string) {
    var ckey := Fold(name);
    || !IsValidChannel(name)
    || (ckey !in st.channels && LimitReached(env, st))
    || (ckey in st.channels && Refuses(env, st.channels[ckey], ckey, s, key))
  }

  /** The session's invitation to `ckey` after a successful join: used up
      when the channel is `+i` or `+x`. */
  function Consumed(s: Session, c: Channel, ckey: string): set<string> {
    if 'i' in c.modes || 'x' in c.modes then s.invitedTo - {ckey} else s.invitedTo
  }

  /** The channel JOIN goes on to: the existing one or a new one. */
  function JoinTarget(st: State, name: string): Channel {
    if Fold(name) in st.channels then st.channels[Fold(name)] else NewChannel(name)
  }

  /** The part of `cmdJoin` after the checks: create the channel if needed,
      use up the invitation, and add the session unless it is a member
      already. The first member of a new channel is its operator. */
  function Admit(st: State, sid: SessionId, name: string): (r: Reply)
    requires sid in st.sessions
    ensures r.st == Enter(st, sid, name)
  {
    var ckey := Fold(name);
    var created := ckey !in st.channels;
    var st1 := Enter(st, sid, name);
    if Fold(st.sessions[sid].nick) in JoinTarget(st, name).nicks then Reply(st1, [])
    else Reply(st1, Announce(st1, sid, name, created))
  }

  /** The state change of `Admit`. */
  function Enter(st: State, sid: SessionId, name: string): (r: State)
    requires sid in st.sessions
    ensures r.nicks == st.nicks && r.holds == st.holds && r.sessions.Keys == st.sessions.Keys
    ensures r.sessions[sid].nick == st.sessions[sid].nick
    ensures Fold(st.sessions[sid].nick) !in JoinTarget(st, name).nicks ==> Fold(name) in r.channels
    ensures forall x :: x in st.sessions && x != sid ==> r.sessions[x] == st.sessions[x]
    ensures forall k :: k != Fold(name) ==>
      (k in r.channels <==> k in st.channels) && (k in r.channels ==> r.channels[k] == st.channels[k])
  {
    var s := st.sessions[sid];
    var ckey := Fold(name);
    var nkey := Fold(s.nick);
    var c := JoinTarget(st, name);
    var st1 := UpdateSession(st, sid, s.(invitedTo := Consumed(s, c, ckey)));
    if nkey in c.nicks then st1 else Link(st1, ckey, c, nkey, ckey !in st.channels, sid)
  }

  /** The messages of a successful join: JOIN to the members (the joiner
      included), the default modes of a new channel, SJOIN to services with
      "@" marking an operator, then the replies to the joiner. */
  function Announce(st: State, sid: SessionId, name: string, created: bool): (o: seq<Output>)
    requires sid in st.sessions && Fold(name) in st.channels
    ensures var nick := st.sessions[sid].nick;
      && |o| >= 3 && o[0] == ToMembers(st, Fold(name), FromNick(nick), "JOIN", [name])
      && (created ==> o[1] == ToMembers(st, Fold(name), FromServer, "MODE", [name, "+nt"]) && o[2] == ToLink("SJOIN", ["1", name, "@" + nick]))
      && (!created ==> o[1] == ToLink("SJOIN", ["1", name, nick]))
  {
    var nick := st.sessions[sid].nick;
    var join := ToMembers(st, Fold(name), FromNick(nick), "JOIN", [name]);
    var modes := if created then [ToMembers(st, Fold(name), FromServer, "MODE", [name, "+nt"])] else [];
    var sjoin := ToLink("SJOIN", ["1", name, (if created then "@" else "") + nick]);
    assert "" + nick == nick;
    [join] + modes + [sjoin] + JoinReplies(st, sid, name)
  }

  /** One channel of `cmdJoin`, with `key` the matching entry of the key list. */
  function JoinOne(env: Env, st: State, sid: SessionId, name: string, key: string): (r: Reply)
    requires sid in st.sessions
    ensures var s := st.sessions[sid];
      JoinRefused(env, st, s, name, key) ==>
        && r.st == st && |r.out| >= 1
        && (forall i :: 0 <= i < |r.out| ==> r.out[i].to == ToUser(sid))
        && r.out[|r.out| - 1].command in {ERR_NOSUCHCHANNEL, ERR_INVITEONLYCHAN}
    ensures !JoinRefused(env, st, st.sessions[sid], name, key) ==> r == Admit(st, sid, name)
    ensures r.st.nicks == st.nicks && r.st.holds == st.holds && r.st.sessions.Keys == st.sessions.Keys
    ensures r.st.sessions[sid].nick == st.sessions[sid].nick
    ensures forall x :: x in st.sessions && x != sid ==> r.st.sessions[x] == st.sessions[x]
    ensures forall k :: k != Fold(name) ==>
      (k in r.st.channels <==> k in st.channels) && (k in r.st.channels ==> r.st.channels[k] == st.channels[k])
  {
    var s := st.sessions[sid];
    var ckey := Fold(name);
    var nkey := Fold(s.nick);
    if !IsValidChannel(name) || (ckey !in st.channels && LimitReached(env, st)) then
      Reply(st, [ToSession(sid, ERR_NOSUCHCHANNEL, [s.nick, name])])
    else if ckey in st.channels && 'i' in st.channels[ckey].modes && ckey !in s.invitedTo then
      Reply(st, [ToSession(sid, ERR_INVITEONLYCHAN, [s.nick, st.channels[ckey].name])])
    else if ckey in st.channels && Refuses(env, st.channels[ckey], ckey, s, key) then
      Reply(st, [ ToSession(sid, "NOTICE", [s.nick]),
                  ToSession(sid, ERR_INVITEONLYCHAN, [s.nick, st.channels[ckey].name]) ])
    else
      Admit(st, sid, name)
  }

  /** A session that is a member already only loses its invitation. */
  lemma AdmitMember(st: State, sid: SessionId, name: string)
    requires sid in st.sessions && Fold(st.sessions[sid].nick) in JoinTarget(st, name).nicks
    ensures var r, s := Admit(st, sid, name), st.sessions[sid];
      && r.st.channels == st.channels && r.out == []
      && r.st.sessions == st.sessions[sid := s.(invitedTo := Consumed(s, JoinTarget(st, name), Fold(name)))]
  {
  }

  /** Anyone else is added to the channel, as operator exactly when the
      channel is new, and the channel is recorded in the session. */
  lemma AdmitNewMember(st: State, sid: SessionId, name: string)
    requires sid in st.sessions && Fold(st.sessions[sid].nick) !in JoinTarget(st, name).nicks
    ensures var r, s, ckey, nkey := Admit(st, sid, name), st.sessions[sid], Fold(name), Fold(st.sessions[sid].nick);
      var c := JoinTarget(st, name);
      && ckey in r.st.channels
      && r.st.channels[ckey] == c.(nicks := c.nicks[nkey := ckey !in st.channels])
      && r.st.sessions[sid] == s.(channels := s.channels + {ckey}, invitedTo := Consumed(s, c, ckey))
      && r.out == Announce(r.st, sid, name, ckey !in st.channels)
  {
    var s, ckey, nkey := st.sessions[sid], Fold(name), Fold(st.sessions[sid].nick);
    var c := JoinTarget(st, name);
    var st1 := UpdateSession(st, sid, s.(invitedTo := Consumed(s, c, ckey)));
    var st2 := Link(st1, ckey, c, nkey, ckey !in st.channels, sid);
    assert Enter(st, sid, name) == st2;
  }

  /** JOIN of a valid channel that does not exist, below the channel limit,
      creates it with modes `n` and `t` and the joiner as its only member and
      operator, and announces "+nt". */
  lemma JoinCreates(env: Env, st: State, sid: SessionId, name: string, key: string)
    requires sid in st.sessions && IsValidChannel(name) && Fold(name) !in st.channels && !LimitReached(env, st)
    ensures var r, s := JoinOne(env, st, sid, name, key), st.sessions[sid];
      && Fold(name) in r.st.channels
      && r.st.channels[Fold(name)] == NewChannel(name).(nicks := map[Fold(s.nick) := true])
      && Fold(name) in r.st.sessions[sid].channels
      && |r.out| >= 3 && r.out[1].command == "MODE" && r.out[1].params == [name, "+nt"]
      && r.out[2] == ToLink("SJOIN", ["1", name, "@" + s.nick])
  {
    AdmitNewMember(st, sid, name);
  }

  /** JOIN of an existing channel that admits the session adds it without
      operator status and uses up an invitation to a `+i` or `+x` channel. */
  lemma JoinExisting(env: Env, st: State, sid: SessionId, name: string, key: string)
    requires sid in st.sessions && IsValidChannel(name) && Fold(name) in st.channels
    requires !Refuses(env, st.channels[Fold(name)], Fold(name), st.sessions[sid], key)
    requires Fold(st.sessions[sid].nick) !in st.channels[Fold(name)].nicks
    ensures var r, s, ckey := JoinOne(env, st, sid, name, key), st.sessions[sid], Fold(name);
      var c := st.channels[ckey];
      && ckey in r.st.channels
      && r.st.channels[ckey] == c.(nicks := c.nicks[Fold(s.nick) := false])
      && ckey in r.st.sessions[sid].channels
      && (('i' in c.modes || 'x' in c.modes) ==> ckey !in r.st.sessions[sid].invitedTo)
      && |r.out| >= 2 && r.out[1] == ToLink("SJOIN", ["1", name, s.nick])
  {
    AdmitNewMember(st, sid, name);
  }

  /** JOIN of a channel the session is already in changes no channel and
      sends nothing. */
  lemma JoinAgainIsNoop(env: Env, st: State, sid: SessionId, name: string, key: string)
    requires sid in st.sessions && IsValidChannel(name) && Fold(name) in st.channels
    requires !Refuses(env, st.channels[Fold(name)], Fold(name), st.sessions[sid], key)
    requires Fold(st.sessions[sid].nick) in st.channels[Fold(name)].nicks
    ensures var r := JoinOne(env, st, sid, name, key);
      r.st.channels == st.channels && r.out == [] && r.st.nicks == st.nicks
  {
    AdmitMember(st, sid, name);
  }

  /** `cmdJoin`'s loop: the channels in order, each with the key at the same
      position (or "" past the end of the key list). */
  function JoinEach(env: Env, st: State, sid: SessionId, names: seq<string>, keys: seq<string>): (r: Reply)
    requires sid in st.sessions
    ensures r.st.nicks == st.nicks && r.st.holds == st.holds && r.st.sessions.Keys == st.sessions.Keys
    ensures r.st.sessions[sid].nick == st.sessions[sid].nick
    ensures forall x :: x in st.sessions && x != sid ==> r.st.sessions[x] == st.sessions[x]
    decreases |names|
  {
    if |names| == 0 then Reply(st, [])
    else
      var first := JoinOne(env, st, sid, names[0], Head(keys));
      var rest := JoinEach(env, first.st, sid, names[1..], Tail(keys));
      Reply(rest.st, first.out + rest.out)
  }

  /** `cmdJoin`: a comma-separated list of channels and, optionally, of keys. */
  function Join(env: Env, st: State, sid: SessionId, msg: Message): (r: Reply)
    requires sid in st.sessions && |msg.params| >= 1
    ensures r.st.nicks == st.nicks && r.st.holds == st.holds && r.st.sessions.Keys == st.sessions.Keys
    ensures forall x :: x in st.sessions && x != sid ==> r.st.sessions[x] == st.sessions[x]
  {
    var keys := if |msg.params| > 1 then Split(msg.params[1], ',') else [];
    JoinEach(env, st, sid, Split(msg.params[0], ','), keys)
  }

  lemma JoinOneValid(env: Env, st: State, sid: SessionId, name: string, key: string)
    requires Valid(st) && Named(st, sid)
    ensures Valid(JoinOne(env, st, sid, name, key).st)
  {
    var s := st.sessions[sid];
    var ckey := Fold(name);
    if !JoinRefused(env, st, s, name, key) {
      var created := ckey !in st.channels;
      var c := JoinTarget(st, name);
      var st1 := UpdateSession(st, sid, s.(invitedTo := Consumed(s, c, ckey)));
      UpdateKeepsLinks(st, sid, s.(invitedTo := Consumed(s, c, ckey)));
      SameLinksValid(st, st1);
      if Fold(s.nick) !in c.nicks {
        LinkValid(st1, ckey, c, created, sid);
        assert JoinOne(env, st, sid, name, key).st == Link(st1, ckey, c, Fold(s.nick), created, sid);
      }
    }
  }

  /** JOIN keeps the directory consistent. */
  lemma {:induction false} JoinEachValid(env: Env, st: State, sid: SessionId, names: seq<string>, keys: seq<string>)
    requires Valid(st) && Named(st, sid)
    ensures Valid(JoinEach(env, st, sid, names, keys).st)
    decreases |names|
  {
    if |names| > 0 {
      JoinOneValid(env, st, sid, names[0], Head(keys));
      JoinEachValid(env, JoinOne(env, st, sid, names[0], Head(keys)).st, sid, names[1..], Tail(keys));
    }
  }

  // ---------------------------------------------------------------------
  // PART

  /** One channel of `cmdPart`. */
  function PartOne(st: State, sid: SessionId, name: string): (r: Reply)
    requires sid in st.sessions
    ensures r.st.nicks == st.nicks && r.st.holds == st.holds && r.st.sessions.Keys == st.sessions.Keys
    ensures forall x :: x in st.sessions && x != sid ==> r.st.sessions[x] == st.sessions[x]
    ensures forall k :: k != Fold(name) ==>
      (k in r.st.channels <==> k in st.channels) && (k in r.st.channels ==> r.st.channels[k] == st.channels[k])
    ensures var ckey, nkey := Fold(name), Fold(st.sessions[sid].nick);
      ckey !in st.channels || nkey !in st.channels[ckey].nicks ==>
        r.st == st && |r.out| == 1 && r.out[0].to == ToUser(sid) && IsError(r.out[0].command)
    ensures var s, ckey, nkey := st.sessions[sid], Fold(name), Fold(st.sessions[sid].nick);
      ckey in st.channels && nkey in st.channels[ckey].nicks ==>
        && r.st.sessions[sid] == s.(channels := s.channels - {ckey})
        && (ckey in r.st.channels <==> st.channels[ckey].nicks.Keys != {nkey})
        && (ckey in r.st.channels ==> r.st.channels[ckey] == st.channels[ckey].(nicks := st.channels[ckey].nicks - {nkey}))
        && |r.out| == 2 && r.out[0].command == "PART" && r.out[0].from == FromNick(s.nick)
        && r.out[0].to == ToChannel(ckey, st.channels[ckey].nicks.Keys) && r.out[1].to == ToServices
  {
    var s := st.sessions[sid];
    var ckey := Fold(name);
    var nkey := Fold(s.nick);
    if ckey !in st.channels then
      Reply(st, [ToSession(sid, ERR_NOSUCHCHANNEL, [s.nick, name])])
    else if nkey !in st.channels[ckey].nicks then
      Reply(st, [ToSession(sid, ERR_NOTONCHANNEL, [s.nick, name])])
    else
      var part := ToMembers(st, ckey, FromNick(s.nick), "PART", [name]);
      var m := st.channels[ckey].nicks;
      LastMember(m, nkey);
      Reply(Unlink(st, ckey, nkey, Some(sid)), [part, part.(to := ToServices)])
  }

  function PartEach(st: State, sid: SessionId, names: seq<string>): (r: Reply)
    requires sid in st.sessions
    ensures r.st.nicks == st.nicks && r.st.holds == st.holds && r.st.sessions.Keys == st.sessions.Keys
    ensures forall x :: x in st.sessions && x != sid ==> r.st.sessions[x] == st.sessions[x]
    ensures r.st.sessions[sid].nick == st.sessions[sid].nick
    decreases |names|
  {
    if |names| == 0 then Reply(st, [])
    else
      var first := PartOne(st, sid, names[0]);
      var rest := PartEach(first.st, sid, names[1..]);
      Reply(rest.st, first.out + rest.out)
  }

  /** `cmdPart`: a comma-separated list of channels. */
  function Part(st: State, sid: SessionId, msg: Message): (r: Reply)
    requires sid in st.sessions && |msg.params| >= 1
    ensures r.st.nicks == st.nicks && r.st.holds == st.holds && r.st.sessions.Keys == st.sessions.Keys
    ensures forall x :: x in st.sessions && x != sid ==> r.st.sessions[x] == st.sessions[x]
  {
    PartEach(st, sid, Split(msg.params[0], ','))
  }

  /** The member key of a session in a consistent state is its own. */
  lemma MemberOwner(st: State, sid: SessionId, ckey: string)
    requires Valid(st) && sid in st.sessions && ckey in st.channels
    requires Fold(st.sessions[sid].nick) in st.channels[ckey].nicks
    ensures Indexed(st, Fold(st.sessions[sid].nick)) && st.nicks[Fold(st.sessions[sid].nick)] == sid
  {
    var nkey := Fold(st.sessions[sid].nick);
    assert Indexed(st, nkey);
    FoldEmpty(st.sessions[sid].nick);
    assert st.sessions[sid].nick != "";
  }

  lemma PartOneValid(st: State, sid: SessionId, name: string)
    requires Valid(st) && sid in st.sessions
    ensures Valid(PartOne(st, sid, name).st)
  {
    var ckey, nkey := Fold(name), Fold(st.sessions[sid].nick);
    if ckey in st.channels && nkey in st.channels[ckey].nicks {
      MemberOwner(st, sid, ckey);
      UnlinkValid(st, ckey, nkey);
    }
  }

  /** PART keeps the directory consistent. */
  lemma {:induction false} PartEachValid(st: State, sid: SessionId, names: seq<string>)
    requires Valid(st) && sid in st.sessions
    ensures Valid(PartEach(st, sid, names).st)
    decreases |names|
  {
    if |names| > 0 {
      PartOneValid(st, sid, names[0]);
      PartEachValid(PartOne(st, sid, names[0]).st, sid, names[1..]);
    }
  }

  // ---------------------------------------------------------------------
  // KICK

  /** The reasons KICK fails, in the order they are checked: no such channel,
      the kicker is not a member, not a channel operator, or the target is not
      a member. */
  predicate KickRefused(st: State, s: Session, chan: string, target: string) {
    var ckey := Fold(chan);
    || ckey !in st.channels
    || !IsChanOp(st.channels[ckey], Fold(s.nick))
    || Fold(target) !in st.channels[ckey].nicks
  }

  /** `cmdKick`. */
  function Kick(st: State, sid: SessionId, msg: Message): (r: Reply)
    requires sid in st.sessions && |msg.params| >= 2
    ensures r.st.nicks == st.nicks && r.st.holds == st.holds && r.st.sessions.Keys == st.sessions.Keys
    ensures forall k :: k != Fold(msg.params[0]) ==>
      (k in r.st.channels <==> k in st.channels) && (k in r.st.channels ==> r.st.channels[k] == st.channels[k])
    ensures KickRefused(st, st.sessions[sid], msg.params[0], msg.params[1]) ==>
      r.st == st && |r.out| == 1 && r.out[0].to == ToUser(sid) && IsError(r.out[0].command)
    ensures var ckey, tkey := Fold(msg.params[0]), Fold(msg.params[1]);
      !KickRefused(st, st.sessions[sid], msg.params[0], msg.params[1]) ==>
        && (ckey in r.st.channels <==> st.channels[ckey].nicks - {tkey} != map[])
        && (ckey in r.st.channels ==> r.st.channels[ckey] == st.channels[ckey].(nicks := st.channels[ckey].nicks - {tkey}))
        && (Indexed(st, tkey) ==>
              r.st.sessions[st.nicks[tkey]].channels == st.sessions[st.nicks[tkey]].channels - {ckey})
        && (forall x :: x in st.sessions && (!Indexed(st, tkey) || x != st.nicks[tkey]) ==> r.st.sessions[x] == st.sessions[x])
        && |r.out| == 2 && r.out[0].command == "KICK" && r.out[0].params == [msg.params[0], msg.params[1], Trailing(msg)]
        && r.out[0].to == ToChannel(ckey, st.channels[ckey].nicks.Keys) && r.out[1].to == ToServices
  {
    var s := st.sessions[sid];
    var chan, target := msg.params[0], msg.params[1];
    var ckey, nkey, tkey := Fold(chan), Fold(s.nick), Fold(target);
    if ckey !in st.channels then
      Reply(st, [ToSession(sid, ERR_NOSUCHCHANNEL, [s.nick, chan])])
    else if nkey !in st.channels[ckey].nicks then
      Reply(st, [ToSession(sid, ERR_NOTONCHANNEL, [s.nick, chan])])
    else if !st.channels[ckey].nicks[nkey] then
      Reply(st, [ToSession(sid, ERR_CHANOPRIVSNEEDED, [s.nick, chan])])
    else if tkey !in st.channels[ckey].nicks then
      Reply(st, [ToSession(sid, ERR_USERNOTINCHANNEL, [s.nick, target, chan])])
    else
      var kick := ToMembers(st, ckey, FromNick(s.nick), "KICK", [chan, target, Trailing(msg)]);
      var owner := if tkey in st.nicks then Some(st.nicks[tkey]) else None;
      Reply(Unlink(st, ckey, tkey, owner), [kick, kick.(to := ToServices)])
  }

  /** KICK keeps the directory consistent. */
  lemma KickValid(st: State, sid: SessionId, msg: Message)
    requires Valid(st) && sid in st.sessions && |msg.params| >= 2
    ensures Valid(Kick(st, sid, msg).st)
  {
    var ckey, tkey := Fold(msg.params[0]), Fold(msg.params[1]);
    if !KickRefused(st, st.sessions[sid], msg.params[0], msg.params[1]) {
      UnlinkValid(st, ckey, tkey);
    }
  }

  // ---------------------------------------------------------------------
  // TOPIC

  /** "TOPIC <channel> :" — the form that clears the topic. */
  predicate IsUnset(msg: Message) {
    |msg.params| == 2 && Trailing(msg) == ""
  }

  /** A `+t` channel lets only its operators change the topic. */
  predicate TopicLocked(c: Channel, nkey: string) {
    't' in c.modes && !IsChanOp(c, nkey)
  }

  /** `cmdTopic`, with a non-member's attempt to clear the topic of a `+t`
      channel refused like any other non-operator's (see `TopicAsWritten`). */
  function Topic(st: State, sid: SessionId, msg: Message): (r: Reply)
    requires sid in st.sessions && |msg.params| >= 1
    ensures SameLinks(st, r.st) && r.st.sessions == st.sessions && r.st.holds == st.holds
    ensures forall k :: k in st.channels && k != Fold(msg.params[0]) ==> r.st.channels[k] == st.channels[k]
    ensures |r.out| >= 1
    ensures Fold(msg.params[0]) !in st.channels ==> r.st == st && r.out == [ToSession(sid, ERR_NOSUCHCHANNEL, [st.sessions[sid].nick, msg.params[0]])]
    ensures var ckey, nkey := Fold(msg.params[0]), Fold(st.sessions[sid].nick);
      ckey in st.channels && TopicLocked(st.channels[ckey], nkey) ==> r.st == st
    ensures var s, ckey := st.sessions[sid], Fold(msg.params[0]);
      ckey in st.channels && !TopicLocked(st.channels[ckey], Fold(s.nick)) && IsUnset(msg) ==>
        r.st.channels[ckey] == st.channels[ckey].(topic := "", topicNick := "", topicTime := None)
    ensures var s, ckey := st.sessions[sid], Fold(msg.params[0]);
      ckey in st.channels && !IsUnset(msg) && ckey !in s.channels ==>
        r.st == st && r.out == [ToSession(sid, ERR_NOTONCHANNEL, [s.nick, msg.params[0]])]
    ensures |msg.params| == 1 ==> r.st == st
    ensures var s, ckey := st.sessions[sid], Fold(msg.params[0]);
      ckey in st.channels && !TopicLocked(st.channels[ckey], Fold(s.nick)) && !IsUnset(msg) && ckey in s.channels && |msg.params| >= 2 ==>
        && r.st.channels[ckey] == st.channels[ckey].(topic := Trailing(msg), topicNick := s.nick, topicTime := Some(s.lastActivity))
        && |r.out| == 2
        && r.out[0].to == ToChannel(ckey, st.channels[ckey].nicks.Keys) && r.out[0].from == FromNick(s.nick)
        && r.out[0].command == "TOPIC" && r.out[0].params == [msg.params[0], Trailing(msg)]
        && r.out[1] == Output(ToServices, FromNick(s.nick), "TOPIC",
                              [msg.params[0], s.nick, IntToString(s.lastActivity / NanosPerSecond), Trailing(msg)])
    ensures var s, ckey := st.sessions[sid], Fold(msg.params[0]);
      ckey in st.channels && !TopicLocked(st.channels[ckey], Fold(s.nick)) && IsUnset(msg) ==>
        && |r.out| == 2
        && r.out[0].to == ToChannel(ckey, st.channels[ckey].nicks.Keys) && r.out[0].from == FromNick(s.nick)
        && r.out[0].command == "TOPIC" && r.out[0].params == [msg.params[0], ""]
        && r.out[1] == Output(ToServices, FromNick(s.nick), "TOPIC", [msg.params[0], s.nick, "0", ""])
    ensures var s, ckey := st.sessions[sid], Fold(msg.params[0]);
      ckey in st.channels && ckey in s.channels && |msg.params| == 1 ==> r.out == TopicQuery(st, sid, msg.params[0])
    ensures var s, ckey := st.sessions[sid], Fold(msg.params[0]);
      && ckey in st.channels && TopicLocked(st.channels[ckey], Fold(s.nick))
      && (IsUnset(msg) || (ckey in s.channels && |msg.params| >= 2)) ==>
        r.out == [ToSession(sid, ERR_CHANOPRIVSNEEDED, [s.nick, msg.params[0]])]
  {
    var s := st.sessions[sid];
    var name := msg.params[0];
    var ckey, nkey := Fold(name), Fold(s.nick);
    if ckey !in st.channels then
      Reply(st, [ToSession(sid, ERR_NOSUCHCHANNEL, [s.nick, name])])
    else
      var c := st.channels[ckey];
      if IsUnset(msg) then
        if TopicLocked(c, nkey) then Reply(st, [ToSession(sid, ERR_CHANOPRIVSNEEDED, [s.nick, name])])
        else
          var st1 := st.(channels := st.channels[ckey := c.(topic := "", topicNick := "", topicTime := None)]);
          Reply(st1, [ ToMembers(st1, ckey, FromNick(s.nick), "TOPIC", [name, ""]),
                       Output(ToServices, FromNick(s.nick), "TOPIC", [name, s.nick, "0", ""]) ])
      else if ckey !in s.channels then
        Reply(st, [ToSession(sid, ERR_NOTONCHANNEL, [s.nick, name])])
      else if |msg.params| == 1 then
        Reply(st, TopicQuery(st, sid, name))
      else if TopicLocked(c, nkey) then
        Reply(st, [ToSession(sid, ERR_CHANOPRIVSNEEDED, [s.nick, name])])
      else
        var topic := Trailing(msg);
        var st1 := st.(channels := st.channels[ckey := c.(topic := topic, topicNick := s.nick, topicTime := Some(s.lastActivity))]);
        Reply(st1, [ ToMembers(st1, ckey, FromNick(s.nick), "TOPIC", [name, topic]),
                     Output(ToServices, FromNick(s.nick), "TOPIC",
                            [name, s.nick, IntToString(s.lastActivity / NanosPerSecond), topic]) ])
  }

  /** A topic once set is what the next query shows: RPL_TOPIC with the new
      text, then RPL_TOPICWHOTIME naming the setter and the time in Unix
      seconds. */
  lemma TopicSetThenQuery(st: State, sid: SessionId, msg: Message)
    requires sid in st.sessions && |msg.params| >= 2 && !IsUnset(msg)
    requires var s, ckey := st.sessions[sid], Fold(msg.params[0]);
      ckey in st.channels && ckey in s.channels && !TopicLocked(st.channels[ckey], Fold(s.nick))
    ensures var s, r := st.sessions[sid], Topic(st, sid, msg);
      TopicQuery(r.st, sid, msg.params[0]) ==
        [ ToSession(sid, RPL_TOPIC, [s.nick, msg.params[0], Trailing(msg)]),
          ToSession(sid, RPL_TOPICWHOTIME, [s.nick, msg.params[0], s.nick, IntToString(s.lastActivity / NanosPerSecond)]) ]
  {
  }

  /** After the topic is cleared, a query answers RPL_NOTOPIC. */
  lemma TopicClearThenQuery(st: State, sid: SessionId, msg: Message)
    requires sid in st.sessions && IsUnset(msg)
    requires var s, ckey := st.sessions[sid], Fold(msg.params[0]);
      ckey in st.channels && !TopicLocked(st.channels[ckey], Fold(s.nick))
    ensures var s, r := st.sessions[sid], Topic(st, sid, msg);
      TopicQuery(r.st, sid, msg.params[0]) == [ToSession(sid, RPL_NOTOPIC, [s.nick, msg.params[0]])]
  {
  }

  /** Go reads `c.nicks[nick][chanop]` through a nil pointer: the `+t` check
      is reached for a session that is not a member of the channel. */
  predicate TopicDerefsNil(st: State, s: Session, msg: Message)
    requires |msg.params| >= 1
  {
    var ckey, nkey := Fold(msg.params[0]), Fold(s.nick);
    && ckey in st.channels && 't' in st.channels[ckey].modes && nkey !in st.channels[ckey].nicks
    && (IsUnset(msg) || (ckey in s.channels && |msg.params| != 1))
  }

  /** `cmdTopic` as written: `None` where the handler panics. Elsewhere it
      agrees with `Topic`, because `Topic` only differs in treating a missing
      member entry as "not an operator". */
  function TopicAsWritten(st: State, sid: SessionId, msg: Message): (r: Option<Reply>)
    requires sid in st.sessions && |msg.params| >= 1
    ensures r.None? <==> TopicDerefsNil(st, st.sessions[sid], msg)
  {
    if TopicDerefsNil(st, st.sessions[sid], msg) then None else Some(Topic(st, sid, msg))
  }

  /** In a consistent state the handler can only panic on the clearing form,
      sent by a non-member. */
  lemma TopicPanicsOnlyOnUnset(st: State, sid: SessionId, msg: Message)
    requires Valid(st) && sid in st.sessions && |msg.params| >= 1
    ensures TopicAsWritten(st, sid, msg).None? ==>
      IsUnset(msg) && Fold(msg.params[0]) !in st.sessions[sid].channels
  {
    var s := st.sessions[sid];
    var ckey := Fold(msg.params[0]);
    if ckey in s.channels {
      assert Fold(s.nick) in st.channels[ckey].nicks;
    }
  }

  /** A concrete input on which `cmdTopic` panics: "TOPIC #c :" from a session
      outside the `+t` channel `#c`. */
  lemma TopicUnsetPanics()
    ensures var bob := NewSession(0).(nick := "bob", channels := {"#c"});
      var alice := NewSession(0).(nick := "alice");
      var st := State(
        map[SessionId(1, 0) := alice, SessionId(2, 0) := bob],
        map["alice" := SessionId(1, 0), "bob" := SessionId(2, 0)],
        map["#c" := Channel("#c", map["bob" := true], {'t'}, "hi", "bob", Some(0))],
        map[], []);
      && Valid(st)
      && TopicAsWritten(st, SessionId(1, 0), Message(None, "TOPIC", ["#c", ""])).None?
  {
    var bob := NewSession(0).(nick := "bob", channels := {"#c"});
    var alice := NewSession(0).(nick := "alice");
    var st := State(
      map[SessionId(1, 0) := alice, SessionId(2, 0) := bob],
      map["alice" := SessionId(1, 0), "bob" := SessionId(2, 0)],
      map["#c" := Channel("#c", map["bob" := true], {'t'}, "hi", "bob", Some(0))],
      map[], []);
    assert Fold("alice") == "alice" && Fold("bob") == "bob" && Fold("#c") == "#c";
    assert "bob" in st.channels["#c"].nicks;
    assert Valid(st);
  }

  // ---------------------------------------------------------------------
  // INVITE

  /** The reasons INVITE fails, in the order they are checked. */
  predicate InviteRefused(st: State, s: Session, target: string, chan: string) {
    var ckey, nkey, tkey := Fold(chan), Fold(s.nick), Fold(target);
    || ckey !in st.channels
    || nkey !in st.channels[ckey].nicks
    || !Indexed(st, tkey)
    || tkey in st.channels[ckey].nicks
    || ('i' in st.channels[ckey].modes && !st.channels[ckey].nicks[nkey])
  }

  /** `cmdInvite`: records the invitation in the invited session. */
  function Invite(st: State, sid: SessionId, msg: Message): (r: Reply)
    requires sid in st.sessions && |msg.params| >= 2
    ensures SameLinks(st, r.st) && r.st.channels == st.channels && r.st.holds == st.holds
    ensures InviteRefused(st, st.sessions[sid], msg.params[0], msg.params[1]) ==>
      r.st == st && |r.out| == 1 && r.out[0].to == ToUser(sid) && IsError(r.out[0].command)
    ensures var ckey, tkey := Fold(msg.params[1]), Fold(msg.params[0]);
      !InviteRefused(st, st.sessions[sid], msg.params[0], msg.params[1]) ==>
        && r.st.sessions == st.sessions[st.nicks[tkey] := st.sessions[st.nicks[tkey]].(invitedTo := st.sessions[st.nicks[tkey]].invitedTo + {ckey})]
        && |r.out| >= 4 && r.out[0].command == RPL_INVITING
        && r.out[1].to == ToUser(st.nicks[tkey]) && r.out[1].command == "INVITE" && r.out[2].to == ToServices
        && (|r.out| == 5 <==> st.sessions[st.nicks[tkey]].awayMsg != "")
  {
    var s := st.sessions[sid];
    var target, chan := msg.params[0], msg.params[1];
    var ckey, nkey, tkey := Fold(chan), Fold(s.nick), Fold(target);
    if ckey !in st.channels || nkey !in st.channels[ckey].nicks then
      Reply(st, [ToSession(sid, ERR_NOTONCHANNEL, [s.nick, chan])])
    else if !Indexed(st, tkey) then
      Reply(st, [ToSession(sid, ERR_NOSUCHNICK, [s.nick, target])])
    else
      var c := st.channels[ckey];
      var tsid := st.nicks[tkey];
      var t := st.sessions[tsid];
      if tkey in c.nicks then
        Reply(st, [ToSession(sid, ERR_USERONCHANNEL, [s.nick, t.nick, c.name])])
      else if 'i' in c.modes && !c.nicks[nkey] then
        Reply(st, [ToSession(sid, ERR_CHANOPRIVSNEEDED, [s.nick, c.name])])
      else
        var invite := Output(ToUser(tsid), FromNick(s.nick), "INVITE", [t.nick, c.name]);
        var away := if t.awayMsg != "" then [ToSession(sid, RPL_AWAY, [s.nick, target, t.awayMsg])] else [];
        UpdateKeepsLinks(st, tsid, t.(invitedTo := t.invitedTo + {ckey}));
        Reply(UpdateSession(st, tsid, t.(invitedTo := t.invitedTo + {ckey})),
              [ ToSession(sid, RPL_INVITING, [s.nick, t.nick, c.name]),
                invite, invite.(to := ToServices),
                ToMembers(st, ckey, FromServer, "NOTICE", [c.name]) ] + away)
  }
}

=== FILE: commands.dfy ===
/** Handlers of client commands: each takes the state, the calling session
    and the parsed message, and returns the new state with the messages it
    sends. Parameter-count checks happen before a handler runs (see
    `Dispatch`), so handlers require the counts their command table entry
    guarantees. */
module Commands {

  import opened Wrappers
  import opened Text
  import opened Modes
  import opened Numerics
  import opened Directory
  import opened ModeEffects

  // ---------------------------------------------------------------------
  // Passwords and login

  /** The first of `parts` that starts with `p`, with `p` cut off, or ""
      when none does. */
  function FirstWithPrefix(parts: seq<string>, p: string): string
    decreases |parts|
  {
    if |parts| == 0 then ""
    else if HasPrefix(parts[0], p) then parts[0][|p|..]
    else FirstWithPrefix(parts[1..], p)
  }

  /** `extractPassword`: the password filed under `key` in a PASS value made
      of colon-separated "<key>=<password>" parts, or "" when there is none. */
  function ExtractPassword(pass: string, key: string): string {
    FirstWithPrefix(Split(pass, ':'), key + "=")
  }

  /** Whether `maybeLogin` lets session `s` in: it has a nickname and a user
      name and, when login needs a captcha, the captcha filed in its password
      checks out. */
  predicate CanLogin(env: Env, s: Session) {
    s.nick != "" && s.username != "" && (!env.captchaForLogin || env.captchaOk(ExtractPassword(s.pass, "captcha")))
  }

  /** Whether `name` and `password` match a configured operator. */
  predicate IsOperLogin(env: Env, name: string, password: string) {
    OperLogin(name, password) in env.operators
  }

  /** The replies of `cmdOper` to session `sid` with nickname `nick` and
      user modes `modes`: RPL_YOUREOPER and the new user modes (to the user
      and to services) for a matching login, ERR_PASSWDMISMATCH otherwise. */
  function OperReplies(env: Env, sid: SessionId, nick: string, modes: set<char>, name: string, password: string): seq<Output> {
    if !IsOperLogin(env, name, password) then [ToSession(sid, ERR_PASSWDMISMATCH, [nick, "Password incorrect"])]
    else
      var mode := ToSession(sid, "MODE", [nick, ModeString(modes + {'o'})]);
      [ToSession(sid, RPL_YOUREOPER, [nick, "You are now an IRC operator"]), mode, mode.(to := ToServices)]
  }

  /** `cmdOper`: a matching login makes the session an IRC operator with user
      mode +o and tells the user, and services, its new user modes; any other
      login gets ERR_PASSWDMISMATCH and changes nothing. */
  function Oper(env: Env, st: State, sid: SessionId, msg: Message): (r: Reply)
    requires sid in st.sessions && |msg.params| >= 2
    ensures SameLinks(st, r.st)
    ensures var s, ok := st.sessions[sid], IsOperLogin(env, msg.params[0], msg.params[1]);
      && r.st == UpdateSession(st, sid, s.(operator := s.operator || ok, modes := if ok then s.modes + {'o'} else s.modes))
      && (ok ==> |r.out| == 3 && r.out[0] == ToSession(sid, RPL_YOUREOPER, [s.nick, "You are now an IRC operator"])
                 && r.out[1] == ToSession(sid, "MODE", [s.nick, ModeString(s.modes + {'o'})])
                 && r.out[2] == r.out[1].(to := ToServices) && 'o' in r.out[1].params[1])
      && (!ok ==> r.out == [ToSession(sid, ERR_PASSWDMISMATCH, [s.nick, "Password incorrect"])])
  {
    var s := st.sessions[sid];
    var ok := IsOperLogin(env, msg.params[0], msg.params[1]);
    var s1 := s.(operator := s.operator || ok, modes := if ok then s.modes + {'o'} else s.modes);
    UpdateKeepsLinks(st, sid, s1);
    assert 'o' in ModeString(s.modes + {'o'})[1..];
    Reply(UpdateSession(st, sid, s1), OperReplies(env, sid, s.nick, s.modes, msg.params[0], msg.params[1]))
  }

  /** The OPER message `maybeLogin` builds from an "oper=<name> <password>"
      part of the password: its space-separated words. */
  function OperArgs(pass: string): seq<string> {
    Split(ExtractPassword(pass, "oper"), ' ')
  }

  /** Whether the password carries an operator login with both a name and a
      password. */
  predicate OperAttempted(pass: string) {
    ExtractPassword(pass, "oper") != "" && |OperArgs(pass)| > 1
  }

  /** Whether that login matches a configured operator. */
  predicate OperGranted(env: Env, pass: string) {
    OperAttempted(pass) && IsOperLogin(env, OperArgs(pass)[0], OperArgs(pass)[1])
  }

  /** The welcome burst: RPL_WELCOME to RPL_ISUPPORT, then the user's
      introduction to services. */
  function Welcome(env: Env, sid: SessionId, s: Session): (w: seq<Output>)
    ensures |w| == 6 && w[0].command == RPL_WELCOME
    ensures forall i :: 0 <= i < 5 ==> w[i].to == ToUser(sid) && w[i].from == FromServer
    ensures w[5].to == ToServices && w[5].from == NoPrefix && w[5].command == "NICK" && |w[5].params| == 9
  {
    [ ToSession(sid, RPL_WELCOME, [s.nick, "Welcome to RobustIRC!"]),
      ToSession(sid, RPL_YOURHOST, [s.nick, "Your host is " + env.serverName]),
      ToSession(sid, RPL_CREATED, [s.nick, "This server was created " + env.created]),
      ToSession(sid, RPL_MYINFO, [s.nick, env.serverName + " v1 i nstix"]),
      ToSession(sid, RPL_ISUPPORT, ["CHANTYPES=#", "CHANNELLEN=" + env.maxChannelLen, "NICKLEN=" + env.maxNickLen,
                                   "MODES=1", "PREFIX=(o)@", "KNOCK", "are supported by this server"]),
      Output(ToServices, NoPrefix, "NICK", [s.nick, "1", "1", s.username, env.hostOf(sid), env.serverName, s.svid, "+", s.realname]) ]
  }

  /** The NickServ identification sent on the user's behalf when the password
      carries one. */
  function Identify(s: Session): seq<Output> {
    var pw := ExtractPassword(s.pass, "nickserv");
    if pw != "" then [Output(ToServices, FromNick(s.nick), "PRIVMSG", ["NickServ", "IDENTIFY " + pw])] else []
  }

  /** The message of the day: three replies to the user. */
  function MotdLines(env: Env, sid: SessionId, nick: string): seq<Output> {
    [ ToSession(sid, RPL_MOTDSTART, [nick, "- " + env.serverName + " Message of the day -"]),
      ToSession(sid, RPL_MOTD, [nick, "- No MOTD configured yet."]),
      ToSession(sid, RPL_ENDOFMOTD, [nick, "End of MOTD command"]) ]
  }

  /** `cmdMotd`. */
  function Motd(env: Env, st: State, sid: SessionId): (r: Reply)
    requires sid in st.sessions
    ensures r.st == st && |r.out| == 3
    ensures forall i :: 0 <= i < 3 ==> r.out[i].to == ToUser(sid) && |r.out[i].params| == 2 && r.out[i].params[0] == st.sessions[sid].nick
    ensures r.out[0].command == RPL_MOTDSTART && r.out[2].command == RPL_ENDOFMOTD
  {
    Reply(st, MotdLines(env, sid, st.sessions[sid].nick))
  }

  /** The replies of the operator login step of `maybeLogin`. */
  function LoginOperReplies(env: Env, sid: SessionId, s: Session): seq<Output> {
    if OperAttempted(s.pass) then OperReplies(env, sid, s.nick, s.modes, OperArgs(s.pass)[0], OperArgs(s.pass)[1]) else []
  }

  /** The operator login step of `maybeLogin`. */
  function OperStep(env: Env, st: State, sid: SessionId): (r: Reply)
    requires sid in st.sessions
    ensures var s, ok := st.sessions[sid], OperGranted(env, st.sessions[sid].pass);
      r.st == UpdateSession(st, sid, s.(operator := s.operator || ok, modes := if ok then s.modes + {'o'} else s.modes))
    ensures r.out == LoginOperReplies(env, sid, st.sessions[sid])
  {
    var s := st.sessions[sid];
    if OperAttempted(s.pass) then Oper(env, st, sid, Message(None, "OPER", OperArgs(s.pass)))
    else
      assert UpdateSession(st, sid, s) == st;
      Reply(st, [])
  }

  /** The session a fresh login leaves behind: logged in, its password
      dropped, and an IRC operator with mode +o when its password carried a
      matching operator login. */
  function LoggedIn(env: Env, s: Session): Session {
    var op := OperGranted(env, s.pass);
    s.(loggedIn := true, pass := "", operator := s.operator || op, modes := if op then s.modes + {'o'} else s.modes)
  }

  /** Whether `maybeLogin` logs session `s` in now. */
  predicate LogsIn(env: Env, s: Session) {
    !s.loggedIn && CanLogin(env, s)
  }

  /** `maybeLogin`: logs the session in once it has both a nickname and a
      user name (and, where required, a valid captcha); the login identifies
      to NickServ and logs in as an operator when the password says so. */
  function MaybeLogin(env: Env, st: State, sid: SessionId): (r: Reply)
    requires sid in st.sessions
    ensures SameLinks(st, r.st)
    ensures r.st == if LogsIn(env, st.sessions[sid]) then UpdateSession(st, sid, LoggedIn(env, st.sessions[sid])) else st
    ensures r.st.sessions[sid].loggedIn <==> st.sessions[sid].loggedIn || CanLogin(env, st.sessions[sid])
    ensures LogsIn(env, st.sessions[sid]) ==> |r.out| > 0 && r.out[0].command == RPL_WELCOME
  {
    if LogsIn(env, st.sessions[sid]) then FreshLogin(env, st, sid)
    else Reply(st, Refusal(env, sid, st.sessions[sid]))
  }

  /** What a session that is not logged in yet hears when it cannot log in:
      nothing while its nickname or user name is missing, a captcha notice
      when the captcha required for login does not check out. */
  function Refusal(env: Env, sid: SessionId, s: Session): seq<Output> {
    if s.loggedIn || s.nick == "" || s.username == "" then []
    else if env.captchaForLogin && !env.captchaOk(ExtractPassword(s.pass, "captcha")) then
      [ToSession(sid, "NOTICE", [s.nick])]
    else []
  }

  /** MaybeLogin after the session was replaced by `s1` comes to one
      update of the session, which keeps the links. */
  lemma LoginAfter(env: Env, st: State, sid: SessionId, s1: Session)
    requires sid in st.sessions
    requires Fold(s1.nick) == Fold(st.sessions[sid].nick) && s1.channels == st.sessions[sid].channels
    ensures var r := MaybeLogin(env, UpdateSession(st, sid, s1), sid);
      && r.st == UpdateSession(st, sid, if LogsIn(env, s1) then LoggedIn(env, s1) else s1)
      && SameLinks(st, r.st)
  {
    UpdateTwice(st, sid, s1, LoggedIn(env, s1));
    UpdateKeepsLinks(st, sid, if LogsIn(env, s1) then LoggedIn(env, s1) else s1);
  }

  /** A login that goes ahead, in `maybeLogin`'s order: logged in, the
      welcome burst, the NickServ identification, the operator step, the
      password dropped, the message of the day. */
  function FreshLogin(env: Env, st: State, sid: SessionId): (r: Reply)
    requires sid in st.sessions
    ensures SameLinks(st, r.st) && r.st == UpdateSession(st, sid, LoggedIn(env, st.sessions[sid]))
    ensures var s := st.sessions[sid];
      r.out == Welcome(env, sid, s) + (Identify(s) + LoginOperReplies(env, sid, s) + MotdLines(env, sid, s.nick))
  {
    var s := st.sessions[sid];
    var s1 := s.(loggedIn := true);
    var oper := OperStep(env, UpdateSession(st, sid, s1), sid);
    var s2 := oper.st.sessions[sid].(pass := "");
    UpdateTwice(st, sid, s1, oper.st.sessions[sid]);
    UpdateTwice(st, sid, oper.st.sessions[sid], s2);
    UpdateKeepsLinks(st, sid, LoggedIn(env, s));
    var st2 := UpdateSession(oper.st, sid, s2);
    Reply(st2, Welcome(env, sid, s) + (Identify(s) + oper.out + Motd(env, st2, sid).out))
  }

  /** A fresh login's replies, piece by piece. */
  lemma MaybeLoginOut(env: Env, st: State, sid: SessionId)
    requires sid in st.sessions && LogsIn(env, st.sessions[sid])
    ensures var s := st.sessions[sid];
      MaybeLogin(env, st, sid).out
        == Welcome(env, sid, s) + (Identify(s) + LoginOperReplies(env, sid, s) + MotdLines(env, sid, s.nick))
  {
  }

  /** The operator step's replies by outcome. */
  lemma LoginOperShape(env: Env, sid: SessionId, s: Session)
    ensures var op := LoginOperReplies(env, sid, s);
      && (OperGranted(env, s.pass) ==>
            |op| == 3 && op[0].command == RPL_YOUREOPER && op[2] == ToLink("MODE", [s.nick, ModeString(s.modes + {'o'})]))
      && (OperAttempted(s.pass) && !OperGranted(env, s.pass) ==> |op| == 1 && op[0].command == ERR_PASSWDMISMATCH)
      && (!OperAttempted(s.pass) ==> op == [])
  {
  }

  /** Where the pieces of a fresh login's replies sit. */
  lemma Layout(w: seq<Output>, id: seq<Output>, op: seq<Output>, m: seq<Output>)
    requires |w| == 6 && |m| == 3
    ensures var out := w + (id + op + m);
      && |out| == 9 + |id| + |op|
      && out[0] == w[0] && out[5] == w[5]
      && (|id| > 0 ==> out[6] == id[0])
      && (forall i :: 0 <= i < |op| ==> out[6 + |id| + i] == op[i])
      && out[|out| - 3] == m[0] && out[|out| - 1] == m[2]
  {
  }

  /** A fresh login opens with RPL_WELCOME and the user's full introduction
      to services, and closes with the message of the day. */
  lemma LoginFrames(env: Env, st: State, sid: SessionId)
    requires sid in st.sessions && LogsIn(env, st.sessions[sid])
    ensures var r, s := MaybeLogin(env, st, sid), st.sessions[sid];
      && |r.out| == 9 + |Identify(s)| + |LoginOperReplies(env, sid, s)|
      && r.out[0] == ToSession(sid, RPL_WELCOME, [s.nick, "Welcome to RobustIRC!"])
      && r.out[5] == Output(ToServices, NoPrefix, "NICK", [s.nick, "1", "1", s.username, env.hostOf(sid), env.serverName, s.svid, "+", s.realname])
      && r.out[|r.out| - 3].command == RPL_MOTDSTART && r.out[|r.out| - 1].command == RPL_ENDOFMOTD
  {
    var s := st.sessions[sid];
    MaybeLoginOut(env, st, sid);
    Layout(Welcome(env, sid, s), Identify(s), LoginOperReplies(env, sid, s), MotdLines(env, sid, s.nick));
  }

  /** The login identifies to NickServ, right after the welcome burst,
      exactly when the password carries a NickServ password. */
  lemma LoginIdentifies(env: Env, st: State, sid: SessionId)
    requires sid in st.sessions && LogsIn(env, st.sessions[sid])
    ensures var r, s := MaybeLogin(env, st, sid), st.sessions[sid];
      var pw := ExtractPassword(s.pass, "nickserv");
      && |Identify(s)| == (if pw != "" then 1 else 0)
      && (pw != "" ==> |r.out| > 6 && r.out[6] == Output(ToServices, FromNick(s.nick), "PRIVMSG", ["NickServ", "IDENTIFY " + pw]))
  {
    var s := st.sessions[sid];
    MaybeLoginOut(env, st, sid);
    Layout(Welcome(env, sid, s), Identify(s), LoginOperReplies(env, sid, s), MotdLines(env, sid, s.nick));
  }

  /** After the identification come `cmdOper`'s replies: RPL_YOUREOPER and
      the new modes for services for a matching operator login,
      ERR_PASSWDMISMATCH for another, and nothing when the password carries
      none. */
  lemma LoginOpers(env: Env, st: State, sid: SessionId)
    requires sid in st.sessions && LogsIn(env, st.sessions[sid])
    ensures var r, s := MaybeLogin(env, st, sid), st.sessions[sid];
      var k := |Identify(s)|;
      && (OperGranted(env, s.pass) ==>
            |r.out| == 12 + k && r.out[6 + k].command == RPL_YOUREOPER
            && r.out[8 + k] == ToLink("MODE", [s.nick, ModeString(s.modes + {'o'})]))
      && (OperAttempted(s.pass) && !OperGranted(env, s.pass) ==> |r.out| == 10 + k && r.out[6 + k].command == ERR_PASSWDMISMATCH)
      && (!OperAttempted(s.pass) ==> |r.out| == 9 + k)
  {
    var s := st.sessions[sid];
    var id, op := Identify(s), LoginOperReplies(env, sid, s);
    MaybeLoginOut(env, st, sid);
    LoginOperShape(env, sid, s);
    Layout(Welcome(env, sid, s), id, op, MotdLines(env, sid, s.nick));
    var out := MaybeLogin(env, st, sid).out;
    if |op| > 0 {
      assert out[6 + |id| + 0] == op[0];
    }
    if |op| == 3 {
      assert out[6 + |id| + 2] == op[2];
    }
  }

  /** A PASS with one bare password files it for NickServ, and the login
      identifies with exactly that password. */
  lemma PassIdentifies(p: string)
    requires ':' !in p && !KnownPassPrefix(p)
    ensures ExtractPassword(StoredPass("", [p]), "nickserv") == p
  {
    var x := "nickserv=" + p;
    assert StoredPass("", [p]) == x;
    assert ':' !in x by {
      forall i | 0 <= i < |x| ensures x[i] != ':' {
        if i >= 9 { assert x[i] == p[i - 9]; }
      }
    }
    SplitJoin([x], ':');
    assert Split(x, ':') == [x];
    assert HasPrefix(x, "nickserv" + "=") by { assert x[..9] == "nickserv="; }
    assert x[9..] == p;
  }

  // ---------------------------------------------------------------------
  // NICK

  function NickParam(msg: Message): string {
    if |msg.params| > 0 then msg.params[0] else ""
  }

  /** A logged-in session changing only the capitalisation of its nickname. */
  predicate OnlyCaps(s: Session, nick: string) {
    s.loggedIn && Fold(nick) == Fold(s.nick)
  }

  /** The hold on `nick`, if any, has not expired at the session's last
      activity. */
  predicate HeldFor(st: State, s: Session, nick: string) {
    Fold(nick) in st.holds && s.lastActivity <= st.holds[Fold(nick)].added + st.holds[Fold(nick)].duration
  }

  /** The reasons NICK refuses a nickname. */
  predicate NickRefused(st: State, s: Session, nick: string) {
    || nick == ""
    || !IsValidNickname(nick)
    || (Fold(nick) in st.nicks && !OnlyCaps(s, nick))
    || IsServicesNickname(nick)
    || HeldFor(st, s, nick)
  }

  /** `cmdNick`. */
  function Nick(env: Env, st: State, sid: SessionId, msg: Message): (r: Reply)
    requires sid in st.sessions
    ensures sid in r.st.sessions
    ensures var s, nick := st.sessions[sid], NickParam(msg);
      NickRefused(st, s, nick) ==>
        r.st == st && |r.out| == 1 && r.out[0].to == ToUser(sid) && IsError(r.out[0].command)
  {
    var s := st.sessions[sid];
    var nick := NickParam(msg);
    var key := Fold(nick);
    var dest := if s.loggedIn then s.nick else "*";
    if nick == "" then
      Reply(st, [ToSession(sid, ERR_NONICKNAMEGIVEN, [])])
    else if !IsValidNickname(nick) then
      Reply(st, [ToSession(sid, ERR_ERRONEUSNICKNAME, [dest, nick])])
    else if (key in st.nicks && !OnlyCaps(s, nick)) || IsServicesNickname(nick) then
      Reply(st, [ToSession(sid, ERR_NICKNAMEINUSE, [dest, nick])])
    else if HeldFor(st, s, nick) then
      Reply(st, [ToSession(sid, ERR_ERRONEUSNICKNAME, [dest, nick, st.holds[key].reason])])
    else
      var st1 := st.(holds := st.holds - {key});
      if s.nick == "" then
        MaybeLogin(env, SetNick(st1, sid, nick), sid)
      else
        var st2 := if OnlyCaps(s, nick) then SetNick(st1, sid, nick) else Rename(st1, sid, Fold(s.nick), nick);
        var change := Output(ToUser(sid), FromNick(s.nick), "NICK", [nick]);
        Reply(st2, [change, change.(to := ToCommonChannels(sid)), change.(to := ToServices)])
  }

  /** An accepted NICK gives the session the nickname, points the index at
      the session under its key and lifts any reservation of that key. */
  lemma NickTakes(env: Env, st: State, sid: SessionId, msg: Message)
    requires Valid(st) && sid in st.sessions
    ensures var r, s, nick := Nick(env, st, sid, msg), st.sessions[sid], NickParam(msg);
      !NickRefused(st, s, nick) ==>
        && r.st.sessions[sid].nick == nick
        && Fold(nick) in r.st.nicks && r.st.nicks[Fold(nick)] == sid
        && r.st.holds == st.holds - {Fold(nick)}
  {
    var s, nick := st.sessions[sid], NickParam(msg);
    if !NickRefused(st, s, nick) && s.nick != "" && !OnlyCaps(s, nick) {
      assert Fold(s.nick) in st.nicks;
      assert Fold(nick) != Fold(s.nick);
    }
  }

  /** A rename moves the index entry and every membership key to the new
      nickname and announces the change; a change of capitalisation only
      keeps both. */
  lemma NickRenames(env: Env, st: State, sid: SessionId, msg: Message)
    requires Valid(st) && sid in st.sessions
    ensures var r, s, nick := Nick(env, st, sid, msg), st.sessions[sid], NickParam(msg);
      && (!NickRefused(st, s, nick) && s.nick != "" && !OnlyCaps(s, nick) ==>
            && Fold(s.nick) !in r.st.nicks
            && r.st.channels == RenameMembers(st.channels, Fold(s.nick), Fold(nick))
            && |r.out| == 3 && r.out[0].command == "NICK" && r.out[0].from == FromNick(s.nick))
      && (!NickRefused(st, s, nick) && OnlyCaps(s, nick) ==>
            r.st.nicks == st.nicks && r.st.channels == st.channels)
  {
    var s, nick := st.sessions[sid], NickParam(msg);
    if !NickRefused(st, s, nick) && OnlyCaps(s, nick) {
      assert Fold(nick) in st.nicks && st.nicks[Fold(nick)] == sid;
    }
  }

  /** NICK keeps the directory consistent. */
  lemma NickValid(env: Env, st: State, sid: SessionId, msg: Message)
    requires Valid(st) && sid in st.sessions
    ensures Valid(Nick(env, st, sid, msg).st)
  {
    var s := st.sessions[sid];
    var nick := NickParam(msg);
    if !NickRefused(st, s, nick) {
      var st1 := st.(holds := st.holds - {Fold(nick)});
      assert Valid(st1) by { SameLinksValid(st, st1); }
      if s.nick == "" {
        assert Fold(nick) != "";
        SetNickFreshValid(st1, sid, nick);
        SameLinksValid(SetNick(st1, sid, nick), Nick(env, st, sid, msg).st);
      } else if OnlyCaps(s, nick) {
        SameLinksValid(st1, SetNick(st1, sid, nick));
      } else {
        RenameValid(st1, sid, nick);
      }
    }
  }

  // ---------------------------------------------------------------------
  // USER, PASS, AWAY

  /** `cmdUser`: records the user name and real name, then tries to log in. */
  function User(env: Env, st: State, sid: SessionId, msg: Message): (r: Reply)
    requires sid in st.sessions && |msg.params| >= 3
    ensures SameLinks(st, r.st) && r.st.channels == st.channels && r.st.holds == st.holds
    ensures r.st.sessions[sid].username == msg.params[0]
    ensures r.st.sessions[sid].realname == Trailing(msg)
    ensures r.st.sessions[sid].loggedIn <==>
              st.sessions[sid].loggedIn || CanLogin(env, st.sessions[sid].(username := msg.params[0]))
  {
    var s := st.sessions[sid];
    var s1 := s.(username := msg.params[0], realname := Trailing(msg));
    LoginAfter(env, st, sid, s1);
    MaybeLogin(env, UpdateSession(st, sid, s1), sid)
  }

  /** The password prefixes PASS recognises; anything else is taken as a
      NickServ password. */
  predicate KnownPassPrefix(p: string) {
    || HasPrefix(p, "nickserv=") || HasPrefix(p, "services=") || HasPrefix(p, "network=")
    || HasPrefix(p, "oper=") || HasPrefix(p, "session=") || HasPrefix(p, "captcha=")
  }

  /** The password PASS stores: all parameters joined by spaces (or the
      previous password when there are none), prefixed with "nickserv=" unless
      it already carries a known prefix. */
  function StoredPass(previous: string, params: seq<string>): (p: string)
    ensures KnownPassPrefix(p)
  {
    var joined := if |params| > 0 then Join(params, ' ') else previous;
    if KnownPassPrefix(joined) then joined
    else
      assert HasPrefix("nickserv=" + joined, "nickserv=") by {
        assert ("nickserv=" + joined)[..9] == "nickserv=";
      }
      "nickserv=" + joined
  }

  /** `cmdPass`. */
  function Pass(env: Env, st: State, sid: SessionId, msg: Message): (r: Reply)
    requires sid in st.sessions
    ensures SameLinks(st, r.st) && r.st.channels == st.channels && r.st.holds == st.holds
    ensures !r.st.sessions[sid].loggedIn ==> r.st.sessions[sid].pass == StoredPass(st.sessions[sid].pass, msg.params)
    ensures !r.st.sessions[sid].loggedIn ==> KnownPassPrefix(r.st.sessions[sid].pass)
    ensures r.st.sessions[sid].loggedIn && !st.sessions[sid].loggedIn ==> r.st.sessions[sid].pass == ""
  {
    var s := st.sessions[sid];
    var s1 := s.(pass := StoredPass(s.pass, msg.params));
    LoginAfter(env, st, sid, s1);
    MaybeLogin(env, UpdateSession(st, sid, s1), sid)
  }

  /** `cmdAway`: the away message is the trimmed trailing parameter; an empty
      one marks the session as back. */
  function Away(st: State, sid: SessionId, msg: Message): (r: Reply)
    requires sid in st.sessions
    ensures SameLinks(st, r.st) && r.st.channels == st.channels && r.st.holds == st.holds
    ensures r.st.sessions[sid] == st.sessions[sid].(awayMsg := TrimSpace(Trailing(msg)))
    ensures |r.out| == 1 && r.out[0].to == ToUser(sid)
    ensures r.out[0].command == RPL_UNAWAY <==> Blank(Trailing(msg))
    ensures r.out[0].command == RPL_NOWAWAY <==> !Blank(Trailing(msg))
  {
    var s := st.sessions[sid];
    var away := TrimSpace(Trailing(msg));
    TrimSpaceEmptyIffBlank(Trailing(msg));
    var st1 := UpdateSession(st, sid, s.(awayMsg := away));
    UpdateKeepsLinks(st, sid, s.(awayMsg := away));
    if away != "" then Reply(st1, [ToSession(sid, RPL_NOWAWAY, [s.nick])])
    else Reply(st1, [ToSession(sid, RPL_UNAWAY, [s.nick])])
  }
}

=== FILE: directory.dfy ===
/** The IRC server's state: sessions, the nickname index, channels and
    SVSHOLDs, together with the messages handlers receive and the replies
    they produce. The consistency invariant `Valid` ties the nickname index,
    the channel member lists and the sessions' channel sets together; the
    lemmas at the end show which updates keep it. */
module Directory {

  import opened Wrappers
  import opened Text

  /** `types.RobustId`: the connection's id and the id of the message being
      answered (non-zero for services' sub-sessions). */
  datatype SessionId = SessionId(id: int, reply: int)

  datatype Session = Session(
    nick: string,
    username: string,
    realname: string,
    modes: set<char>,
    awayMsg: string,
    operator: bool,
    server: bool,
    loggedIn: bool,
    pass: string,
    svid: string,
    channels: set<string>,   // folded channel names
    invitedTo: set<string>,  // folded channel names
    lastActivity: int)       // nanoseconds

  /** A session as it is created: no nickname, no channels, not logged in. */
  function NewSession(lastActivity: int): (s: Session)
    ensures s.nick == "" && s.channels == {} && !s.loggedIn && !s.server
  {
    Session("", "", "", {}, "", false, false, false, "", "0", {}, {}, lastActivity)
  }

  /** A channel: its members keyed by folded nickname, each with its
      channel-operator bit. `topicTime` is `None` while it holds Go's zero
      time, i.e. while no topic is set. */
  datatype Channel = Channel(
    name: string,
    nicks: map<string, bool>,
    modes: set<char>,
    topic: string,
    topicNick: string,
    topicTime: Option<int>)

  /** An SVSHOLD: the nickname is reserved until `added + duration`. */
  datatype Hold = Hold(added: int, duration: int, reason: string)

  datatype State = State(
    sessions: map<SessionId, Session>,
    nicks: map<string, SessionId>,      // folded nickname -> session
    channels: map<string, Channel>,     // folded channel name -> channel
    holds: map<string, Hold>,           // folded nickname -> hold
    serverSessions: seq<int>)           // ids of sessions that sent SERVER

  /** An incoming IRC message (gopkg.in/sorcix/irc.v2's `irc.Message`), with
      the trailing parameter as the last element of `params`. The prefix's
      name is None for a line without a `:prefix`, where Go's `msg.Prefix` is
      nil. */
  datatype Message = Message(prefix: Option<string>, command: string, params: seq<string>)

  /** `msg.Prefix.Name`. Without a prefix Go dereferences nil and panics;
      `Dispatch` turns those inputs into a panic before any handler reads
      this, so the "" it gives then is never observed. */
  function Sender(msg: Message): string {
    if msg.prefix.Some? then msg.prefix.value else ""
  }

  /** `msg.Trailing()`: the last parameter, or "" when there is none. */
  function Trailing(msg: Message): (t: string)
    ensures |msg.params| > 0 ==> t == msg.params[|msg.params| - 1]
    ensures |msg.params| == 0 ==> t == ""
  {
    if |msg.params| > 0 then msg.params[|msg.params| - 1] else ""
  }

  /** The prefix an outgoing message carries. */
  datatype Origin =
    | FromServer               // the server's own prefix
    | FromNick(name: string)   // a user's prefix, reduced to the nickname
    | FromLink(link: SessionId) // the prefix a server link announced
    | NoPrefix                 // no prefix at all

  /** Where an outgoing message goes. A channel message records the folded
      members at the moment it is sent. */
  datatype Target =
    | ToUser(sid: SessionId)
    | ToChannel(chan: string, members: set<string>)
    | ToCommonChannels(sid: SessionId)
    | ToServices

  datatype Output = Output(to: Target, from: Origin, command: string, params: seq<string>)

  /** The state after a handler and the messages it emitted, in order. */
  datatype Reply = Reply(st: State, out: seq<Output>)

  /** A configured IRC operator login (`config.IRCOp`). */
  datatype OperLogin = OperLogin(name: string, password: string)

  /** What the handlers take from configuration and from code that is not part
      of this model: the channel limit, whether captchas are configured and
      required for login, captcha verification, the services passwords, the hash
      that derives services' sub-session ids, the server's own name, the
      configured operators, the server's creation time as RPL_CREATED prints
      it, the ISUPPORT length limits, and the host part of each session's
      prefix. */
  datatype Env = Env(
    channelLimit: nat,
    captchaConfigured: bool,
    captchaForLogin: bool,
    captchaOk: string -> bool,
    servicesPasswords: seq<string>,
    nickHash: string -> int,
    serverName: string,
    operators: seq<OperLogin>,
    created: string,
    maxChannelLen: string,
    maxNickLen: string,
    hostOf: SessionId -> string)

  /** A reply from the server to one session. */
  function ToSession(sid: SessionId, command: string, params: seq<string>): (o: Output)
    ensures o.to == ToUser(sid) && o.from == FromServer && o.command == command
  {
    Output(ToUser(sid), FromServer, command, params)
  }

  /** A message from the server to the services link. */
  function ToLink(command: string, params: seq<string>): (o: Output)
    ensures o.to == ToServices && o.command == command
  {
    Output(ToServices, FromServer, command, params)
  }

  /** A message to every current member of channel `ckey`. */
  function ToMembers(st: State, ckey: string, from: Origin, command: string, params: seq<string>): (o: Output)
    requires ckey in st.channels
    ensures o.to.ToChannel? && o.to.chan == ckey && o.to.members == st.channels[ckey].nicks.Keys
  {
    Output(ToChannel(ckey, st.channels[ckey].nicks.Keys), from, command, params)
  }

  /** The session `sid` exists and has chosen a nickname. */
  predicate Named(st: State, sid: SessionId) {
    sid in st.sessions && st.sessions[sid].nick != ""
  }

  /** The session registered under folded nickname `key`, if any. */
  predicate Indexed(st: State, key: string) {
    key in st.nicks && st.nicks[key] in st.sessions
  }

  /** Every index entry names a session whose folded nickname is the key. */
  predicate IndexSound(st: State) {
    forall k :: k in st.nicks ==>
      k != "" && st.nicks[k] in st.sessions && Fold(st.sessions[st.nicks[k]].nick) == k
  }

  /** Every named session is found through the index. */
  predicate IndexComplete(st: State) {
    forall sid :: sid in st.sessions && st.sessions[sid].nick != "" ==>
      Fold(st.sessions[sid].nick) in st.nicks && st.nicks[Fold(st.sessions[sid].nick)] == sid
  }

  /** Every member of a channel is an indexed session that lists the channel. */
  predicate MembersListed(st: State) {
    forall ck, n :: ck in st.channels && n in st.channels[ck].nicks ==>
      Indexed(st, n) && ck in st.sessions[st.nicks[n]].channels
  }

  /** Every channel a session lists exists and has the session as a member. */
  predicate ChannelsListed(st: State) {
    forall sid, ck :: sid in st.sessions && ck in st.sessions[sid].channels ==>
      ck in st.channels && Fold(st.sessions[sid].nick) in st.channels[ck].nicks
  }

  /** Empty channels are deleted. */
  predicate NoEmptyChannel(st: State) {
    forall ck :: ck in st.channels ==> st.channels[ck].nicks != map[]
  }

  /** The consistency the handlers maintain between the nickname index, the
      channel member lists and the sessions' channel sets. */
  predicate Valid(st: State) {
    IndexSound(st) && IndexComplete(st) && MembersListed(st) && ChannelsListed(st) && NoEmptyChannel(st)
  }

  /** A session that is in some channel has a nickname. */
  lemma ListedIsNamed(st: State, sid: SessionId, ck: string)
    requires Valid(st) && sid in st.sessions && ck in st.sessions[sid].channels
    ensures st.sessions[sid].nick != ""
  {
    var n := Fold(st.sessions[sid].nick);
    assert n in st.channels[ck].nicks;
    assert Indexed(st, n) && st.nicks[n] in st.sessions;
  }

  lemma MembersIndexed(st: State, ck: string)
    requires MembersListed(st) && ck in st.channels
    ensures forall n :: n in st.channels[ck].nicks ==> n in st.nicks
  {
    forall n | n in st.channels[ck].nicks ensures n in st.nicks {
      assert Indexed(st, n);
    }
  }

  lemma EmptyValid()
    ensures Valid(State(map[], map[], map[], map[], []))
  {
  }

  function UpdateSession(st: State, sid: SessionId, s: Session): (r: State)
    ensures r.sessions == st.sessions[sid := s]
    ensures r.nicks == st.nicks && r.channels == st.channels && r.holds == st.holds
  {
    st.(sessions := st.sessions[sid := s])
  }

  /** A second update of the same session overrides the first. */
  lemma UpdateTwice(st: State, sid: SessionId, a: Session, b: Session)
    ensures UpdateSession(UpdateSession(st, sid, a), sid, b) == UpdateSession(st, sid, b)
  {
    assert st.sessions[sid := a][sid := b] == st.sessions[sid := b];
  }

  /** Two states that agree on everything `Valid` looks at (nicknames only up
      to case). */
  predicate SameLinks(st: State, st': State) {
    && st'.nicks == st.nicks
    && st'.sessions.Keys == st.sessions.Keys
    && (forall sid :: sid in st.sessions ==>
          Fold(st'.sessions[sid].nick) == Fold(st.sessions[sid].nick) && st'.sessions[sid].channels == st.sessions[sid].channels)
    && st'.channels.Keys == st.channels.Keys
    && (forall ck :: ck in st.channels ==> st'.channels[ck].nicks.Keys == st.channels[ck].nicks.Keys)
  }

  /** Replacing a session by one with the same folded nickname and the same
      channels keeps the links. */
  lemma UpdateKeepsLinks(st: State, sid: SessionId, s: Session)
    requires sid in st.sessions
    requires Fold(s.nick) == Fold(st.sessions[sid].nick) && s.channels == st.sessions[sid].channels
    ensures SameLinks(st, UpdateSession(st, sid, s))
  {
  }

  /** Replacing a channel by one with the same members keeps the links. */
  lemma UpdateChannelKeepsLinks(st: State, ckey: string, c: Channel)
    requires ckey in st.channels && c.nicks.Keys == st.channels[ckey].nicks.Keys
    ensures SameLinks(st, st.(channels := st.channels[ckey := c]))
  {
  }

  lemma SameLinksIndex(st: State, st': State)
    requires IndexSound(st) && IndexComplete(st) && SameLinks(st, st')
    ensures IndexSound(st') && IndexComplete(st')
  {
    forall k | k in st'.nicks
      ensures k != "" && st'.nicks[k] in st'.sessions && Fold(st'.sessions[st'.nicks[k]].nick) == k
    {
      assert st.nicks[k] in st.sessions;
    }
    forall sid | sid in st'.sessions && st'.sessions[sid].nick != ""
      ensures Fold(st'.sessions[sid].nick) in st'.nicks && st'.nicks[Fold(st'.sessions[sid].nick)] == sid
    {
      assert |Fold(st.sessions[sid].nick)| == |Fold(st'.sessions[sid].nick)|;
    }
  }

  lemma SameLinksMembers(st: State, st': State)
    requires MembersListed(st) && SameLinks(st, st')
    ensures MembersListed(st')
  {
    forall ck, n | ck in st'.channels && n in st'.channels[ck].nicks
      ensures Indexed(st', n) && ck in st'.sessions[st'.nicks[n]].channels
    {
      assert n in st.channels[ck].nicks.Keys;
      assert Indexed(st, n);
    }
  }

  lemma SameLinksChannels(st: State, st': State)
    requires ChannelsListed(st) && SameLinks(st, st')
    ensures ChannelsListed(st')
  {
    forall sid, ck | sid in st'.sessions && ck in st'.sessions[sid].channels
      ensures ck in st'.channels && Fold(st'.sessions[sid].nick) in st'.channels[ck].nicks
    {
      assert ck in st.sessions[sid].channels;
      assert Fold(st.sessions[sid].nick) in st.channels[ck].nicks.Keys;
    }
  }

  lemma SameLinksNoEmpty(st: State, st': State)
    requires NoEmptyChannel(st) && SameLinks(st, st')
    ensures NoEmptyChannel(st')
  {
    forall ck | ck in st'.channels
      ensures st'.channels[ck].nicks != map[]
    {
      var n :| n in st.channels[ck].nicks;
      assert n in st'.channels[ck].nicks.Keys;
    }
  }

  /** Changing modes, topics, away messages, flags or operator bits keeps the
      invariant. */
  lemma SameLinksValid(st: State, st': State)
    requires Valid(st) && SameLinks(st, st')
    ensures Valid(st')
  {
    SameLinksIndex(st, st');
    SameLinksMembers(st, st');
    SameLinksChannels(st, st');
    SameLinksNoEmpty(st, st');
  }

  // ---------------------------------------------------------------------
  // Channel membership

  /** Adds member `nkey` of session `sid` to channel `ckey`, whose state
      before the join is `c`, and records the channel in the session. */
  function Link(st: State, ckey: string, c: Channel, nkey: string, op: bool, sid: SessionId): (r: State)
    requires sid in st.sessions
    ensures ckey in r.channels && r.channels[ckey].nicks == c.nicks[nkey := op]
    ensures forall k :: k != ckey ==> (k in r.channels <==> k in st.channels) && (k in r.channels ==> r.channels[k] == st.channels[k])
    ensures r.sessions.Keys == st.sessions.Keys
    ensures r.sessions[sid] == st.sessions[sid].(channels := st.sessions[sid].channels + {ckey})
    ensures forall x :: x in st.sessions && x != sid ==> r.sessions[x] == st.sessions[x]
    ensures r.nicks == st.nicks && r.holds == st.holds
  {
    var s := st.sessions[sid];
    st.(channels := st.channels[ckey := c.(nicks := c.nicks[nkey := op])],
        sessions := st.sessions[sid := s.(channels := s.channels + {ckey})])
  }

  /** Removes member `nkey` from channel `ckey`, deletes the channel when it
      becomes empty (`maybeDeleteChannel`) and drops the channel from the
      owning session, when there is one. */
  function Unlink(st: State, ckey: string, nkey: string, owner: Option<SessionId>): (r: State)
    requires ckey in st.channels
    ensures ckey in r.channels <==> st.channels[ckey].nicks - {nkey} != map[]
    ensures ckey in r.channels ==> r.channels[ckey].nicks == st.channels[ckey].nicks - {nkey}
    ensures forall k :: k != ckey ==> (k in r.channels <==> k in st.channels) && (k in r.channels ==> r.channels[k] == st.channels[k])
    ensures r.sessions.Keys == st.sessions.Keys && r.nicks == st.nicks && r.holds == st.holds
    ensures forall x :: x in st.sessions && (owner.None? || x != owner.value) ==> r.sessions[x] == st.sessions[x]
    ensures owner.Some? && owner.value in st.sessions ==>
              r.sessions[owner.value] == st.sessions[owner.value].(channels := st.sessions[owner.value].channels - {ckey})
  {
    var c := st.channels[ckey];
    var members := c.nicks - {nkey};
    var channels := if members == map[] then st.channels - {ckey} else st.channels[ckey := c.(nicks := members)];
    var sessions :=
      if owner.Some? && owner.value in st.sessions
      then st.sessions[owner.value := st.sessions[owner.value].(channels := st.sessions[owner.value].channels - {ckey})]
      else st.sessions;
    st.(channels := channels, sessions := sessions)
  }

  lemma LinkIndex(st: State, ckey: string, c: Channel, nkey: string, op: bool, sid: SessionId)
    requires IndexSound(st) && IndexComplete(st) && sid in st.sessions
    ensures var r := Link(st, ckey, c, nkey, op, sid); IndexSound(r) && IndexComplete(r)
  {
    var r := Link(st, ckey, c, nkey, op, sid);
    forall k | k in r.nicks
      ensures k != "" && r.nicks[k] in r.sessions && Fold(r.sessions[r.nicks[k]].nick) == k
    {
      assert st.nicks[k] in st.sessions;
    }
    forall x | x in r.sessions && r.sessions[x].nick != ""
      ensures Fold(r.sessions[x].nick) in r.nicks && r.nicks[Fold(r.sessions[x].nick)] == x
    {
      assert r.sessions[x].nick == st.sessions[x].nick;
    }
  }

  lemma LinkMembers(st: State, ckey: string, c: Channel, op: bool, sid: SessionId)
    requires IndexComplete(st) && MembersListed(st) && Named(st, sid)
    requires ckey in st.channels ==> c.nicks == st.channels[ckey].nicks
    requires ckey !in st.channels ==> c.nicks == map[]
    ensures MembersListed(Link(st, ckey, c, Fold(st.sessions[sid].nick), op, sid))
  {
    var nkey := Fold(st.sessions[sid].nick);
    var r := Link(st, ckey, c, nkey, op, sid);
    forall ck, n | ck in r.channels && n in r.channels[ck].nicks
      ensures Indexed(r, n) && ck in r.sessions[r.nicks[n]].channels
    {
      if n == nkey {
        assert r.nicks[n] == sid;
        if ck != ckey { assert n in st.channels[ck].nicks; assert Indexed(st, n); }
      } else {
        assert n in st.channels[ck].nicks;
        assert Indexed(st, n);
        assert ck in st.sessions[st.nicks[n]].channels;
      }
    }
  }

  lemma LinkChannels(st: State, ckey: string, c: Channel, op: bool, sid: SessionId)
    requires ChannelsListed(st) && sid in st.sessions
    requires ckey in st.channels ==> c.nicks == st.channels[ckey].nicks
    ensures ChannelsListed(Link(st, ckey, c, Fold(st.sessions[sid].nick), op, sid))
  {
    var nkey := Fold(st.sessions[sid].nick);
    var r := Link(st, ckey, c, nkey, op, sid);
    forall x, ck | x in r.sessions && ck in r.sessions[x].channels
      ensures ck in r.channels && Fold(r.sessions[x].nick) in r.channels[ck].nicks
    {
      if x != sid || ck != ckey {
        assert ck in st.sessions[x].channels;
        assert Fold(st.sessions[x].nick) in st.channels[ck].nicks;
      }
    }
  }

  /** Joining a channel the session is not yet in keeps the invariant. */
  lemma LinkValid(st: State, ckey: string, c: Channel, op: bool, sid: SessionId)
    requires Valid(st) && Named(st, sid)
    requires ckey in st.channels ==> c.nicks == st.channels[ckey].nicks
    requires ckey !in st.channels ==> c.nicks == map[]
    ensures Valid(Link(st, ckey, c, Fold(st.sessions[sid].nick), op, sid))
  {
    LinkIndex(st, ckey, c, Fold(st.sessions[sid].nick), op, sid);
    LinkMembers(st, ckey, c, op, sid);
    LinkChannels(st, ckey, c, op, sid);
  }

  /** Removing member `k` leaves no one exactly when `k` was the only one. */
  lemma LastMember(m: map<string, bool>, k: string)
    requires k in m
    ensures m - {k} == map[] <==> m.Keys == {k}
  {
    var rest := m - {k};
    assert rest.Keys == m.Keys - {k};
    if rest == map[] {
      assert rest.Keys == {};
    }
    if m.Keys == {k} {
      assert rest.Keys == {};
      assert rest == map[];
    }
  }

  lemma UnlinkIndex(st: State, ckey: string, nkey: string, owner: Option<SessionId>)
    requires IndexSound(st) && IndexComplete(st) && ckey in st.channels
    ensures var r := Unlink(st, ckey, nkey, owner); IndexSound(r) && IndexComplete(r)
  {
    var r := Unlink(st, ckey, nkey, owner);
    forall k | k in r.nicks
      ensures k != "" && r.nicks[k] in r.sessions && Fold(r.sessions[r.nicks[k]].nick) == k
    {
      assert st.nicks[k] in st.sessions;
    }
    forall x | x in r.sessions && r.sessions[x].nick != ""
      ensures Fold(r.sessions[x].nick) in r.nicks && r.nicks[Fold(r.sessions[x].nick)] == x
    {
      assert r.sessions[x].nick == st.sessions[x].nick;
    }
  }

  lemma UnlinkMembers(st: State, ckey: string, nkey: string)
    requires IndexSound(st) && MembersListed(st) && ckey in st.channels && Indexed(st, nkey)
    ensures MembersListed(Unlink(st, ckey, nkey, Some(st.nicks[nkey])))
  {
    var sid := st.nicks[nkey];
    var r := Unlink(st, ckey, nkey, Some(sid));
    forall ck, n | ck in r.channels && n in r.channels[ck].nicks
      ensures Indexed(r, n) && ck in r.sessions[r.nicks[n]].channels
    {
      assert n in st.channels[ck].nicks;
      assert Indexed(st, n);
      assert ck in st.sessions[st.nicks[n]].channels;
      if ck == ckey {
        assert n != nkey;
        assert st.nicks[n] != sid;
      }
    }
  }

  lemma UnlinkChannels(st: State, ckey: string, nkey: string)
    requires IndexSound(st) && IndexComplete(st) && ChannelsListed(st)
    requires ckey in st.channels && Indexed(st, nkey)
    ensures ChannelsListed(Unlink(st, ckey, nkey, Some(st.nicks[nkey])))
  {
    var r := Unlink(st, ckey, nkey, Some(st.nicks[nkey]));
    forall x, ck | x in r.sessions && ck in r.sessions[x].channels
      ensures ck in r.channels && Fold(r.sessions[x].nick) in r.channels[ck].nicks
    {
      UnlinkKeepsListing(st, ckey, nkey, x, ck);
    }
  }

  /** A channel a session still lists after `nkey` leaves `ckey` still has
      the session as a member. */
  lemma UnlinkKeepsListing(st: State, ckey: string, nkey: string, x: SessionId, ck: string)
    requires IndexSound(st) && IndexComplete(st) && ChannelsListed(st)
    requires ckey in st.channels && Indexed(st, nkey)
    requires x in st.sessions && ck in st.sessions[x].channels && (x == st.nicks[nkey] ==> ck != ckey)
    ensures var r := Unlink(st, ckey, nkey, Some(st.nicks[nkey]));
      ck in r.channels && Fold(r.sessions[x].nick) in r.channels[ck].nicks
  {
    if ck == ckey {
      OtherMemberStays(st, ckey, nkey, x);
    }
  }

  /** Another session listing the channel keeps its membership when `nkey`
      leaves. */
  lemma OtherMemberStays(st: State, ckey: string, nkey: string, x: SessionId)
    requires IndexSound(st) && IndexComplete(st) && ChannelsListed(st)
    requires Indexed(st, nkey) && x in st.sessions && x != st.nicks[nkey] && ckey in st.sessions[x].channels
    ensures ckey in st.channels && Fold(st.sessions[x].nick) in st.channels[ckey].nicks - {nkey}
  {
    var n := Fold(st.sessions[x].nick);
    if n == nkey {
      assert st.sessions[st.nicks[nkey]].nick != "" by {
        FoldEmpty(st.sessions[st.nicks[nkey]].nick);
      }
      FoldEmpty(st.sessions[x].nick);
      assert false;
    }
  }

  /** Leaving a channel (PART, KICK, SVSPART) keeps the invariant. */
  lemma UnlinkValid(st: State, ckey: string, nkey: string)
    requires Valid(st) && ckey in st.channels && nkey in st.channels[ckey].nicks
    ensures Indexed(st, nkey)
    ensures Valid(Unlink(st, ckey, nkey, Some(st.nicks[nkey])))
  {
    assert Indexed(st, nkey);
    var r := Unlink(st, ckey, nkey, Some(st.nicks[nkey]));
    UnlinkIndex(st, ckey, nkey, Some(st.nicks[nkey]));
    UnlinkMembers(st, ckey, nkey);
    UnlinkChannels(st, ckey, nkey);
    forall ck | ck in r.channels
      ensures r.channels[ck].nicks != map[]
    {
      if ck != ckey { assert st.channels[ck].nicks != map[]; }
    }
  }

  // ---------------------------------------------------------------------
  // Nickname changes

  /** Sets the nickname of `sid` and indexes it, without touching the old key. */
  function SetNick(st: State, sid: SessionId, nick: string): (r: State)
    requires sid in st.sessions
    ensures r.sessions == st.sessions[sid := st.sessions[sid].(nick := nick)]
    ensures r.nicks == st.nicks[Fold(nick) := sid]
    ensures r.channels == st.channels && r.holds == st.holds
  {
    st.(sessions := st.sessions[sid := st.sessions[sid].(nick := nick)], nicks := st.nicks[Fold(nick) := sid])
  }

  lemma SetNickFreshSound(st: State, sid: SessionId, nick: string)
    requires Valid(st) && sid in st.sessions && st.sessions[sid].nick == ""
    requires nick != "" && Fold(nick) !in st.nicks
    ensures IndexSound(SetNick(st, sid, nick))
  {
    var r := SetNick(st, sid, nick);
    forall k | k in r.nicks
      ensures k != "" && r.nicks[k] in r.sessions && Fold(r.sessions[r.nicks[k]].nick) == k
    {
      if k != Fold(nick) {
        assert st.nicks[k] in st.sessions;
        assert st.nicks[k] != sid;
      }
    }
  }

  lemma SetNickFreshMembers(st: State, sid: SessionId, nick: string)
    requires Valid(st) && sid in st.sessions && st.sessions[sid].nick == ""
    requires nick != "" && Fold(nick) !in st.nicks
    ensures MembersListed(SetNick(st, sid, nick))
  {
    var r := SetNick(st, sid, nick);
    forall ck, n | ck in r.channels && n in r.channels[ck].nicks
      ensures Indexed(r, n) && ck in r.sessions[r.nicks[n]].channels
    {
      assert Indexed(st, n);
      assert n != Fold(nick);
      assert ck in st.sessions[st.nicks[n]].channels;
    }
  }

  /** A session's first nickname, when its key is free, keeps the invariant. */
  lemma SetNickFreshValid(st: State, sid: SessionId, nick: string)
    requires Valid(st) && sid in st.sessions && st.sessions[sid].nick == ""
    requires nick != "" && Fold(nick) !in st.nicks
    ensures Valid(SetNick(st, sid, nick))
  {
    assert st.sessions[sid].channels == {} by {
      forall ck | ck in st.sessions[sid].channels ensures false {
        ListedIsNamed(st, sid, ck);
      }
    }
    SetNickFreshSound(st, sid, nick);
    SetNickFreshMembers(st, sid, nick);
    SetNickFreshRest(st, sid, nick);
  }

  lemma SetNickFreshRest(st: State, sid: SessionId, nick: string)
    requires Valid(st) && sid in st.sessions && st.sessions[sid].channels == {}
    requires nick != "" && Fold(nick) !in st.nicks
    ensures var r := SetNick(st, sid, nick); IndexComplete(r) && ChannelsListed(r) && NoEmptyChannel(r)
  {
  }

  /** `m'` is member list `m` with the entry of `src` moved to `dst`: the
      operator bit travels with it and every other member is untouched. */
  ghost predicate KeyMoved(m: map<string, bool>, m': map<string, bool>, src: string, dst: string) {
    && src !in m'
    && (src in m ==> dst in m' && m'[dst] == m[src])
    && (src !in m ==> (dst in m' <==> dst in m) && (dst in m' ==> m'[dst] == m[dst]))
    && (forall k :: k != src && k != dst ==> (k in m' <==> k in m))
    && (forall k :: k in m' && k != src && k != dst ==> m'[k] == m[k])
  }

  /** Every channel's member list has `src` moved to `dst`; nothing else about
      the channels changes. */
  ghost predicate MembersMoved(before: map<string, Channel>, after: map<string, Channel>, src: string, dst: string) {
    && after.Keys == before.Keys
    && (forall ck :: ck in before ==> KeyMoved(before[ck].nicks, after[ck].nicks, src, dst))
    && (forall ck :: ck in before ==> after[ck].(nicks := before[ck].nicks) == before[ck])
  }

  /** One channel's member list after `c.nicks[dst] = c.nicks[src]` (only when
      `src` is a member) followed by `delete(c.nicks, src)`. */
  function MoveKey(m: map<string, bool>, src: string, dst: string): (r: map<string, bool>)
    ensures src !in r
    ensures src in m && dst != src ==> dst in r && r[dst] == m[src]
    ensures forall k :: k != src && k != dst ==> (k in r <==> k in m) && (k in r ==> r[k] == m[k])
  {
    (if src in m then m[dst := m[src]] else m) - {src}
  }

  function RenameMembers(channels: map<string, Channel>, src: string, dst: string): (r: map<string, Channel>)
    ensures r.Keys == channels.Keys
    ensures forall ck :: ck in r ==> r[ck] == channels[ck].(nicks := MoveKey(channels[ck].nicks, src, dst))
  {
    map ck | ck in channels :: channels[ck].(nicks := MoveKey(channels[ck].nicks, src, dst))
  }

  /** Moving to a different key moves the member entry in every channel. */
  lemma RenameMembersMoved(channels: map<string, Channel>, src: string, dst: string)
    requires src != dst
    ensures MembersMoved(channels, RenameMembers(channels, src, dst), src, dst)
  {
    var r := RenameMembers(channels, src, dst);
    forall ck | ck in channels
      ensures KeyMoved(channels[ck].nicks, r[ck].nicks, src, dst)
    {
      var m := channels[ck].nicks;
      assert r[ck].nicks == MoveKey(m, src, dst);
    }
  }

  /** A nickname change as the handlers perform it: index the new key, delete
      the old key `src`, and move the member entries in every channel. */
  function Rename(st: State, sid: SessionId, src: string, nick: string): (r: State)
    requires sid in st.sessions
    ensures r.sessions == st.sessions[sid := st.sessions[sid].(nick := nick)]
    ensures r.nicks == st.nicks[Fold(nick) := sid] - {src}
    ensures r.channels == RenameMembers(st.channels, src, Fold(nick))
    ensures r.holds == st.holds
  {
    var st1 := SetNick(st, sid, nick);
    st1.(nicks := st1.nicks - {src}, channels := RenameMembers(st1.channels, src, Fold(nick)))
  }

  lemma RenameIndex(st: State, sid: SessionId, nick: string)
    requires IndexSound(st) && IndexComplete(st) && Named(st, sid)
    requires nick != "" && Fold(nick) !in st.nicks
    ensures var r := Rename(st, sid, Fold(st.sessions[sid].nick), nick); IndexSound(r) && IndexComplete(r)
  {
    var src := Fold(st.sessions[sid].nick);
    var dst := Fold(nick);
    var r := Rename(st, sid, src, nick);
    assert src in st.nicks && src != dst;
    forall k | k in r.nicks
      ensures k != "" && r.nicks[k] in r.sessions && Fold(r.sessions[r.nicks[k]].nick) == k
    {
      if k != dst {
        assert st.nicks[k] in st.sessions;
        assert st.nicks[k] != sid;
      }
    }
    forall x | x in r.sessions && r.sessions[x].nick != ""
      ensures Fold(r.sessions[x].nick) in r.nicks && r.nicks[Fold(r.sessions[x].nick)] == x
    {
      if x != sid {
        var n := Fold(st.sessions[x].nick);
        assert n in st.nicks && st.nicks[n] == x;
        assert n != src && n != dst;
      }
    }
  }

  lemma RenameMembersListed(st: State, sid: SessionId, nick: string)
    requires IndexSound(st) && IndexComplete(st) && MembersListed(st) && Named(st, sid)
    requires nick != "" && Fold(nick) !in st.nicks
    ensures MembersListed(Rename(st, sid, Fold(st.sessions[sid].nick), nick))
  {
    var src := Fold(st.sessions[sid].nick);
    var dst := Fold(nick);
    var r := Rename(st, sid, src, nick);
    assert src in st.nicks && src != dst;
    forall ck, n | ck in r.channels && n in r.channels[ck].nicks
      ensures Indexed(r, n) && ck in r.sessions[r.nicks[n]].channels
    {
      var m := st.channels[ck].nicks;
      assert r.channels[ck].nicks == MoveKey(m, src, dst);
      if n == dst {
        MembersIndexed(st, ck);
        assert src in m;
        assert Indexed(st, src);
        assert ck in st.sessions[st.nicks[src]].channels;
      } else {
        assert n in m && n != src;
        assert Indexed(st, n);
        assert ck in st.sessions[st.nicks[n]].channels;
        assert st.nicks[n] != sid;
      }
    }
  }

  lemma RenameChannelsListed(st: State, sid: SessionId, nick: string)
    requires IndexSound(st) && IndexComplete(st) && MembersListed(st) && ChannelsListed(st) && Named(st, sid)
    requires nick != "" && Fold(nick) !in st.nicks
    ensures ChannelsListed(Rename(st, sid, Fold(st.sessions[sid].nick), nick))
  {
    var r := Rename(st, sid, Fold(st.sessions[sid].nick), nick);
    forall x, ck | x in r.sessions && ck in r.sessions[x].channels
      ensures ck in r.channels && Fold(r.sessions[x].nick) in r.channels[ck].nicks
    {
      RenameKeepsListing(st, sid, nick, x, ck);
    }
  }

  /** One listed channel of one session survives a rename. */
  lemma RenameKeepsListing(st: State, sid: SessionId, nick: string, x: SessionId, ck: string)
    requires IndexSound(st) && IndexComplete(st) && MembersListed(st) && ChannelsListed(st) && Named(st, sid)
    requires nick != "" && Fold(nick) !in st.nicks
    requires x in st.sessions && ck in st.sessions[x].channels
    ensures var r := Rename(st, sid, Fold(st.sessions[sid].nick), nick);
      ck in r.channels && Fold(r.sessions[x].nick) in r.channels[ck].nicks
  {
    var src := Fold(st.sessions[sid].nick);
    var n := Fold(st.sessions[x].nick);
    assert n in st.channels[ck].nicks;
    if x != sid {
      assert Indexed(st, n);
      assert n in st.nicks && st.nicks[n] == x;
      assert n != src && n != Fold(nick);
    }
  }

  lemma RenameNoEmpty(st: State, sid: SessionId, nick: string)
    requires NoEmptyChannel(st) && sid in st.sessions && Fold(nick) != Fold(st.sessions[sid].nick)
    ensures NoEmptyChannel(Rename(st, sid, Fold(st.sessions[sid].nick), nick))
  {
    var src := Fold(st.sessions[sid].nick);
    var dst := Fold(nick);
    var r := Rename(st, sid, src, nick);
    forall ck | ck in r.channels
      ensures r.channels[ck].nicks != map[]
    {
      var m := st.channels[ck].nicks;
      var n :| n in m;
      assert r.channels[ck].nicks == MoveKey(m, src, dst);
      if n == src { assert dst in r.channels[ck].nicks; }
      else { assert n in r.channels[ck].nicks; }
    }
  }

  /** Renaming a session to a nickname whose key is free keeps the invariant;
      afterwards the session is found under the new key only. */
  lemma RenameValid(st: State, sid: SessionId, nick: string)
    requires Valid(st) && Named(st, sid)
    requires nick != "" && Fold(nick) !in st.nicks
    ensures Valid(Rename(st, sid, Fold(st.sessions[sid].nick), nick))
    ensures var r := Rename(st, sid, Fold(st.sessions[sid].nick), nick);
      Fold(nick) in r.nicks && r.nicks[Fold(nick)] == sid && Fold(st.sessions[sid].nick) !in r.nicks
  {
    assert Fold(st.sessions[sid].nick) in st.nicks;
    RenameIndex(st, sid, nick);
    RenameMembersListed(st, sid, nick);
    RenameChannelsListed(st, sid, nick);
    RenameNoEmpty(st, sid, nick);
  }
}

=== FILE: dispatch.dfy ===
/** The command table: each verb's minimum parameter count and the handler
    it reaches. Messages from a server link look up their verb with a
    `server_` prefix; `SERVER` itself has none, since it is what turns a
    session into a link. */
module Dispatch {

  import opened Wrappers
  import opened Text
  import opened Numerics
  import opened Directory
  import opened Commands
  import opened ChannelCommands
  import opened ModeCommand
  import opened ServerCommands

  /** The minimum parameter count of each entry of the client table, or
      None for a verb it does not list (`PANIC` exists only in a test
      configuration and is not listed). */
  function ClientMin(verb: string): (n: Option<nat>)
    ensures n.Some? && n.value > 0 <==> verb in {"USER", "SERVER", "JOIN", "PART", "KICK", "MODE", "OPER", "KILL", "TOPIC", "WHOIS", "INVITE", "USERHOST", "KNOCK", "ISON"}
  {
    match verb
    case "USER" => Some(3)
    case "KICK" | "OPER" | "INVITE" | "SERVER" => Some(2)
    case "JOIN" | "PART" | "MODE" | "KILL" | "TOPIC" | "WHOIS" | "USERHOST" | "KNOCK" | "ISON" => Some(1)
    case "PING" | "NICK" | "QUIT" | "PRIVMSG" | "NOTICE" | "WHO" | "AWAY" | "MOTD" | "LIST" | "NAMES" | "PASS"
       | "NICKSERV" | "CHANSERV" | "OPERSERV" | "MEMOSERV" | "HOSTSERV" | "BOTSERV"
       | "NS" | "CS" | "OS" | "MS" | "HS" | "BS" => Some(0)
    case _ => None
  }

  /** The same for the services-link entries, by the verb without its
      `server_` prefix. */
  function ServerMin(verb: string): (n: Option<nat>)
    ensures n.Some? && n.value > 0 <==> verb in {"TOPIC", "SVSNICK", "SVSMODE", "SVSHOLD", "SVSJOIN", "SVSPART", "KILL", "KICK", "INVITE"}
  {
    match verb
    case "TOPIC" => Some(3)
    case "SVSNICK" | "SVSMODE" | "SVSJOIN" | "SVSPART" | "KICK" | "INVITE" => Some(2)
    case "SVSHOLD" | "KILL" => Some(1)
    case "PING" | "QUIT" | "NICK" | "MODE" | "JOIN" | "PART" | "PRIVMSG" | "NOTICE" => Some(0)
    case _ => None
  }

  /** The table entry a session's message is looked up in. */
  function MinParams(s: Session, verb: string): (n: Option<nat>)
    ensures n == if s.server then ServerMin(verb) else ClientMin(verb)
  {
    if s.server then ServerMin(verb) else ClientMin(verb)
  }

  /** What handling one message comes to: the handler's reply, a Go runtime
      panic (an index past the end of the parameters), or a table entry whose
      handler is not part of this model. */
  datatype Outcome = Ran(reply: Reply) | Panics | NotModelled

  /** The reply to a message with too few parameters. */
  function NeedMoreParams(st: State, sid: SessionId, command: string): (o: Output)
    requires sid in st.sessions
    ensures o.to == ToUser(sid) && o.command == ERR_NEEDMOREPARAMS && IsError(o.command)
  {
    ToSession(sid, ERR_NEEDMOREPARAMS, [st.sessions[sid].nick, command])
  }

  /** `cmdServerNick` reads the user name from the fourth parameter when
      introducing a user, and every handler reads the first; the table does
      not guard either. */
  predicate ServerNickPanics(st: State, msg: Message) {
    |msg.params| == 0 || (2 <= |msg.params| < 4 && Fold(msg.params[0]) !in st.nicks)
  }

  /** A services message without a prefix whose handler reads
      `msg.Prefix.Name`: KICK always does (the kick is sent in the sender's
      name), JOIN and PART do for their first channel whatever happens to
      it, MODE does whenever it sends anything (`ServerModeNamesSender`),
      and SVSJOIN and SVSPART only to refuse. */
  predicate PrefixPanics(st: State, msg: Message, replyId: nat) {
    && msg.prefix.None?
    && (|| msg.command in {"JOIN", "PART"}
        || (msg.command == "KICK" && |msg.params| >= 2)
        || (msg.command == "MODE" && |msg.params| >= 1 && |ServerMode(st, msg, replyId).out| > 0)
        || (msg.command == "SVSJOIN" && |msg.params| >= 2 && SvsJoinRefused(st, msg))
        || (msg.command == "SVSPART" && |msg.params| >= 2 && SvsPartRefused(st, msg)))
  }

  /** The services messages whose handler dereferences what is not there:
      NICK reading an unguarded parameter (see `ServerNickPanics`), MODE,
      JOIN and PART without parameters, and the prefix-less messages of
      `PrefixPanics`. */
  predicate ServerPanics(st: State, msg: Message, replyId: nat) {
    || (msg.command == "NICK" && ServerNickPanics(st, msg))
    || (msg.command in {"MODE", "JOIN", "PART"} && |msg.params| == 0)
    || PrefixPanics(st, msg, replyId)
  }

  /** The client handlers, reached once the gate has passed. TOPIC runs as
      written, so it panics where `cmdTopic` reads a missing member entry. */
  function ClientHandler(env: Env, st: State, sid: SessionId, msg: Message, replyId: nat): (o: Outcome)
    requires sid in st.sessions && ChannelsListed(st)
    requires ClientMin(msg.command).Some? && |msg.params| >= ClientMin(msg.command).value
    ensures o.Panics? <==> msg.command == "TOPIC" && TopicDerefsNil(st, st.sessions[sid], msg)
  {
    match msg.command
    case "NICK" => Ran(Nick(env, st, sid, msg))
    case "USER" => Ran(User(env, st, sid, msg))
    case "JOIN" => Ran(ChannelCommands.Join(env, st, sid, msg))
    case "PART" => Ran(Part(st, sid, msg))
    case "KICK" => Ran(Kick(st, sid, msg))
    case "MODE" => Ran(Mode(env, st, sid, msg, replyId))
    case "TOPIC" =>
      (match TopicAsWritten(st, sid, msg)
       case None => Panics
       case Some(r) => Ran(r))
    case "INVITE" => Ran(Invite(st, sid, msg))
    case "OPER" => Ran(Oper(env, st, sid, msg))
    case "MOTD" => Ran(Motd(env, st, sid))
    case "PASS" => Ran(Pass(env, st, sid, msg))
    case "AWAY" => Ran(Away(st, sid, msg))
    case "SERVER" => Ran(Server(env, st, sid, msg))
    case _ => NotModelled
  }

  /** The services-link handlers, reached once the gate has passed. SVSNICK
      runs as written (see `SvsNickAsWritten`); JOIN and PART are modelled
      only as far as their unguarded read of the first parameter. */
  function ServerHandler(env: Env, st: State, sid: SessionId, msg: Message, replyId: nat): (o: Outcome)
    requires sid in st.sessions
    requires ServerMin(msg.command).Some? && |msg.params| >= ServerMin(msg.command).value
    ensures o.Panics? <==> ServerPanics(st, msg, replyId)
    ensures msg.command == "SVSNICK" ==> o == Ran(SvsNickAsWritten(st, msg))
  {
    var noPrefix := msg.prefix.None?;
    match msg.command
    case "KICK" => if noPrefix then Panics else Ran(ServerKick(st, msg))
    case "NICK" => if ServerNickPanics(st, msg) then Panics else Ran(ServerNick(env, st, sid, msg))
    case "MODE" =>
      if |msg.params| == 0 then Panics
      else
        var r := ServerMode(st, msg, replyId);
        if noPrefix && |r.out| > 0 then Panics else Ran(r)
    case "SVSHOLD" => Ran(SvsHold(st, sid, msg))
    case "SVSJOIN" => if noPrefix && SvsJoinRefused(st, msg) then Panics else Ran(SvsJoin(st, msg))
    case "SVSPART" => if noPrefix && SvsPartRefused(st, msg) then Panics else Ran(SvsPart(st, msg))
    case "SVSMODE" => Ran(SvsMode(st, sid, msg))
    case "SVSNICK" => Ran(SvsNickAsWritten(st, msg))
    case "JOIN" | "PART" => if |msg.params| == 0 || noPrefix then Panics else NotModelled
    case _ => NotModelled
  }

  /** Handling of one message from session `sid`: too few parameters get
      ERR_NEEDMOREPARAMS, and anything else reaches the verb's handler. What
      the dispatcher does with a verb outside the table is not part of this
      model. */
  function Handle(env: Env, st: State, sid: SessionId, msg: Message, replyId: nat): (o: Outcome)
    requires sid in st.sessions && ChannelsListed(st)
    ensures !o.NotModelled? ==> MinParams(st.sessions[sid], msg.command).Some?
  {
    var s := st.sessions[sid];
    var min := MinParams(s, msg.command);
    if min.None? then NotModelled
    else if |msg.params| < min.value then Ran(Reply(st, [NeedMoreParams(st, sid, msg.command)]))
    else if s.server then ServerHandler(env, st, sid, msg, replyId)
    else ClientHandler(env, st, sid, msg, replyId)
  }

  /** The parameter-count gate: a message with fewer parameters than its
      table entry asks for never reaches the handler; it changes nothing and
      gets exactly one reply, ERR_NEEDMOREPARAMS to its sender. */
  lemma Gate(env: Env, st: State, sid: SessionId, msg: Message, replyId: nat)
    requires sid in st.sessions && ChannelsListed(st)
    requires MinParams(st.sessions[sid], msg.command).Some?
    requires |msg.params| < MinParams(st.sessions[sid], msg.command).value
    ensures var o := Handle(env, st, sid, msg, replyId);
      && o.Ran? && o.reply.st == st && |o.reply.out| == 1
      && o.reply.out[0].to == ToUser(sid) && o.reply.out[0].command == ERR_NEEDMOREPARAMS
  {
  }

  /** A verb without an entry in the table the session uses is left to the
      dispatcher, outside this model: it neither runs a handler nor panics. */
  lemma Unlisted(env: Env, st: State, sid: SessionId, msg: Message, replyId: nat)
    requires sid in st.sessions && ChannelsListed(st)
    requires MinParams(st.sessions[sid], msg.command).None?
    ensures Handle(env, st, sid, msg, replyId) == NotModelled
  {
  }

  /** USER needs three parameters, JOIN one and KICK two. */
  lemma GateExamples(env: Env, st: State, sid: SessionId, msg: Message, replyId: nat)
    requires sid in st.sessions && ChannelsListed(st) && !st.sessions[sid].server
    requires (msg.command == "USER" && |msg.params| < 3) || (msg.command == "JOIN" && |msg.params| == 0)
          || (msg.command == "KICK" && |msg.params| < 2)
    ensures Handle(env, st, sid, msg, replyId) == Ran(Reply(st, [NeedMoreParams(st, sid, msg.command)]))
  {
  }

  /** A message panics exactly when it is a services message reading an
      unguarded parameter or a missing prefix, or a client TOPIC reading a
      missing member entry. */
  lemma PanicsOnlyUnguarded(env: Env, st: State, sid: SessionId, msg: Message, replyId: nat)
    requires sid in st.sessions && ChannelsListed(st)
    ensures Handle(env, st, sid, msg, replyId).Panics? <==>
      if st.sessions[sid].server then ServerPanics(st, msg, replyId)
      else msg.command == "TOPIC" && |msg.params| >= 1 && TopicDerefsNil(st, st.sessions[sid], msg)
  {
  }

  /** What the consistency of the directory needs from the caller beyond
      `Valid`: a joining session has a nickname (clients are only let past
      the login gate with one), services introduce a user under an id no
      session has, and SVSNICK renames onto a free nickname, which also rules
      out the change of capitalisation that `SvsNickAsWritten` gets wrong. */
  predicate Admissible(env: Env, st: State, sid: SessionId, msg: Message)
    requires sid in st.sessions
  {
    var server := st.sessions[sid].server;
    && (!server && msg.command == "JOIN" ==> Named(st, sid))
    && (server && msg.command == "NICK" && |msg.params| >= 1 ==>
          msg.params[0] != "" && PseudoUserId(env, sid, msg.params[0]) !in st.sessions)
    && (server && msg.command == "SVSNICK" && |msg.params| >= 2 ==>
          SvsNickRefused(st, msg) || Fold(msg.params[1]) !in st.nicks)
  }

  lemma ClientHandlerValid(env: Env, st: State, sid: SessionId, msg: Message, replyId: nat)
    requires Valid(st) && sid in st.sessions
    requires ClientMin(msg.command).Some? && |msg.params| >= ClientMin(msg.command).value
    requires msg.command == "JOIN" ==> Named(st, sid)
    ensures var o := ClientHandler(env, st, sid, msg, replyId);
      o.Ran? ==> Valid(o.reply.st)
  {
    var o := ClientHandler(env, st, sid, msg, replyId);
    match msg.command
    case "NICK" => NickValid(env, st, sid, msg);
    case "JOIN" =>
      var keys := if |msg.params| > 1 then Split(msg.params[1], ',') else [];
      JoinEachValid(env, st, sid, Split(msg.params[0], ','), keys);
    case "PART" => PartEachValid(st, sid, Split(msg.params[0], ','));
    case "KICK" => KickValid(st, sid, msg);
    case "MODE" => ModeValid(env, st, sid, msg, replyId);
    case _ =>
      if o.Ran? {
        ClientKeepsLinks(env, st, sid, msg, replyId);
        SameLinksValid(st, o.reply.st);
      }
  }

  /** The client handlers other than NICK, JOIN, PART, KICK and MODE touch
      no nickname and no membership. */
  lemma ClientKeepsLinks(env: Env, st: State, sid: SessionId, msg: Message, replyId: nat)
    requires sid in st.sessions && ChannelsListed(st)
    requires ClientMin(msg.command).Some? && |msg.params| >= ClientMin(msg.command).value
    requires msg.command !in {"NICK", "JOIN", "PART", "KICK", "MODE"}
    ensures var o := ClientHandler(env, st, sid, msg, replyId);
      o.Ran? ==> SameLinks(st, o.reply.st)
  {
  }

  lemma ServerHandlerValid(env: Env, st: State, sid: SessionId, msg: Message, replyId: nat)
    requires Valid(st) && sid in st.sessions
    requires ServerMin(msg.command).Some? && |msg.params| >= ServerMin(msg.command).value
    requires msg.command == "NICK" && |msg.params| >= 1 ==>
               msg.params[0] != "" && PseudoUserId(env, sid, msg.params[0]) !in st.sessions
    requires msg.command == "SVSNICK" ==> SvsNickRefused(st, msg) || Fold(msg.params[1]) !in st.nicks
    ensures var o := ServerHandler(env, st, sid, msg, replyId);
      o.Ran? ==> Valid(o.reply.st)
  {
    var o := ServerHandler(env, st, sid, msg, replyId);
    match msg.command
    case "KICK" => ServerKickValid(st, msg);
    case "NICK" =>
      if !ServerNickPanics(st, msg) {
        ServerNickValid(env, st, sid, msg);
      }
    case "MODE" =>
      if |msg.params| > 0 {
        ServerModeValid(st, msg, replyId);
      }
    case "SVSHOLD" => SameLinksValid(st, SvsHold(st, sid, msg).st);
    case "SVSJOIN" => SvsJoinValid(st, msg);
    case "SVSPART" => SvsPartValid(st, msg);
    case "SVSMODE" => SvsModeValid(st, sid, msg);
    case "SVSNICK" =>
      if !SvsNickRefused(st, msg) {
        SvsNickValid(st, msg);
      }
    case _ =>
  }

  /** Every modelled handler keeps the nick index and the channel links
      consistent: the directory invariant holds after any message. */
  lemma HandleValid(env: Env, st: State, sid: SessionId, msg: Message, replyId: nat)
    requires Valid(st) && sid in st.sessions && Admissible(env, st, sid, msg)
    ensures var o := Handle(env, st, sid, msg, replyId);
      o.Ran? ==> Valid(o.reply.st)
  {
    var s := st.sessions[sid];
    var min := MinParams(s, msg.command);
    if min.Some? && |msg.params| >= min.value {
      if s.server {
        ServerHandlerValid(env, st, sid, msg, replyId);
      } else {
        ClientHandlerValid(env, st, sid, msg, replyId);
      }
    }
  }
}

=== FILE: effects.dfy ===
/** What a run of mode changes leaves behind, stated independently of the
    loops that apply them: a flag ends up with the sign of the last change that
    names it, and a member's operator bit with the sign of the last `o` change
    that names the member. Also counts of replies by command. */
module ModeEffects {

  import opened Text
  import opened Modes
  import opened Directory

  /** The sign of the last change of `letter` in `cmds`, or `init` when no
      change names it. */
  function LastSign(cmds: seq<ModeCmd>, letter: char, init: bool): bool
    decreases |cmds|
  {
    if |cmds| == 0 then init
    else if cmds[|cmds| - 1].letter == letter then cmds[|cmds| - 1].adding
    else LastSign(cmds[..|cmds| - 1], letter, init)
  }

  /** Reading the changes front to back: the first change only matters as
      the starting value for the rest. */
  lemma {:induction false} LastSignCons(m: ModeCmd, rest: seq<ModeCmd>, letter: char, init: bool)
    ensures LastSign([m] + rest, letter, init) == LastSign(rest, letter, if m.letter == letter then m.adding else init)
    decreases |rest|
  {
    if |rest| > 0 {
      assert ([m] + rest)[..|rest|] == [m] + rest[..|rest| - 1];
      if rest[|rest| - 1].letter != letter {
        LastSignCons(m, rest[..|rest| - 1], letter, init);
      }
    }
  }

  /** A change that grants or revokes operator status of member `key`. */
  predicate SetsOp(m: ModeCmd, key: string) {
    m.letter == 'o' && Fold(m.param) == key
  }

  /** The sign of the last `o` change naming `key`, or `init` when there is none. */
  function LastOp(cmds: seq<ModeCmd>, key: string, init: bool): bool
    decreases |cmds|
  {
    if |cmds| == 0 then init
    else if SetsOp(cmds[|cmds| - 1], key) then cmds[|cmds| - 1].adding
    else LastOp(cmds[..|cmds| - 1], key, init)
  }

  lemma {:induction false} LastOpCons(m: ModeCmd, rest: seq<ModeCmd>, key: string, init: bool)
    ensures LastOp([m] + rest, key, init) == LastOp(rest, key, if SetsOp(m, key) then m.adding else init)
    decreases |rest|
  {
    if |rest| > 0 {
      assert ([m] + rest)[..|rest|] == [m] + rest[..|rest| - 1];
      if !SetsOp(rest[|rest| - 1], key) {
        LastOpCons(m, rest[..|rest| - 1], key, init);
      }
    }
  }

  /** A `+b` entry, the only change a non-operator may send (a ban-list query). */
  predicate IsBanQuery(m: ModeCmd) {
    m.adding && m.letter == 'b'
  }

  /** The number of outputs with the given command. */
  function Count(out: seq<Output>, command: string): (n: nat)
    ensures n <= |out|
  {
    if |out| == 0 then 0
    else (if out[0].command == command then 1 else 0) + Count(out[1..], command)
  }

  lemma {:induction false} CountAppend(a: seq<Output>, b: seq<Output>, command: string)
    ensures Count(a + b, command) == Count(a, command) + Count(b, command)
    decreases |a|
  {
    if |a| == 0 {
      assert a + b == b;
    } else {
      assert (a + b)[1..] == a[1..] + b;
      CountAppend(a[1..], b, command);
    }
  }

  /** The number of changes satisfying `p`. */
  function CountCmds(cmds: seq<ModeCmd>, p: ModeCmd -> bool): (n: nat)
    ensures n <= |cmds|
  {
    if |cmds| == 0 then 0
    else (if p(cmds[0]) then 1 else 0) + CountCmds(cmds[1..], p)
  }
}

=== FILE: mode.dfy ===
/** The client MODE command: on a channel the caller is in, a query or a run
    of changes announced to the channel and to services; on a nickname, the
    user's own modes (only `i` is acted on). */
module ModeCommand {

  import opened Wrappers
  import opened Text
  import opened Modes
  import opened Numerics
  import opened Directory
  import opened ModeEffects
  import opened ModeRuns
  import opened ChannelCommands

  /** The flags a channel operator may set directly; `x` needs a captcha
      configuration, and `+b` only lists the (always empty) ban list. */
  function ClientPolicy(env: Env, sid: SessionId, nick: string, name: string): (p: Policy)
    ensures 'o' !in p.flags && p.banList && p.errorsTo == ToUser(sid)
  {
    Policy({'t', 's', 'i', 'n'}, Some(env.captchaConfigured), true, ToUser(sid), nick, name)
  }

  /** The caller may change channel `ckey`: it is a channel operator there or
      an IRC operator. */
  predicate MayChange(st: State, sid: SessionId, ckey: string)
    requires sid in st.sessions && ckey in st.channels
  {
    IsChanOp(st.channels[ckey], Fold(st.sessions[sid].nick)) || st.sessions[sid].operator
  }

  /** Some entry is a change rather than a ban-list query. */
  predicate HasChange(cmds: seq<ModeCmd>) {
    exists i :: 0 <= i < |cmds| && !IsBanQuery(cmds[i])
  }

  /** A channel MODE is announced when someone allowed made a change that is
      not a ban-list query, unless the message is services' sub-request. */
  predicate Announced(st: State, sid: SessionId, ckey: string, cmds: seq<ModeCmd>, replyId: nat)
    requires sid in st.sessions && ckey in st.channels
  {
    MayChange(st, sid, ckey) && HasChange(cmds) && replyId == 0
  }

  /** MODE on a channel the caller is in. */
  function ChannelMode(env: Env, st: State, sid: SessionId, name: string, cmds: seq<ModeCmd>, replyId: nat): (r: Reply)
    requires sid in st.sessions && Fold(name) in st.channels
    ensures SameLinks(st, r.st) && r.st.sessions == st.sessions && r.st.holds == st.holds
    ensures forall k :: k in st.channels && k != Fold(name) ==> r.st.channels[k] == st.channels[k]
  {
    var ckey, s := Fold(name), st.sessions[sid];
    var c := st.channels[ckey];
    if |cmds| == 0 then Reply(st, [ModeQuery(st, sid, name)])
    else
      var p := ClientPolicy(env, sid, s.nick, name);
      var run := RunModes(p, c, MayChange(st, sid, ckey), cmds);
      UpdateChannelKeepsLinks(st, ckey, run.c);
      var st1 := st.(channels := st.channels[ckey := run.c]);
      if run.denied || !HasChange(cmds) || replyId > 0 then Reply(st1, run.out)
      else
        var mode := ToMembers(st1, ckey, FromNick(s.nick), "MODE", [name] + IrcParams(cmds));
        Reply(st1, run.out + [mode, mode.(to := ToServices)])
  }

  /** Without changes MODE shows the channel's modes; someone who may not
      change the channel changes nothing, and a change among the entries
      ends the replies with ERR_CHANOPRIVSNEEDED. */
  lemma ChannelModeRefusals(env: Env, st: State, sid: SessionId, name: string, cmds: seq<ModeCmd>, replyId: nat)
    requires sid in st.sessions && Fold(name) in st.channels
    ensures var r := ChannelMode(env, st, sid, name, cmds, replyId);
      && (|cmds| == 0 ==> r == Reply(st, [ModeQuery(st, sid, name)]))
      && (!MayChange(st, sid, Fold(name)) ==> r.st == st)
      && (|cmds| > 0 && !MayChange(st, sid, Fold(name)) && HasChange(cmds) ==>
            |r.out| > 0 && r.out[|r.out| - 1] == ToSession(sid, ERR_CHANOPRIVSNEEDED, [st.sessions[sid].nick, name]))
  {
    if |cmds| > 0 && !MayChange(st, sid, Fold(name)) {
      var s := st.sessions[sid];
      var run := RunModes(ClientPolicy(env, sid, s.nick, name), st.channels[Fold(name)], false, cmds);
      RunDenied(ClientPolicy(env, sid, s.nick, name), st.channels[Fold(name)], false, cmds);
      assert run.c == st.channels[Fold(name)];
      assert st.channels[Fold(name) := run.c] == st.channels;
    }
  }

  /** The change is announced to the channel and to services exactly when
      the caller may change the channel, some entry is a change and the
      message is not services' sub-request; nothing else reaches services. */
  lemma ChannelModeAnnounces(env: Env, st: State, sid: SessionId, name: string, cmds: seq<ModeCmd>, replyId: nat)
    requires sid in st.sessions && Fold(name) in st.channels && |cmds| > 0
    ensures var r := ChannelMode(env, st, sid, name, cmds, replyId);
      && ((exists i :: 0 <= i < |r.out| && r.out[i].to == ToServices) <==> Announced(st, sid, Fold(name), cmds, replyId))
      && (Announced(st, sid, Fold(name), cmds, replyId) ==>
            && |r.out| >= 2
            && r.out[|r.out| - 2] == ToMembers(st, Fold(name), FromNick(st.sessions[sid].nick), "MODE", [name] + IrcParams(cmds))
            && r.out[|r.out| - 1] == r.out[|r.out| - 2].(to := ToServices))
  {
    var r := ChannelMode(env, st, sid, name, cmds, replyId);
    var s := st.sessions[sid];
    var run := RunModes(ClientPolicy(env, sid, s.nick, name), st.channels[Fold(name)], MayChange(st, sid, Fold(name)), cmds);
    RunDenied(ClientPolicy(env, sid, s.nick, name), st.channels[Fold(name)], MayChange(st, sid, Fold(name)), cmds);
    assert run.denied <==> !MayChange(st, sid, Fold(name)) && HasChange(cmds);
    if Announced(st, sid, Fold(name), cmds, replyId) {
      assert r.out[|r.out| - 1].to == ToServices;
    } else {
      assert r.out == run.out;
    }
  }

  /** The channel's flags after MODE: an accepted flag (`x` only with a
      captcha configuration) takes the sign of its last change when the
      caller may change the channel; every other flag is kept. */
  lemma ChannelModeFlags(env: Env, st: State, sid: SessionId, name: string, cmds: seq<ModeCmd>, replyId: nat, f: char)
    requires sid in st.sessions && Fold(name) in st.channels
    ensures var before, after := st.channels[Fold(name)], ChannelMode(env, st, sid, name, cmds, replyId).st.channels[Fold(name)];
      && (MayChange(st, sid, Fold(name)) && (f in {'t', 's', 'i', 'n'} || (f == 'x' && env.captchaConfigured)) ==>
            (f in after.modes <==> LastSign(cmds, f, f in before.modes)))
      && (!(f in {'t', 's', 'i', 'n'} || (f == 'x' && env.captchaConfigured)) ==> (f in after.modes <==> f in before.modes))
  {
    var p := ClientPolicy(env, sid, st.sessions[sid].nick, name);
    var c := st.channels[Fold(name)];
    ChannelModeChannel(env, st, sid, name, cmds, replyId);
    if MayChange(st, sid, Fold(name)) && Follows(p, f) {
      RunFlag(p, c, cmds, f);
    }
    if !Settable(p, f) {
      RunKeeps(p, c, MayChange(st, sid, Fold(name)), cmds, f);
    }
  }

  /** The channel after MODE is the channel after the run of its changes. */
  lemma ChannelModeChannel(env: Env, st: State, sid: SessionId, name: string, cmds: seq<ModeCmd>, replyId: nat)
    requires sid in st.sessions && Fold(name) in st.channels
    ensures ChannelMode(env, st, sid, name, cmds, replyId).st.channels[Fold(name)]
         == RunModes(ClientPolicy(env, sid, st.sessions[sid].nick, name), st.channels[Fold(name)], MayChange(st, sid, Fold(name)), cmds).c
  {
  }

  /** A member's operator bit after MODE follows the last `o` change naming
      them, when the caller may change the channel. */
  lemma ChannelModeOps(env: Env, st: State, sid: SessionId, name: string, cmds: seq<ModeCmd>, replyId: nat, k: string)
    requires sid in st.sessions && Fold(name) in st.channels && k in st.channels[Fold(name)].nicks
    ensures var before, after := st.channels[Fold(name)], ChannelMode(env, st, sid, name, cmds, replyId).st.channels[Fold(name)];
      && k in after.nicks
      && after.nicks[k] == if MayChange(st, sid, Fold(name)) then LastOp(cmds, k, before.nicks[k]) else before.nicks[k]
  {
    var p := ClientPolicy(env, sid, st.sessions[sid].nick, name);
    if !MayChange(st, sid, Fold(name)) {
      ChannelModeRefusals(env, st, sid, name, cmds, replyId);
    } else if |cmds| > 0 {
      RunOps(p, st.channels[Fold(name)], cmds, k);
    }
  }

  /** The user-mode loop: only `i` is acted on. */
  function UserModes(modes: set<char>, cmds: seq<ModeCmd>): set<char>
    decreases |cmds|
  {
    if |cmds| == 0 then modes
    else UserModes(if cmds[0].letter == 'i' then SetFlag(modes, 'i', cmds[0].adding) else modes, cmds[1..])
  }

  /** `i` takes the sign of its last change; all other modes are kept. */
  lemma {:induction false} UserModesEffect(modes: set<char>, cmds: seq<ModeCmd>, f: char)
    ensures f in UserModes(modes, cmds) <==> if f == 'i' then LastSign(cmds, 'i', 'i' in modes) else f in modes
    decreases |cmds|
  {
    if |cmds| > 0 {
      var m := cmds[0];
      assert cmds == [m] + cmds[1..];
      LastSignCons(m, cmds[1..], 'i', 'i' in modes);
      UserModesEffect(if m.letter == 'i' then SetFlag(modes, 'i', m.adding) else modes, cmds[1..], f);
    }
  }

  /** MODE on a nickname: only IRC operators may touch another user's modes.
      Without changes the target's mode string is shown to the caller;
      otherwise the target is told the normalised changes. */
  function UserMode(st: State, sid: SessionId, tkey: string, cmds: seq<ModeCmd>): (r: Reply)
    requires sid in st.sessions && Indexed(st, tkey)
    ensures SameLinks(st, r.st) && r.st.channels == st.channels && r.st.holds == st.holds
    ensures var s, tsid := st.sessions[sid], st.nicks[tkey];
      && (tkey != Fold(s.nick) && !s.operator ==> r == Reply(st, [ToSession(sid, ERR_USERSDONTMATCH, [s.nick])]))
      && (forall x :: x in st.sessions && x != tsid ==> r.st.sessions[x] == st.sessions[x])
      && r.st.sessions[tsid] == st.sessions[tsid].(modes := r.st.sessions[tsid].modes)
      && (|cmds| == 0 ==> r.st == st)
      && (|cmds| > 0 && (tkey == Fold(s.nick) || s.operator) ==>
            && |r.out| == 2 && r.out[0].to == ToUser(tsid) && r.out[1].to == ToServices
            && r.out[0].params == [st.sessions[tsid].nick, IrcParams(cmds)[0]])
  {
    var s, tsid := st.sessions[sid], st.nicks[tkey];
    var t := st.sessions[tsid];
    if tkey != Fold(s.nick) && !s.operator then
      Reply(st, [ToSession(sid, ERR_USERSDONTMATCH, [s.nick])])
    else if |cmds| == 0 then
      var query := Output(ToUser(sid), FromNick(s.nick), "MODE", [t.nick, ModeString(t.modes)]);
      Reply(st, [query, query.(to := ToServices)])
    else
      var change := Output(ToUser(tsid), FromNick(s.nick), "MODE", [t.nick, IrcParams(cmds)[0]]);
      var t1 := t.(modes := UserModes(t.modes, cmds));
      UpdateKeepsLinks(st, tsid, t1);
      Reply(UpdateSession(st, tsid, t1), [change, change.(to := ToServices)])
  }

  /** `cmdMode`: a channel the caller lists, else a known nickname, else
      ERR_NOTONCHANNEL. */
  function Mode(env: Env, st: State, sid: SessionId, msg: Message, replyId: nat): (r: Reply)
    requires sid in st.sessions && |msg.params| >= 1 && ChannelsListed(st)
    ensures SameLinks(st, r.st) && r.st.holds == st.holds
    ensures var s, key := st.sessions[sid], Fold(msg.params[0]);
      key !in s.channels && !Indexed(st, key) ==>
        r == Reply(st, [ToSession(sid, ERR_NOTONCHANNEL, [s.nick, msg.params[0]])])
    ensures var s, key := st.sessions[sid], Fold(msg.params[0]);
      key in s.channels ==> r.st.sessions == st.sessions
  {
    var s, name := st.sessions[sid], msg.params[0];
    var key := Fold(name);
    if key in s.channels then ChannelMode(env, st, sid, name, Normalize(msg.params), replyId)
    else if Indexed(st, key) then UserMode(st, sid, key, Normalize(msg.params))
    else Reply(st, [ToSession(sid, ERR_NOTONCHANNEL, [s.nick, name])])
  }

  /** MODE keeps the directory consistent. */
  lemma ModeValid(env: Env, st: State, sid: SessionId, msg: Message, replyId: nat)
    requires Valid(st) && sid in st.sessions && |msg.params| >= 1
    ensures Valid(Mode(env, st, sid, msg, replyId).st)
  {
    SameLinksValid(st, Mode(env, st, sid, msg, replyId).st);
  }
}

=== FILE: moderun.dfy ===
/** Applying a normalised list of mode changes to one channel, as both the
    client MODE handler and the services MODE handler do: flags are set or
    cleared, `o` changes toggle a member's operator bit, and everything else
    is answered with an error. The two handlers differ only in the flags they
    accept, in how they treat `x` and `+b`, and in where errors go; a
    `Policy` records those differences. */
module ModeRuns {

  import opened Wrappers
  import opened Text
  import opened Modes
  import opened Numerics
  import opened Directory
  import opened ModeEffects

  datatype Policy = Policy(
    flags: set<char>,        // letters set or cleared directly
    captcha: Option<bool>,   // Some(configured) when `x` is the captcha flag
    banList: bool,           // whether `+b` is a ban-list query
    errorsTo: Target,        // where replies to individual changes go
    who: string,             // first parameter of those replies
    name: string)            // the channel name as given

  /** A `+b` entry where `+b` is a ban-list query. */
  predicate IsQuery(p: Policy, m: ModeCmd) {
    p.banList && IsBanQuery(m)
  }

  /** Letters whose final state is the sign of their last change. */
  predicate Follows(p: Policy, f: char) {
    (f in p.flags || (f == 'x' && p.captcha == Some(true))) && !(f == 'b' && p.banList)
  }

  /** Letters whose changes can alter the channel's flags. */
  predicate Settable(p: Policy, f: char) {
    f in p.flags || (f == 'x' && p.captcha == Some(true))
  }

  /** A change answered with ERR_UNKNOWNMODE. */
  predicate Unknown(p: Policy, m: ModeCmd) {
    !IsQuery(p, m) && m.letter !in p.flags && !(m.letter == 'x' && p.captcha.Some?) && m.letter != 'o'
  }

  /** An `o` change naming someone who is not a member. */
  predicate OpOfStranger(p: Policy, keys: set<string>, m: ModeCmd) {
    !IsQuery(p, m) && m.letter !in p.flags && m.letter == 'o' && Fold(m.param) !in keys
  }

  function Error(p: Policy, command: string, params: seq<string>): (o: Output)
    ensures o.to == p.errorsTo && o.from == FromServer && o.command == command
  {
    Output(p.errorsTo, FromServer, command, [p.who] + params)
  }

  /** The channel after some changes, the replies they caused, and whether a
      change was refused for lack of operator status. */
  datatype Run = Run(c: Channel, out: seq<Output>, denied: bool)

  function SetFlag(modes: set<char>, f: char, on: bool): (r: set<char>)
    ensures f in r <==> on
    ensures forall g :: g != f ==> (g in r <==> g in modes)
  {
    if on then modes + {f} else modes - {f}
  }

  /** One change made by someone allowed to make it. */
  function Apply(p: Policy, c: Channel, m: ModeCmd): (r: Run)
    requires !IsQuery(p, m)
    ensures r.c.nicks.Keys == c.nicks.Keys && r.c == c.(modes := r.c.modes, nicks := r.c.nicks)
    ensures !r.denied
  {
    if m.letter in p.flags then Run(c.(modes := SetFlag(c.modes, m.letter, m.adding)), [], false)
    else if m.letter == 'x' && p.captcha.Some? then
      if p.captcha.value then Run(c.(modes := SetFlag(c.modes, 'x', m.adding)), [], false)
      else Run(c, [Error(p, "NOTICE", [])], false)
    else if m.letter == 'o' then
      var k := Fold(m.param);
      if k in c.nicks then Run(c.(nicks := c.nicks[k := m.adding]), [], false)
      else Run(c, [Error(p, ERR_USERNOTINCHANNEL, [m.param, p.name])], false)
    else Run(c, [Error(p, ERR_UNKNOWNMODE, [[PrintedLetter(m.letter)]])], false)
  }

  /** Skipping a leading ban-list query loses no change. */
  lemma ChangeAfterQuery(p: Policy, cmds: seq<ModeCmd>)
    requires |cmds| > 0 && IsQuery(p, cmds[0])
    ensures (exists i :: 0 <= i < |cmds| && !IsQuery(p, cmds[i])) <==>
            (exists i :: 0 <= i < |cmds[1..]| && !IsQuery(p, cmds[1..][i]))
  {
    if exists i :: 0 <= i < |cmds| && !IsQuery(p, cmds[i]) {
      var i :| 0 <= i < |cmds| && !IsQuery(p, cmds[i]);
      assert cmds[1..][i - 1] == cmds[i];
    }
    if exists j :: 0 <= j < |cmds[1..]| && !IsQuery(p, cmds[1..][j]) {
      var j :| 0 <= j < |cmds[1..]| && !IsQuery(p, cmds[1..][j]);
      assert cmds[j + 1] == cmds[1..][j];
    }
  }

  /** The changes in order. Ban-list queries are answered for everyone; the
      first other change by a non-operator ends the run with
      ERR_CHANOPRIVSNEEDED. */
  function RunModes(p: Policy, c: Channel, isOp: bool, cmds: seq<ModeCmd>): (r: Run)
    decreases |cmds|
    ensures r.c.nicks.Keys == c.nicks.Keys && r.c == c.(modes := r.c.modes, nicks := r.c.nicks)
    ensures !isOp ==> r.c == c
    ensures isOp ==> !r.denied
    ensures forall i :: 0 <= i < |r.out| ==> r.out[i].to == p.errorsTo && r.out[i].from == FromServer
    ensures forall i :: 0 <= i < |r.out| ==> |r.out[i].params| > 0 && r.out[i].params[0] == p.who
  {
    if |cmds| == 0 then Run(c, [], false)
    else if IsQuery(p, cmds[0]) then
      var rest := RunModes(p, c, isOp, cmds[1..]);
      Run(rest.c, [Output(p.errorsTo, FromServer, RPL_ENDOFBANLIST, [p.who, p.name])] + rest.out, rest.denied)
    else if !isOp then
      Run(c, [Error(p, ERR_CHANOPRIVSNEEDED, [p.name])], true)
    else
      var step := Apply(p, c, cmds[0]);
      var rest := RunModes(p, step.c, isOp, cmds[1..]);
      Run(rest.c, step.out + rest.out, false)
  }

  /** A run is refused exactly when the caller is no operator and some
      entry is a change. */
  lemma {:induction false} RunDeniedWhen(p: Policy, c: Channel, isOp: bool, cmds: seq<ModeCmd>)
    ensures RunModes(p, c, isOp, cmds).denied <==> !isOp && exists i :: 0 <= i < |cmds| && !IsQuery(p, cmds[i])
    decreases |cmds|
  {
    if |cmds| > 0 {
      if IsQuery(p, cmds[0]) {
        RunDeniedWhen(p, c, isOp, cmds[1..]);
        ChangeAfterQuery(p, cmds);
      }
    }
  }

  /** A refused run ends with ERR_CHANOPRIVSNEEDED, and no other run does. */
  lemma {:induction false} RunDeniedLast(p: Policy, c: Channel, isOp: bool, cmds: seq<ModeCmd>)
    ensures var r := RunModes(p, c, isOp, cmds);
      r.denied <==> |r.out| > 0 && r.out[|r.out| - 1] == Error(p, ERR_CHANOPRIVSNEEDED, [p.name])
    decreases |cmds|
  {
    if |cmds| > 0 {
      if IsQuery(p, cmds[0]) {
        RunDeniedLast(p, c, isOp, cmds[1..]);
      } else if isOp {
        var step := Apply(p, c, cmds[0]);
        RunDeniedLast(p, step.c, isOp, cmds[1..]);
      }
    }
  }

  /** Both facts about refusal together. */
  lemma RunDenied(p: Policy, c: Channel, isOp: bool, cmds: seq<ModeCmd>)
    ensures var r := RunModes(p, c, isOp, cmds);
      && (r.denied <==> !isOp && exists i :: 0 <= i < |cmds| && !IsQuery(p, cmds[i]))
      && (r.denied <==> |r.out| > 0 && r.out[|r.out| - 1] == Error(p, ERR_CHANOPRIVSNEEDED, [p.name]))
  {
    RunDeniedWhen(p, c, isOp, cmds);
    RunDeniedLast(p, c, isOp, cmds);
  }

  /** For an operator, the channel after a run is the channel after its
      first change, run through the rest. */
  lemma RunStep(p: Policy, c: Channel, cmds: seq<ModeCmd>)
    requires |cmds| > 0
    ensures RunModes(p, c, true, cmds).c ==
      RunModes(p, if IsQuery(p, cmds[0]) then c else Apply(p, c, cmds[0]).c, true, cmds[1..]).c
  {
  }

  /** A flag the policy accepts ends up with the sign of its last change. */
  lemma {:induction false} RunFlag(p: Policy, c: Channel, cmds: seq<ModeCmd>, f: char)
    requires Follows(p, f)
    ensures f in RunModes(p, c, true, cmds).c.modes <==> LastSign(cmds, f, f in c.modes)
    decreases |cmds|
  {
    if |cmds| > 0 {
      var m := cmds[0];
      assert cmds == [m] + cmds[1..];
      LastSignCons(m, cmds[1..], f, f in c.modes);
      RunStep(p, c, cmds);
      var c1 := if IsQuery(p, m) then c else Apply(p, c, m).c;
      assert f in c1.modes <==> if m.letter == f then m.adding else f in c.modes;
      RunFlag(p, c1, cmds[1..], f);
    }
  }

  /** Any other letter keeps its state. */
  lemma {:induction false} RunKeeps(p: Policy, c: Channel, isOp: bool, cmds: seq<ModeCmd>, f: char)
    requires !Settable(p, f)
    ensures f in RunModes(p, c, isOp, cmds).c.modes <==> f in c.modes
    decreases |cmds|
  {
    if |cmds| > 0 && isOp {
      if IsQuery(p, cmds[0]) {
        RunKeeps(p, c, isOp, cmds[1..], f);
      } else {
        RunKeeps(p, Apply(p, c, cmds[0]).c, isOp, cmds[1..], f);
      }
    } else if |cmds| > 0 && IsQuery(p, cmds[0]) {
      RunKeeps(p, c, isOp, cmds[1..], f);
    }
  }

  /** A member's operator bit ends up with the sign of the last `o` change
      naming the member. */
  lemma {:induction false} RunOps(p: Policy, c: Channel, cmds: seq<ModeCmd>, k: string)
    requires 'o' !in p.flags && k in c.nicks
    ensures RunModes(p, c, true, cmds).c.nicks[k] == LastOp(cmds, k, c.nicks[k])
    decreases |cmds|
  {
    if |cmds| > 0 {
      var m := cmds[0];
      assert cmds == [m] + cmds[1..];
      LastOpCons(m, cmds[1..], k, c.nicks[k]);
      if IsQuery(p, m) {
        RunOps(p, c, cmds[1..], k);
      } else {
        RunOps(p, Apply(p, c, m).c, cmds[1..], k);
      }
    }
  }

  lemma CountOne(o: Output, command: string)
    ensures Count([o], command) == if o.command == command then 1 else 0
  {
    assert [o][1..] == [];
  }

  lemma ApplyUnknown(p: Policy, c: Channel, m: ModeCmd)
    requires !IsQuery(p, m)
    ensures Count(Apply(p, c, m).out, ERR_UNKNOWNMODE) == if Unknown(p, m) then 1 else 0
  {
    var out := Apply(p, c, m).out;
    if |out| == 1 {
      CountOne(out[0], ERR_UNKNOWNMODE);
      assert out == [out[0]];
    }
  }

  lemma ApplyStranger(p: Policy, c: Channel, m: ModeCmd)
    requires !IsQuery(p, m)
    ensures Count(Apply(p, c, m).out, ERR_USERNOTINCHANNEL) == if OpOfStranger(p, c.nicks.Keys, m) then 1 else 0
  {
    var out := Apply(p, c, m).out;
    if |out| == 1 {
      CountOne(out[0], ERR_USERNOTINCHANNEL);
      assert out == [out[0]];
    }
  }

  /** The reply to a ban-list query counts as neither error. */
  lemma QueryReplyCounts(p: Policy, rest: seq<Output>)
    ensures var head := Output(p.errorsTo, FromServer, RPL_ENDOFBANLIST, [p.who, p.name]);
      && Count([head] + rest, ERR_UNKNOWNMODE) == Count(rest, ERR_UNKNOWNMODE)
      && Count([head] + rest, ERR_USERNOTINCHANNEL) == Count(rest, ERR_USERNOTINCHANNEL)
  {
    var head := Output(p.errorsTo, FromServer, RPL_ENDOFBANLIST, [p.who, p.name]);
    CountAppend([head], rest, ERR_UNKNOWNMODE);
    CountAppend([head], rest, ERR_USERNOTINCHANNEL);
    CountOne(head, ERR_UNKNOWNMODE);
    CountOne(head, ERR_USERNOTINCHANNEL);
  }

  /** An operator gets one ERR_UNKNOWNMODE per unknown change. */
  lemma {:induction false} RunUnknowns(p: Policy, c: Channel, cmds: seq<ModeCmd>)
    ensures Count(RunModes(p, c, true, cmds).out, ERR_UNKNOWNMODE) == CountCmds(cmds, m => Unknown(p, m))
    decreases |cmds|
  {
    if |cmds| > 0 {
      var m := cmds[0];
      if IsQuery(p, m) {
        QueryReplyCounts(p, RunModes(p, c, true, cmds[1..]).out);
        RunUnknowns(p, c, cmds[1..]);
      } else {
        var step := Apply(p, c, m);
        CountAppend(step.out, RunModes(p, step.c, true, cmds[1..]).out, ERR_UNKNOWNMODE);
        ApplyUnknown(p, c, m);
        RunUnknowns(p, step.c, cmds[1..]);
      }
    }
  }

  /** An operator gets one ERR_USERNOTINCHANNEL per `o` change naming a
      non-member. */
  lemma {:induction false} RunStrangers(p: Policy, c: Channel, cmds: seq<ModeCmd>, keys: set<string>)
    requires c.nicks.Keys == keys
    ensures Count(RunModes(p, c, true, cmds).out, ERR_USERNOTINCHANNEL) == CountCmds(cmds, m => OpOfStranger(p, keys, m))
    decreases |cmds|
  {
    if |cmds| > 0 {
      var m := cmds[0];
      if IsQuery(p, m) {
        QueryReplyCounts(p, RunModes(p, c, true, cmds[1..]).out);
        RunStrangers(p, c, cmds[1..], keys);
      } else {
        var step := Apply(p, c, m);
        CountAppend(step.out, RunModes(p, step.c, true, cmds[1..]).out, ERR_USERNOTINCHANNEL);
        ApplyStranger(p, c, m);
        RunStrangers(p, step.c, cmds[1..], keys);
      }
    }
  }
}

=== FILE: modes.dfy ===
/** The mode grammar: `normalizeModes` expands a compact mode string such as
    `+nt-o nick` into an ordered list of single changes, and
    `modeCmds.IRCParams` renders such a list back into a mode string and its
    arguments. */
module Modes {

  /** One mode change: its sign, its letter and its argument ("" if none). */
  datatype ModeCmd = ModeCmd(adding: bool, letter: char, param: string)

  predicate IsSign(c: char) { c == '+' || c == '-' }

  /** The letters that consume the next positional argument. */
  predicate TakesParam(c: char) { c == 'o' || c == 'd' }

  /** The mode string with every sign removed. */
  function Unsigned(s: string): (r: string)
    ensures |r| <= |s|
    ensures forall i :: 0 <= i < |r| ==> !IsSign(r[i])
  {
    if |s| == 0 then ""
    else if IsSign(s[0]) then Unsigned(s[1..])
    else [s[0]] + Unsigned(s[1..])
  }

  /** How many letters of the mode string take an argument. */
  function CountTaking(s: string): nat {
    if |s| == 0 then 0
    else (if TakesParam(s[0]) then 1 else 0) + CountTaking(s[1..])
  }

  /** The sign in effect after reading `s`, starting from `adding`. */
  function FinalSign(s: string, adding: bool): bool {
    if |s| == 0 then adding
    else FinalSign(s[1..], if IsSign(s[0]) then s[0] == '+' else adding)
  }

  /** The first argument, or "" when there is none. */
  function Head(args: seq<string>): string {
    if |args| > 0 then args[0] else ""
  }

  /** The arguments after the first one. */
  function Tail(args: seq<string>): seq<string> {
    if |args| > 0 then args[1..] else []
  }

  /** The first `n` positional arguments, "" standing in for missing ones. */
  function Pad(args: seq<string>, n: nat): (r: seq<string>)
    ensures |r| == n
  {
    if n == 0 then [] else [Head(args)] + Pad(Tail(args), n - 1)
  }

  /** The positional arguments left after `n` have been consumed. */
  function Drop(args: seq<string>, n: nat): seq<string> {
    if n <= |args| then args[n..] else []
  }

  function Letters(cmds: seq<ModeCmd>): (r: string)
    ensures |r| == |cmds|
  {
    if |cmds| == 0 then "" else [cmds[0].letter] + Letters(cmds[1..])
  }

  /** The arguments of the argument-taking entries, in order. */
  function TakenArgs(cmds: seq<ModeCmd>): seq<string> {
    if |cmds| == 0 then []
    else if TakesParam(cmds[0].letter) then [cmds[0].param] + TakenArgs(cmds[1..])
    else TakenArgs(cmds[1..])
  }

  /** The non-empty arguments, in order. */
  function NonEmptyParams(cmds: seq<ModeCmd>): seq<string> {
    if |cmds| == 0 then []
    else if cmds[0].param != "" then [cmds[0].param] + NonEmptyParams(cmds[1..])
    else NonEmptyParams(cmds[1..])
  }

  /** Reads the mode string `s` starting with sign `adding`; `args` are the
      positional arguments not yet consumed. */
  function Parse(s: string, adding: bool, args: seq<string>): (r: seq<ModeCmd>)
    ensures |r| == |Unsigned(s)|
    decreases |s|
  {
    if |s| == 0 then []
    else if IsSign(s[0]) then Parse(s[1..], s[0] == '+', args)
    else if TakesParam(s[0]) then [ModeCmd(adding, s[0], Head(args))] + Parse(s[1..], adding, Tail(args))
    else [ModeCmd(adding, s[0], "")] + Parse(s[1..], adding, args)
  }

  /** The entries of a parse are the mode string's letters, in order. */
  lemma {:induction false} ParseLetters(s: string, adding: bool, args: seq<string>)
    ensures Letters(Parse(s, adding, args)) == Unsigned(s)
    decreases |s|
  {
    if |s| > 0 {
      var r := Parse(s, adding, args);
      if IsSign(s[0]) {
        ParseLetters(s[1..], s[0] == '+', args);
      } else if TakesParam(s[0]) {
        ParseLetters(s[1..], adding, Tail(args));
        assert r[1..] == Parse(s[1..], adding, Tail(args));
      } else {
        ParseLetters(s[1..], adding, args);
        assert r[1..] == Parse(s[1..], adding, args);
      }
    }
  }

  /** The argument-taking letters consume the positional arguments in order,
      "" once they run out; every other letter gets "". */
  lemma {:induction false} ParseArgs(s: string, adding: bool, args: seq<string>)
    ensures TakenArgs(Parse(s, adding, args)) == Pad(args, CountTaking(s))
    ensures forall i :: 0 <= i < |Parse(s, adding, args)| && !TakesParam(Parse(s, adding, args)[i].letter)
              ==> Parse(s, adding, args)[i].param == ""
    decreases |s|
  {
    if |s| > 0 {
      var r := Parse(s, adding, args);
      if IsSign(s[0]) {
        ParseArgs(s[1..], s[0] == '+', args);
      } else if TakesParam(s[0]) {
        ParseArgs(s[1..], adding, Tail(args));
        assert r[1..] == Parse(s[1..], adding, Tail(args));
      } else {
        ParseArgs(s[1..], adding, args);
        assert r[1..] == Parse(s[1..], adding, args);
      }
    }
  }

  /** `normalizeModes`: the mode string is the second parameter, its arguments
      follow it; parsing starts in adding mode. */
  function Normalize(params: seq<string>): (r: seq<ModeCmd>)
    ensures |params| <= 1 ==> r == []
    ensures |params| > 1 ==> |r| == |Unsigned(params[1])|
  {
    if |params| <= 1 then [] else Parse(params[1], true, params[2..])
  }

  /** Reading two mode strings one after the other is reading the first, then
      the second from the sign and the arguments the first left behind. */
  lemma {:induction false} ParseAppend(s1: string, s2: string, adding: bool, args: seq<string>)
    ensures Parse(s1 + s2, adding, args)
         == Parse(s1, adding, args) + Parse(s2, FinalSign(s1, adding), Drop(args, CountTaking(s1)))
    decreases |s1|
  {
    if |s1| == 0 {
      assert s1 + s2 == s2;
    } else {
      var c, t := s1[0], s1[1..];
      assert s1 + s2 == [c] + (t + s2);
      if IsSign(c) {
        SignOnly(c, t + s2, adding, args);
        ParseAppend(t, s2, c == '+', args);
      } else {
        var rest := if TakesParam(c) then Tail(args) else args;
        var cmd := ModeCmd(adding, c, if TakesParam(c) then Head(args) else "");
        ParseStep(c, t + s2, adding, args);
        ParseAppend(t, s2, adding, rest);
        if TakesParam(c) {
          DropTail(args, CountTaking(t));
        }
        SeqAssoc([cmd], Parse(t, adding, rest), Parse(s2, FinalSign(t, adding), Drop(rest, CountTaking(t))));
      }
    }
  }

  /** Consuming one argument, then `n` more, consumes `n + 1`. */
  lemma DropTail(args: seq<string>, n: nat)
    ensures Drop(Tail(args), n) == Drop(args, n + 1)
  {
    if |args| > 0 && n + 1 <= |args| {
      assert args[1..][n..] == args[n + 1..];
    }
  }

  /** A sign character produces no entry; it only sets the sign of what follows. */
  lemma SignOnly(c: char, s: string, adding: bool, args: seq<string>)
    requires IsSign(c)
    ensures Parse([c] + s, adding, args) == Parse(s, c == '+', args)
  {
    assert ([c] + s)[1..] == s;
  }

  /** Without a '-' every entry of a normalized mode string is an addition. */
  lemma {:induction false} NoMinusAllAdding(s: string, args: seq<string>)
    requires '-' !in s
    ensures forall i :: 0 <= i < |Parse(s, true, args)| ==> Parse(s, true, args)[i].adding
    decreases |s|
  {
    if |s| > 0 {
      assert '-' !in s[1..] by { assert forall k :: 0 <= k < |s[1..]| ==> s[1..][k] == s[k + 1]; }
      if IsSign(s[0]) {
        NoMinusAllAdding(s[1..], args);
      } else if TakesParam(s[0]) {
        NoMinusAllAdding(s[1..], Tail(args));
      } else {
        NoMinusAllAdding(s[1..], args);
      }
    }
  }

  function Adds(cmds: seq<ModeCmd>): (r: seq<ModeCmd>)
    ensures forall i :: 0 <= i < |r| ==> r[i].adding
  {
    if |cmds| == 0 then []
    else if cmds[0].adding then [cmds[0]] + Adds(cmds[1..])
    else Adds(cmds[1..])
  }

  function Removes(cmds: seq<ModeCmd>): (r: seq<ModeCmd>)
    ensures forall i :: 0 <= i < |r| ==> !r[i].adding
  {
    if |cmds| == 0 then []
    else if !cmds[0].adding then [cmds[0]] + Removes(cmds[1..])
    else Removes(cmds[1..])
  }

  /** `string(mode.Mode[1])`: the handlers index the UTF-8 bytes of a mode
      entry, so a letter outside ASCII comes out as the character whose code
      is the first byte of the letter's UTF-8 encoding. */
  function PrintedLetter(c: char): (p: char)
    ensures c < '\U{80}' ==> p == c
    ensures '\U{80}' <= c ==> '\U{C2}' <= p <= '\U{F4}'
  {
    if c < '\U{80}' then c
    else if c < '\U{800}' then (0xC0 + c as int / 64) as char
    else if c < '\U{10000}' then (0xE0 + c as int / 4096) as char
    else (0xF0 + c as int / 262144) as char
  }

  /** A string printed letter by letter as above. */
  function Printed(s: string): (r: string)
    ensures |r| == |s| && forall i :: 0 <= i < |s| ==> r[i] == PrintedLetter(s[i])
  {
    seq(|s|, i requires 0 <= i < |s| => PrintedLetter(s[i]))
  }

  /** ASCII letters print as themselves. */
  lemma PrintedAscii(s: string)
    requires forall i :: 0 <= i < |s| ==> s[i] < '\U{80}'
    ensures Printed(s) == s
  {
  }

  /** A letter outside ASCII prints as something else: "+é" comes out as
      "+Ã", the first byte of 'é' being 0xC3. */
  lemma PrintedNonAscii()
    ensures IrcParams([ModeCmd(true, '\U{E9}', "")]) == ["+\U{C3}"]
  {
    var cmds := [ModeCmd(true, '\U{E9}', "")];
    assert Adds(cmds) == cmds;
    assert Removes(cmds) == [];
    assert Letters(cmds) == ['\U{E9}'];
    assert PrintedLetter('\U{E9}') == '\U{C3}' by { assert 0xE9 / 64 == 3; }
    assert Printed(Letters(cmds)) == ['\U{C3}'];
    assert SignedRun(cmds, '+') == "+\U{C3}";
    assert SignedRun(Removes(cmds), '-') == "";
    assert NonEmptyParams(cmds + []) == [];
    assert IrcParams(cmds) == [SignedRun(cmds, '+') + SignedRun(Removes(cmds), '-')] + NonEmptyParams(cmds + []);
    assert SignedRun(cmds, '+') + SignedRun(Removes(cmds), '-') == "+\U{C3}";
  }

  /** The letters of well-formed entries are ASCII. */
  lemma {:induction false} LettersAscii(cmds: seq<ModeCmd>)
    requires WellFormed(cmds)
    ensures forall i :: 0 <= i < |Letters(cmds)| ==> Letters(cmds)[i] < '\U{80}'
    decreases |cmds|
  {
    if |cmds| > 0 {
      assert WellFormed(cmds[1..]);
      LettersAscii(cmds[1..]);
      assert Letters(cmds) == [cmds[0].letter] + Letters(cmds[1..]);
    }
  }

  /** A run of letters under one sign, or nothing when the run is empty. */
  function SignedRun(cmds: seq<ModeCmd>, sign: char): string {
    if |cmds| == 0 then "" else [sign] + Printed(Letters(cmds))
  }

  /** `modeCmds.IRCParams`: the additions under '+', then the removals under
      '-', then the non-empty arguments of the additions and of the removals. */
  function IrcParams(cmds: seq<ModeCmd>): (r: seq<string>)
    ensures |r| >= 1
  {
    var add := Adds(cmds);
    var remove := Removes(cmds);
    [SignedRun(add, '+') + SignedRun(remove, '-')] + NonEmptyParams(add + remove)
  }

  /** Entries that a round trip can reproduce: an ASCII letter (see
      `PrintedLetter`) that is not a sign, with an argument exactly when the
      letter takes one. */
  predicate WellFormed(cmds: seq<ModeCmd>) {
    forall i :: 0 <= i < |cmds| ==>
      cmds[i].letter < '\U{80}' && !IsSign(cmds[i].letter) && (TakesParam(cmds[i].letter) <==> cmds[i].param != "")
  }

  lemma {:induction false} NonEmptyParamsAppend(a: seq<ModeCmd>, b: seq<ModeCmd>)
    ensures NonEmptyParams(a + b) == NonEmptyParams(a) + NonEmptyParams(b)
    decreases |a|
  {
    if |a| == 0 {
      assert a + b == b;
    } else {
      assert (a + b)[0] == a[0];
      assert (a + b)[1..] == a[1..] + b;
      NonEmptyParamsAppend(a[1..], b);
    }
  }

  lemma {:induction false} FiltersWellFormed(cmds: seq<ModeCmd>)
    requires WellFormed(cmds)
    ensures WellFormed(Adds(cmds)) && WellFormed(Removes(cmds))
    decreases |cmds|
  {
    if |cmds| > 0 {
      FiltersWellFormed(cmds[1..]);
    }
  }

  lemma SeqAssoc<T>(a: seq<T>, b: seq<T>, c: seq<T>)
    ensures a + (b + c) == (a + b) + c
  {
  }

  /** One letter at the front of a mode string yields one entry. */
  lemma ParseStep(c: char, s: string, adding: bool, args: seq<string>)
    requires !IsSign(c)
    ensures TakesParam(c) ==> Parse([c] + s, adding, args) == [ModeCmd(adding, c, Head(args))] + Parse(s, adding, Tail(args))
    ensures !TakesParam(c) ==> Parse([c] + s, adding, args) == [ModeCmd(adding, c, "")] + Parse(s, adding, args)
  {
    assert ([c] + s)[0] == c;
    assert ([c] + s)[1..] == s;
  }

  /** A well-formed entry at the head of a run reads back as itself. */
  lemma ParseRunHead(c: ModeCmd, s1: string, tailArgs: seq<string>)
    requires !IsSign(c.letter) && (TakesParam(c.letter) <==> c.param != "")
    ensures Parse([c.letter] + s1, c.adding, (if c.param != "" then [c.param] else []) + tailArgs)
         == [c] + Parse(s1, c.adding, tailArgs)
  {
    var args := (if c.param != "" then [c.param] else []) + tailArgs;
    ParseStep(c.letter, s1, c.adding, args);
    if c.param != "" {
      assert Head(args) == c.param && Tail(args) == tailArgs;
    } else {
      assert args == tailArgs;
    }
  }

  /** The letters and arguments of a run, split at its first entry. */
  lemma RunCons(cs: seq<ModeCmd>, rest: string, more: seq<string>)
    requires |cs| > 0
    ensures Letters(cs) + rest == [cs[0].letter] + (Letters(cs[1..]) + rest)
    ensures NonEmptyParams(cs) + more
         == (if cs[0].param != "" then [cs[0].param] else []) + (NonEmptyParams(cs[1..]) + more)
  {
    var head: seq<string> := if cs[0].param != "" then [cs[0].param] else [];
    assert Letters(cs) == [cs[0].letter] + Letters(cs[1..]);
    SeqAssoc([cs[0].letter], Letters(cs[1..]), rest);
    assert NonEmptyParams(cs) == head + NonEmptyParams(cs[1..]);
    SeqAssoc(head, NonEmptyParams(cs[1..]), more);
  }

  /** Reading back the letters of a same-signed well-formed run with its
      arguments reproduces the run. */
  lemma {:induction false} ParseRun(cs: seq<ModeCmd>, adding: bool, rest: string, more: seq<string>)
    requires WellFormed(cs)
    requires forall i :: 0 <= i < |cs| ==> cs[i].adding == adding
    ensures Parse(Letters(cs) + rest, adding, NonEmptyParams(cs) + more) == cs + Parse(rest, adding, more)
    decreases |cs|
  {
    if |cs| == 0 {
      assert Letters(cs) + rest == rest;
      assert NonEmptyParams(cs) + more == more;
    } else {
      var c := cs[0];
      var tailArgs := NonEmptyParams(cs[1..]) + more;
      var s1 := Letters(cs[1..]) + rest;
      RunCons(cs, rest, more);
      assert WellFormed(cs[1..]);
      ParseRun(cs[1..], adding, rest, more);
      ParseRunHead(c, s1, tailArgs);
      assert [c] + cs[1..] == cs;
      SeqAssoc([c], cs[1..], Parse(rest, adding, more));
    }
  }

  /** A rendered run of removals reads back as itself, whatever the sign
      in effect before it. */
  lemma RemovalsReadBack(remove: seq<ModeCmd>, adding: bool)
    requires WellFormed(remove)
    requires forall i :: 0 <= i < |remove| ==> !remove[i].adding
    ensures Parse(SignedRun(remove, '-'), adding, NonEmptyParams(remove)) == remove
  {
    if |remove| > 0 {
      LettersAscii(remove);
      PrintedAscii(Letters(remove));
      SignOnly('-', Letters(remove), adding, NonEmptyParams(remove));
      ParseRun(remove, false, "", []);
      assert Letters(remove) + "" == Letters(remove);
      assert NonEmptyParams(remove) + [] == NonEmptyParams(remove);
      assert remove + [] == remove;
    }
  }

  /** With additions present, the rendering starts with '+', the additions
      read back first and the removals after them. */
  lemma AddsThenRemovalsReadBack(add: seq<ModeCmd>, remove: seq<ModeCmd>)
    requires |add| > 0
    requires WellFormed(add) && WellFormed(remove)
    requires forall i :: 0 <= i < |add| ==> add[i].adding
    requires forall i :: 0 <= i < |remove| ==> !remove[i].adding
    ensures Parse(['+'] + (Letters(add) + SignedRun(remove, '-')), true, NonEmptyParams(add) + NonEmptyParams(remove))
         == add + remove
  {
    var sr := SignedRun(remove, '-');
    SignOnly('+', Letters(add) + sr, true, NonEmptyParams(add) + NonEmptyParams(remove));
    ParseRun(add, true, sr, NonEmptyParams(remove));
    RemovalsReadBack(remove, true);
  }

  /** The rendered mode string of additions then removals reads back as them. */
  lemma RenderedReadBack(add: seq<ModeCmd>, remove: seq<ModeCmd>)
    requires WellFormed(add) && WellFormed(remove)
    requires forall i :: 0 <= i < |add| ==> add[i].adding
    requires forall i :: 0 <= i < |remove| ==> !remove[i].adding
    ensures Parse(SignedRun(add, '+') + SignedRun(remove, '-'), true, NonEmptyParams(add) + NonEmptyParams(remove))
         == add + remove
  {
    var sr := SignedRun(remove, '-');
    if |add| == 0 {
      RemovalsReadBack(remove, true);
      assert SignedRun(add, '+') + sr == sr;
      assert NonEmptyParams(add) + NonEmptyParams(remove) == NonEmptyParams(remove);
      assert add + remove == remove;
    } else {
      LettersAscii(add);
      PrintedAscii(Letters(add));
      assert SignedRun(add, '+') + sr == ['+'] + (Letters(add) + sr);
      AddsThenRemovalsReadBack(add, remove);
    }
  }

  /** Round trip: normalizing what IrcParams renders gives the changes back,
      additions first, each group in its original order. */
  lemma NormalizeIrcParams(target: string, cmds: seq<ModeCmd>)
    requires WellFormed(cmds)
    ensures Normalize([target] + IrcParams(cmds)) == Adds(cmds) + Removes(cmds)
  {
    var add := Adds(cmds);
    var remove := Removes(cmds);
    FiltersWellFormed(cmds);
    NonEmptyParamsAppend(add, remove);
    var params := [target] + IrcParams(cmds);
    assert params[1] == SignedRun(add, '+') + SignedRun(remove, '-');
    assert params[2..] == NonEmptyParams(add) + NonEmptyParams(remove);
    RenderedReadBack(add, remove);
  }

  lemma {:induction false} AddsOfRemoves(cmds: seq<ModeCmd>)
    ensures Adds(Removes(cmds)) == [] && Removes(Adds(cmds)) == []
    ensures Adds(Adds(cmds)) == Adds(cmds) && Removes(Removes(cmds)) == Removes(cmds)
    decreases |cmds|
  {
    if |cmds| > 0 {
      AddsOfRemoves(cmds[1..]);
    }
  }

  lemma {:induction false} FiltersAppend(a: seq<ModeCmd>, b: seq<ModeCmd>)
    ensures Adds(a + b) == Adds(a) + Adds(b) && Removes(a + b) == Removes(a) + Removes(b)
    decreases |a|
  {
    if |a| == 0 {
      assert a + b == b;
    } else {
      assert (a + b)[0] == a[0];
      assert (a + b)[1..] == a[1..] + b;
      FiltersAppend(a[1..], b);
    }
  }

  /** Rendering is insensitive to the interleaving of signs: the grouped list
      renders exactly as the original one. */
  lemma IrcParamsCanonical(cmds: seq<ModeCmd>)
    ensures IrcParams(Adds(cmds) + Removes(cmds)) == IrcParams(cmds)
  {
    FiltersAppend(Adds(cmds), Removes(cmds));
    AddsOfRemoves(cmds);
    assert Adds(Adds(cmds)) + Adds(Removes(cmds)) == Adds(cmds);
    assert Removes(Adds(cmds)) + Removes(Removes(cmds)) == Removes(cmds);
  }

  /** The letters of `modes` from `from` up to, but excluding, 'z', in
      increasing order (the `for mode := 'A'; mode < 'z'; mode++` loops). */
  function LettersFrom(modes: set<char>, from: int): (r: string)
    requires 'A' as int <= from <= 'z' as int
    ensures forall i :: 0 <= i < |r| ==> r[i] in modes && from <= r[i] as int < 'z' as int
    ensures forall c :: c in modes && from <= c as int < 'z' as int ==> c in r
    ensures forall i, j :: 0 <= i < j < |r| ==> r[i] < r[j]
    decreases 'z' as int - from
  {
    if from == 'z' as int then ""
    else (if from as char in modes then [from as char] else "") + LettersFrom(modes, from + 1)
  }

  /** The reply form of a mode set: '+' followed by its letters in order. */
  function ModeString(modes: set<char>): (r: string)
    ensures |r| >= 1 && r[0] == '+'
    ensures forall c :: c in r[1..] <==> c in modes && 'A' <= c < 'z'
  {
    "+" + LettersFrom(modes, 'A' as int)
  }
}

=== FILE: numerics.dfy ===
/** IRC reply codes and verbs used by the handlers (section 5 of RFC 2812). */
module Numerics {

  const RPL_WELCOME := "001"
  const RPL_YOURHOST := "002"
  const RPL_CREATED := "003"
  const RPL_MYINFO := "004"
  const RPL_ISUPPORT := "005"
  const RPL_AWAY := "301"
  const RPL_UNAWAY := "305"
  const RPL_NOWAWAY := "306"
  const RPL_CHANNELMODEIS := "324"
  const RPL_NOTOPIC := "331"
  const RPL_TOPIC := "332"
  const RPL_TOPICWHOTIME := "333"
  const RPL_INVITING := "341"
  const RPL_NAMREPLY := "353"
  const RPL_ENDOFNAMES := "366"
  const RPL_ENDOFBANLIST := "368"
  const RPL_MOTD := "372"
  const RPL_MOTDSTART := "375"
  const RPL_ENDOFMOTD := "376"
  const RPL_YOUREOPER := "381"

  const ERR_NOSUCHNICK := "401"
  const ERR_NOSUCHCHANNEL := "403"
  const ERR_NONICKNAMEGIVEN := "431"
  const ERR_ERRONEUSNICKNAME := "432"
  const ERR_NICKNAMEINUSE := "433"
  const ERR_USERNOTINCHANNEL := "441"
  const ERR_NOTONCHANNEL := "442"
  const ERR_USERONCHANNEL := "443"
  const ERR_NEEDMOREPARAMS := "461"
  const ERR_PASSWDMISMATCH := "464"
  const ERR_UNKNOWNMODE := "472"
  const ERR_INVITEONLYCHAN := "473"
  const ERR_CHANOPRIVSNEEDED := "482"
  const ERR_UMODEUNKNOWNFLAG := "501"
  const ERR_USERSDONTMATCH := "502"

  /** The error replies of the handlers modelled here. */
  predicate IsError(command: string) {
    command in {ERR_NOSUCHNICK, ERR_NOSUCHCHANNEL, ERR_NONICKNAMEGIVEN, ERR_ERRONEUSNICKNAME,
                ERR_NICKNAMEINUSE, ERR_USERNOTINCHANNEL, ERR_NOTONCHANNEL, ERR_USERONCHANNEL,
                ERR_NEEDMOREPARAMS, ERR_PASSWDMISMATCH, ERR_UNKNOWNMODE, ERR_INVITEONLYCHAN, ERR_CHANOPRIVSNEEDED,
                ERR_UMODEUNKNOWNFLAG, ERR_USERSDONTMATCH}
  }
}

=== FILE: outputstream.dfy ===
/** The output stream as its tests describe it, as a sequential structure:
    batches of messages stored under the primary id of their first message,
    in increasing order of that id, together with the id of the last message
    added. A reader that has seen everything up to some id asks for the next
    batch; where the real call would wait for a later `Add`, the model answers
    None. */
module OutputStream {

  import opened Wrappers

  /** An id: the primary part names the input message, the reply part one of
      the messages produced for it. */
  datatype RobustId = RobustId(id: int, reply: int)

  datatype Message = Message(id: RobustId, data: string)

  type Batch = seq<Message>

  /** The primary id a batch is stored under. */
  function Key(b: Batch): int
    requires |b| > 0
  {
    b[0].id.id
  }

  predicate Sorted(bs: seq<Batch>) {
    && (forall i :: 0 <= i < |bs| ==> |bs[i]| > 0)
    && (forall i, j :: 0 <= i < j < |bs| ==> Key(bs[i]) < Key(bs[j]))
  }

  datatype Stream = Stream(batches: seq<Batch>, last: RobustId)

  predicate Valid(s: Stream) {
    Sorted(s.batches)
  }

  /** A new stream: nothing stored, and the zero id as the last one seen. */
  function Empty(): (s: Stream)
    ensures Valid(s) && s.last == RobustId(0, 0)
    ensures forall k :: Find(s.batches, k).None?
  {
    Stream([], RobustId(0, 0))
  }

  /** The batch stored under primary id `k`. */
  function Find(bs: seq<Batch>, k: int): (r: Option<Batch>)
    requires Sorted(bs)
    ensures r.Some? ==> |r.value| > 0 && Key(r.value) == k && r.value in bs
  {
    if |bs| == 0 then None
    else if Key(bs[0]) == k then Some(bs[0])
    else Find(bs[1..], k)
  }

  /** A batch stored under `k` is the one `Find` returns: keys are unique. */
  lemma {:induction false} FindAt(bs: seq<Batch>, k: int, i: int)
    requires Sorted(bs) && 0 <= i < |bs| && Key(bs[i]) == k
    ensures Find(bs, k) == Some(bs[i])
    decreases |bs|
  {
    if i > 0 {
      FindAt(bs[1..], k, i - 1);
    }
  }

  /** The first batch stored under a primary id greater than `k`. */
  function Next(bs: seq<Batch>, k: int): (r: Option<Batch>)
    requires Sorted(bs)
    ensures r.None? <==> forall i :: 0 <= i < |bs| ==> Key(bs[i]) <= k
    ensures r.Some? ==> |r.value| > 0 && Key(r.value) > k && r.value in bs
    ensures r.Some? ==> forall i :: 0 <= i < |bs| && Key(bs[i]) > k ==> Key(bs[i]) >= Key(r.value)
  {
    if |bs| == 0 then None
    else if Key(bs[0]) > k then Some(bs[0])
    else
      var r := Next(bs[1..], k);
      assert forall i :: 1 <= i < |bs| ==> bs[i] == bs[1..][i - 1];
      r
  }

  /** Stores `b` under its key: before every batch with a larger key,
      replacing one with the same key. */
  function Insert(bs: seq<Batch>, b: Batch): (r: seq<Batch>)
    requires Sorted(bs) && |b| > 0
    ensures Sorted(r) && b in r
    ensures forall x :: x in r ==> x in bs || x == b
    decreases |bs|
  {
    if |bs| == 0 then [b]
    else if Key(b) < Key(bs[0]) then [b] + bs
    else if Key(b) == Key(bs[0]) then [b] + bs[1..]
    else
      var rest := Insert(bs[1..], b);
      forall j | 0 <= j < |rest| ensures Key(bs[0]) < Key(rest[j]) {
        assert rest[j] in bs[1..] || rest[j] == b;
      }
      ConsSorted(bs[0], rest);
      [bs[0]] + rest
  }

  /** Putting a batch in front of a sorted list whose keys all exceed its
      own keeps the list sorted. */
  lemma ConsSorted(x: Batch, rest: seq<Batch>)
    requires Sorted(rest) && |x| > 0
    requires forall j :: 0 <= j < |rest| ==> Key(x) < Key(rest[j])
    ensures Sorted([x] + rest)
  {
  }

  /** Looking up in a sorted list is looking at its head, then its tail. */
  lemma ConsFind(x: Batch, rest: seq<Batch>, k: int)
    requires |x| > 0 && Sorted([x] + rest)
    ensures Sorted(rest)
    ensures Find([x] + rest, k) == if k == Key(x) then Some(x) else Find(rest, k)
  {
    assert ([x] + rest)[1..] == rest;
  }

  /** Reading after `k` in a sorted list looks at its head, then its tail. */
  lemma ConsNext(x: Batch, rest: seq<Batch>, k: int)
    requires |x| > 0 && Sorted([x] + rest)
    ensures Sorted(rest)
    ensures Next([x] + rest, k) == if Key(x) > k then Some(x) else Next(rest, k)
  {
    assert ([x] + rest)[1..] == rest;
  }

  /** After `Insert`, `b` is found under its key and every other key finds
      what it found before. */
  lemma {:induction false} InsertFind(bs: seq<Batch>, b: Batch, k: int)
    requires Sorted(bs) && |b| > 0
    ensures Find(Insert(bs, b), k) == if k == Key(b) then Some(b) else Find(bs, k)
    decreases |bs|
  {
    if |bs| == 0 {
      assert Insert(bs, b) == [b];
    } else if Key(b) < Key(bs[0]) {
      assert Insert(bs, b) == [b] + bs;
      ConsFind(b, bs, k);
    } else if Key(b) == Key(bs[0]) {
      assert Insert(bs, b) == [b] + bs[1..];
      ConsFind(b, bs[1..], k);
    } else {
      var rest := Insert(bs[1..], b);
      assert Insert(bs, b) == [bs[0]] + rest;
      InsertFind(bs[1..], b, k);
      ConsFind(bs[0], rest, k);
    }
  }

  /** Removes the batch stored under `k`. */
  function Remove(bs: seq<Batch>, k: int): (r: seq<Batch>)
    requires Sorted(bs)
    ensures Sorted(r) && |r| <= |bs|
    ensures forall x :: x in r ==> x in bs
    decreases |bs|
  {
    if |bs| == 0 then []
    else if Key(bs[0]) == k then bs[1..]
    else
      var rest := Remove(bs[1..], k);
      forall j | 0 <= j < |rest| ensures Key(bs[0]) < Key(rest[j]) {
        assert rest[j] in bs[1..];
      }
      ConsSorted(bs[0], rest);
      [bs[0]] + rest
  }

  /** After `Remove`, key `k` finds nothing and every other key finds what
      it found before. */
  lemma {:induction false} RemoveFind(bs: seq<Batch>, k: int, j: int)
    requires Sorted(bs)
    ensures Find(Remove(bs, k), j) == if j == k then None else Find(bs, j)
    decreases |bs|
  {
    if |bs| > 0 {
      if Key(bs[0]) == k {
        assert Remove(bs, k) == bs[1..];
      } else {
        var rest := Remove(bs[1..], k);
        assert Remove(bs, k) == [bs[0]] + rest;
        RemoveFind(bs[1..], k, j);
        ConsFind(bs[0], rest, j);
      }
    }
  }

  /** `Add`: stores a batch and makes its last message the last id seen. */
  function Add(s: Stream, b: Batch): (r: Stream)
    requires Valid(s) && |b| > 0
    ensures Valid(r) && r.last == b[|b| - 1].id
    ensures forall k :: Find(r.batches, k) == if k == Key(b) then Some(b) else Find(s.batches, k)
  {
    forall k ensures Find(Insert(s.batches, b), k) == if k == Key(b) then Some(b) else Find(s.batches, k) {
      InsertFind(s.batches, b, k);
    }
    Stream(Insert(s.batches, b), b[|b| - 1].id)
  }

  /** `Get`: the batch stored under the primary part of `id`; the reply part
      plays no role. */
  function Get(s: Stream, id: RobustId): (r: Option<Batch>)
    requires Valid(s)
    ensures r.Some? <==> exists i :: 0 <= i < |s.batches| && Key(s.batches[i]) == id.id
    ensures r.Some? ==> r.value in s.batches && Key(r.value) == id.id
  {
    forall i | 0 <= i < |s.batches| && Key(s.batches[i]) == id.id
      ensures Find(s.batches, id.id) == Some(s.batches[i])
    {
      FindAt(s.batches, id.id, i);
    }
    Find(s.batches, id.id)
  }

  /** `Delete`: removing a batch that is not stored is a fatal error in the
      stream, so callers must only delete what is there. */
  function Delete(s: Stream, id: RobustId): (r: Stream)
    requires Valid(s) && Get(s, id).Some?
    ensures Valid(r) && r.last == s.last && |r.batches| < |s.batches|
    ensures Get(r, id).None?
    ensures forall x: RobustId :: x.id != id.id ==> Get(r, x) == Get(s, x)
  {
    var bs := Remove(s.batches, id.id);
    forall j ensures Find(bs, j) == if j == id.id then None else Find(s.batches, j) {
      RemoveFind(s.batches, id.id, j);
    }
    assert |bs| < |s.batches| by {
      if |bs| == |s.batches| {
        RemoveKeepsAll(s.batches, id.id);
      }
    }
    Stream(bs, s.last)
  }

  /** Removing nothing keeps every batch: the length only stays the same when
      no batch had the key. */
  lemma {:induction false} RemoveKeepsAll(bs: seq<Batch>, k: int)
    requires Sorted(bs) && |Remove(bs, k)| == |bs|
    ensures Find(bs, k).None?
    decreases |bs|
  {
    if |bs| > 0 && Key(bs[0]) != k {
      RemoveKeepsAll(bs[1..], k);
      assert forall i :: 1 <= i < |bs| ==> bs[i] == bs[1..][i - 1];
    }
  }

  /** `GetNext` without waiting: the first batch after `last`'s primary id,
      or None where the real call would wait for one to be added. */
  function GetNext(s: Stream, last: RobustId): (r: Option<Batch>)
    requires Valid(s)
  {
    Next(s.batches, last.id)
  }

  /** What `GetNext` returns is stored, lies after `last`, and no stored
      batch lies between the two; it waits exactly when nothing lies after
      `last`. */
  lemma GetNextIsNext(s: Stream, last: RobustId)
    requires Valid(s)
    ensures var r := GetNext(s, last);
      && (r.None? <==> forall x: RobustId :: x.id > last.id ==> Get(s, x).None?)
      && (r.Some? ==>
            && r.value in s.batches && Key(r.value) > last.id
            && forall x: RobustId :: last.id < x.id < Key(r.value) ==> Get(s, x).None?)
  {
    var r := GetNext(s, last);
    if r.None? {
      forall x: RobustId | x.id > last.id ensures Get(s, x).None? {
      }
    } else {
      forall x: RobustId | last.id < x.id < Key(r.value) ensures Get(s, x).None? {
      }
    }
  }

  /** `LastSeen`: the id of the last message added, the zero id before any. */
  function LastSeen(s: Stream): (r: RobustId)
    ensures s == Empty() ==> r == RobustId(0, 0)
  {
    s.last
  }

  /** Reading from any id at or after a stored batch's key and before the
      next one's yields that next batch: starting from the zero id and
      following the ids `GetNext` returns visits every batch in order. */
  lemma {:induction false} CatchUp(s: Stream, i: int, last: RobustId)
    requires Valid(s) && 0 <= i < |s.batches|
    requires (i == 0 || Key(s.batches[i - 1]) <= last.id) && last.id < Key(s.batches[i])
    ensures GetNext(s, last) == Some(s.batches[i])
  {
    var r := GetNext(s, last);
    assert r.Some?;
  }

  /** A reader with nothing to read gets, after an `Add` past its id,
      exactly the added batch. */
  lemma AddWakes(s: Stream, last: RobustId, b: Batch)
    requires Valid(s) && |b| > 0 && GetNext(s, last).None? && Key(b) > last.id
    ensures GetNext(Add(s, b), last) == Some(b)
  {
    var r := Add(s, b);
    var n := GetNext(r, last);
    assert Find(r.batches, Key(b)) == Some(b);
    assert n.Some?;
    assert Find(r.batches, Key(n.value)) == Some(n.value);
  }

  /** With no key in `(a, b]`, reading after `a` and after `b` agree. */
  lemma {:induction false} NextAcrossGap(bs: seq<Batch>, a: int, b: int)
    requires Sorted(bs) && a <= b
    requires forall i :: 0 <= i < |bs| ==> !(a < Key(bs[i]) <= b)
    ensures Next(bs, a) == Next(bs, b)
    decreases |bs|
  {
    if |bs| > 0 && Key(bs[0]) <= a {
      NextAcrossGap(bs[1..], a, b);
    }
  }

  /** Removing key `k` and reading from at most `k`, with no key between,
      gives the first batch after `k`. */
  lemma {:induction false} NextRemove(bs: seq<Batch>, k: int, from: int)
    requires Sorted(bs) && from <= k
    requires forall i :: 0 <= i < |bs| ==> !(from < Key(bs[i]) < k)
    ensures Next(Remove(bs, k), from) == Next(bs, k)
    decreases |bs|
  {
    if |bs| > 0 {
      if Key(bs[0]) == k {
        NextAcrossGap(bs[1..], from, k);
      } else if Key(bs[0]) < k {
        NextRemove(bs[1..], k, from);
        assert Remove(bs, k) == [bs[0]] + Remove(bs[1..], k);
        ConsNext(bs[0], Remove(bs[1..], k), from);
      }
    }
  }

  /** After deleting a batch, a reader positioned at it, or before it with
      nothing stored in between, is handed the first batch after it. */
  lemma DeleteSkips(s: Stream, del: RobustId, last: RobustId)
    requires Valid(s) && Get(s, del).Some? && last.id <= del.id
    requires forall x: RobustId :: last.id < x.id < del.id ==> Get(s, x).None?
    ensures GetNext(Delete(s, del), last) == GetNext(s, del)
  {
    forall i | 0 <= i < |s.batches| ensures !(last.id < Key(s.batches[i]) < del.id) {
      assert Get(s, RobustId(Key(s.batches[i]), 0)).Some?;
    }
    NextRemove(s.batches, del.id, last.id);
  }

  /** A batch of one message carrying no data, as the tests add. */
  function One(id: int, reply: int): (b: Batch)
    ensures |b| == 1 && Key(b) == id
  {
    [Message(RobustId(id, reply), "")]
  }

  /** Three batches added in order are read back in order, starting from the
      zero id; the last id seen follows each `Add`. */
  lemma CatchUpScenario()
    ensures var s1 := Add(Empty(), One(1, 1));
      var s := Add(Add(s1, One(2, 1)), One(3, 1));
      && LastSeen(Empty()) == RobustId(0, 0) && LastSeen(s1) == RobustId(1, 1)
      && GetNext(s, RobustId(0, 0)) == Some(One(1, 1))
      && GetNext(s, RobustId(1, 1)) == Some(One(2, 1))
      && GetNext(s, RobustId(2, 1)) == Some(One(3, 1))
  {
    ThreeAdded();
    var s := Add(Add(Add(Empty(), One(1, 1)), One(2, 1)), One(3, 1));
    CatchUp(s, 0, RobustId(0, 0));
    CatchUp(s, 1, RobustId(1, 1));
    CatchUp(s, 2, RobustId(2, 1));
  }

  /** The stream of the deletion test: 1, 2 and 3 added, then 2 deleted. */
  lemma DeleteMiddleState()
    ensures var s := Add(Add(Add(Empty(), One(1, 1)), One(2, 1)), One(3, 1));
      Delete(s, RobustId(2, 0)) == Stream([One(1, 1), One(3, 1)], RobustId(3, 1))
  {
    ThreeAdded();
    RemoveMiddle();
    assert Find([One(1, 1), One(2, 1), One(3, 1)], 2).Some? by {
      FindAt([One(1, 1), One(2, 1), One(3, 1)], 2, 1);
    }
  }

  /** Removing key 2 from batches 1, 2, 3 leaves 1 and 3. */
  lemma RemoveMiddle()
    ensures Remove([One(1, 1), One(2, 1), One(3, 1)], 2) == [One(1, 1), One(3, 1)]
  {
    var bs := [One(1, 1), One(2, 1), One(3, 1)];
    assert bs[1..] == [One(2, 1), One(3, 1)];
    assert Remove([One(2, 1), One(3, 1)], 2) == [One(3, 1)];
  }

  /** Adding batches 1, 2 and 3 in order stores them in that order. */
  lemma ThreeAdded()
    ensures var s := Add(Add(Add(Empty(), One(1, 1)), One(2, 1)), One(3, 1));
      s == Stream([One(1, 1), One(2, 1), One(3, 1)], RobustId(3, 1))
  {
    var s1 := Add(Empty(), One(1, 1));
    assert s1.batches == [One(1, 1)];
    var s2 := Add(s1, One(2, 1));
    assert Insert([One(1, 1)], One(2, 1)) == [One(1, 1)] + Insert([], One(2, 1));
    assert s2.batches == [One(1, 1), One(2, 1)];
    assert [One(1, 1), One(2, 1)][1..] == [One(2, 1)];
    assert Insert([One(2, 1)], One(3, 1)) == [One(2, 1), One(3, 1)];
    assert Insert([One(1, 1), One(2, 1)], One(3, 1)) == [One(1, 1)] + Insert([One(2, 1)], One(3, 1));
  }

  /** Deleting the middle of three batches: the others stay reachable by
      `Get` and `GetNext`, an id never added is not found, and once nothing
      follows a reader it waits until the next `Add`. */
  lemma DeleteMiddleScenario()
    ensures var s := Add(Add(Add(Empty(), One(1, 1)), One(2, 1)), One(3, 1));
      var d := Delete(s, RobustId(2, 0));
      && Get(d, RobustId(3, 0)) == Some(One(3, 1))
      && Get(d, RobustId(23, 0)).None?
      && GetNext(d, RobustId(2, 1)) == Some(One(3, 1))
      && GetNext(d, RobustId(1, 1)) == Some(One(3, 1))
      && var d2 := Delete(d, RobustId(3, 0));
      && GetNext(d2, RobustId(3, 1)).None?
      && GetNext(Add(d2, One(4, 1)), RobustId(3, 1)) == Some(One(4, 1))
  {
    DeleteMiddleState();
    var d := Stream([One(1, 1), One(3, 1)], RobustId(3, 1));
    assert Get(d, RobustId(3, 0)) == Some(One(3, 1));
    CatchUp(d, 1, RobustId(2, 1));
    CatchUp(d, 1, RobustId(1, 1));
    DeleteLastThenAdd(d);
  }

  /** Once the last batch is deleted, a reader at it waits, and the next
      `Add` wakes it with the added batch. */
  lemma DeleteLastThenAdd(d: Stream)
    requires d == Stream([One(1, 1), One(3, 1)], RobustId(3, 1))
    ensures Valid(d) && Get(d, RobustId(3, 0)).Some?
    ensures var d2 := Delete(d, RobustId(3, 0));
      && GetNext(d2, RobustId(3, 1)).None?
      && GetNext(Add(d2, One(4, 1)), RobustId(3, 1)) == Some(One(4, 1))
  {
    assert Get(d, RobustId(3, 0)) == Some(One(3, 1));
    var d2 := Delete(d, RobustId(3, 0));
    assert d2.batches == [One(1, 1)] by {
      assert d.batches[1..] == [One(3, 1)];
    }
    AddWakes(d2, RobustId(3, 1), One(4, 1));
  }
}

=== FILE: server_commands.dfy ===
/** Handlers of messages arriving over a services link (`server_commands.go`).
    They act on any session or channel without permission checks; errors go
    back to services, not to a user. `sid` is the session of the services
    link itself and `Sender(msg)` the services pseudo-user that sent the
    message. */
module ServerCommands {

  import opened Wrappers
  import opened Text
  import opened Modes
  import opened Numerics
  import opened Directory
  import opened ModeEffects
  import opened ModeRuns
  import opened ChannelCommands
  import opened Commands

  // ---------------------------------------------------------------------
  // KICK

  /** `cmdServerKick`: no operator check; the channel must exist and the
      target must be a member. */
  function ServerKick(st: State, msg: Message): (r: Reply)
    requires |msg.params| >= 2
    ensures r.st.nicks == st.nicks && r.st.holds == st.holds && r.st.sessions.Keys == st.sessions.Keys
    ensures var ckey := Fold(msg.params[0]);
      ckey !in st.channels ==> r == Reply(st, [ToLink(ERR_NOSUCHCHANNEL, [Sender(msg), msg.params[0]])])
    ensures var ckey, tkey := Fold(msg.params[0]), Fold(msg.params[1]);
      ckey in st.channels && tkey !in st.channels[ckey].nicks ==>
        r == Reply(st, [ToLink(ERR_USERNOTINCHANNEL, [Sender(msg), msg.params[1], msg.params[0]])])
    ensures var ckey, tkey := Fold(msg.params[0]), Fold(msg.params[1]);
      ckey in st.channels && tkey in st.channels[ckey].nicks ==>
        && (ckey in r.st.channels ==> tkey !in r.st.channels[ckey].nicks)
        && (Indexed(st, tkey) ==> ckey !in r.st.sessions[st.nicks[tkey]].channels)
        && |r.out| == 2 && r.out[0].command == "KICK" && r.out[0].from == FromNick(Sender(msg))
        && r.out[0].params == [msg.params[0], msg.params[1], Trailing(msg)]
        && r.out[0].to == ToChannel(ckey, st.channels[ckey].nicks.Keys) && r.out[1].to == ToServices
  {
    var chan, target := msg.params[0], msg.params[1];
    var ckey, tkey := Fold(chan), Fold(target);
    if ckey !in st.channels then
      Reply(st, [ToLink(ERR_NOSUCHCHANNEL, [Sender(msg), chan])])
    else if tkey !in st.channels[ckey].nicks then
      Reply(st, [ToLink(ERR_USERNOTINCHANNEL, [Sender(msg), target, chan])])
    else
      var kick := ToMembers(st, ckey, FromNick(Sender(msg)), "KICK", [chan, target, Trailing(msg)]);
      var owner := if tkey in st.nicks then Some(st.nicks[tkey]) else None;
      Reply(Unlink(st, ckey, tkey, owner), [kick, kick.(to := ToServices)])
  }

  lemma ServerKickValid(st: State, msg: Message)
    requires Valid(st) && |msg.params| >= 2
    ensures Valid(ServerKick(st, msg).st)
  {
    var ckey, tkey := Fold(msg.params[0]), Fold(msg.params[1]);
    if ckey in st.channels && tkey in st.channels[ckey].nicks {
      UnlinkValid(st, ckey, tkey);
    }
  }

  // ---------------------------------------------------------------------
  // NICK (introduction of a services pseudo-user)

  /** The sub-session services get for a pseudo-user: the link's connection
      id and a hash of the nickname. */
  function PseudoUserId(env: Env, sid: SessionId, nick: string): (id: SessionId)
    ensures id.id == sid.id
  {
    SessionId(sid.id, env.nickHash(nick))
  }

  /** `cmdServerNick`. The one-parameter form (a nickname change) is ignored;
      the introduction form needs the user name in the fourth parameter. */
  function ServerNick(env: Env, st: State, sid: SessionId, msg: Message): (r: Reply)
    requires sid in st.sessions && |msg.params| >= 1
    requires |msg.params| == 1 || Fold(msg.params[0]) in st.nicks || |msg.params| >= 4
    ensures |msg.params| == 1 ==> r == Reply(st, [])
    ensures |msg.params| > 1 && Fold(msg.params[0]) in st.nicks ==>
              r == Reply(st, [ToLink(ERR_NICKNAMEINUSE, ["*", msg.params[0]])])
    ensures var nick, id := msg.params[0], PseudoUserId(env, sid, msg.params[0]);
      |msg.params| > 1 && Fold(nick) !in st.nicks ==>
        && r.out == []
        && r.st.nicks == st.nicks[Fold(nick) := id]
        && r.st.sessions.Keys == st.sessions.Keys + {id}
        && r.st.sessions[id].nick == nick && r.st.sessions[id].channels == {}
        && r.st.sessions[id].username == msg.params[3] && r.st.sessions[id].realname == Trailing(msg)
        && (forall x :: x in st.sessions && x != id ==> r.st.sessions[x] == st.sessions[x])
        && r.st.channels == st.channels && r.st.holds == st.holds
  {
    var nick := msg.params[0];
    if |msg.params| == 1 then Reply(st, [])
    else if Fold(nick) in st.nicks then Reply(st, [ToLink(ERR_NICKNAMEINUSE, ["*", nick])])
    else
      var id := PseudoUserId(env, sid, nick);
      var u := NewSession(st.sessions[sid].lastActivity).(nick := nick, username := msg.params[3], realname := Trailing(msg));
      Reply(AddUser(st, id, u), [])
  }

  /** `st` with session `u` added under `id` and indexed by its nickname. */
  function AddUser(st: State, id: SessionId, u: Session): (r: State)
    ensures r.sessions == st.sessions[id := u] && r.nicks == st.nicks[Fold(u.nick) := id]
    ensures r.channels == st.channels && r.holds == st.holds
  {
    st.(sessions := st.sessions[id := u], nicks := st.nicks[Fold(u.nick) := id])
  }

  lemma AddUserIndex(st: State, id: SessionId, u: Session)
    requires IndexSound(st) && IndexComplete(st) && id !in st.sessions
    requires u.nick != "" && Fold(u.nick) !in st.nicks
    ensures var r := AddUser(st, id, u); IndexSound(r) && IndexComplete(r)
  {
    var r := AddUser(st, id, u);
    FoldEmpty(u.nick);
    forall k | k in r.nicks
      ensures k != "" && r.nicks[k] in r.sessions && Fold(r.sessions[r.nicks[k]].nick) == k
    {
      if k != Fold(u.nick) {
        assert st.nicks[k] in st.sessions;
      }
    }
    forall x | x in r.sessions && r.sessions[x].nick != ""
      ensures Fold(r.sessions[x].nick) in r.nicks && r.nicks[Fold(r.sessions[x].nick)] == x
    {
      if x != id {
        assert Fold(st.sessions[x].nick) in st.nicks;
      }
    }
  }

  lemma AddUserLinks(st: State, id: SessionId, u: Session)
    requires MembersListed(st) && ChannelsListed(st) && id !in st.sessions
    requires Fold(u.nick) !in st.nicks && u.channels == {}
    ensures var r := AddUser(st, id, u); MembersListed(r) && ChannelsListed(r)
  {
    var r := AddUser(st, id, u);
    forall ck, n | ck in r.channels && n in r.channels[ck].nicks
      ensures Indexed(r, n) && ck in r.sessions[r.nicks[n]].channels
    {
      assert Indexed(st, n);
      assert n != Fold(u.nick);
    }
    forall x, ck | x in r.sessions && ck in r.sessions[x].channels
      ensures ck in r.channels && Fold(r.sessions[x].nick) in r.channels[ck].nicks
    {
      assert x != id;
    }
  }

  /** Introducing a pseudo-user under a fresh sub-session id keeps the
      directory consistent. */
  lemma ServerNickValid(env: Env, st: State, sid: SessionId, msg: Message)
    requires Valid(st) && sid in st.sessions && |msg.params| >= 1
    requires |msg.params| == 1 || Fold(msg.params[0]) in st.nicks || |msg.params| >= 4
    requires msg.params[0] != "" && PseudoUserId(env, sid, msg.params[0]) !in st.sessions
    ensures Valid(ServerNick(env, st, sid, msg).st)
  {
    var nick, id := msg.params[0], PseudoUserId(env, sid, msg.params[0]);
    if |msg.params| > 1 && Fold(nick) !in st.nicks {
      var u := NewSession(st.sessions[sid].lastActivity).(nick := nick, username := msg.params[3], realname := Trailing(msg));
      assert ServerNick(env, st, sid, msg).st == AddUser(st, id, u);
      AddUserIndex(st, id, u);
      AddUserLinks(st, id, u);
    }
  }

  // ---------------------------------------------------------------------
  // MODE

  /** Services may set `t`, `s`, `r` and `i` directly; `x` and `+b` are
      unknown to this handler, and errors go to services. */
  function ServerPolicy(msg: Message): (p: Policy)
    requires |msg.params| >= 1
    ensures 'o' !in p.flags && !p.banList && p.errorsTo == ToServices
  {
    Policy({'t', 's', 'r', 'i'}, None, false, ToServices, Sender(msg), msg.params[0])
  }

  /** Whether an outgoing message carries the name of the services
      pseudo-user that sent `msg`: as its prefix or as its first parameter. */
  predicate NamesSender(o: Output, msg: Message) {
    o.from == FromNick(Sender(msg)) || (|o.params| > 0 && o.params[0] == Sender(msg))
  }

  /** `cmdServerMode`: every change is applied; the result is announced to
      the channel (not back to services) unless the message is a services
      sub-request. */
  function ServerMode(st: State, msg: Message, replyId: nat): (r: Reply)
    requires |msg.params| >= 1
    ensures SameLinks(st, r.st) && r.st.sessions == st.sessions && r.st.holds == st.holds
    ensures forall k :: k in st.channels && k != Fold(msg.params[0]) ==> r.st.channels[k] == st.channels[k]
    ensures Fold(msg.params[0]) !in st.channels ==>
              r == Reply(st, [ToLink(ERR_NOSUCHCHANNEL, [Sender(msg), msg.params[0]])])
    ensures forall i :: 0 <= i < |r.out| && r.out[i].to != ToServices ==>
              i == |r.out| - 1 && replyId == 0
    ensures var ckey := Fold(msg.params[0]);
      ckey in st.channels && replyId == 0 ==>
        && |r.out| >= 1
        && r.out[|r.out| - 1] == ToMembers(st, ckey, FromNick(Sender(msg)), "MODE", [msg.params[0]] + IrcParams(Normalize(msg.params)))
  {
    var name := msg.params[0];
    var ckey := Fold(name);
    if ckey !in st.channels then Reply(st, [ToLink(ERR_NOSUCHCHANNEL, [Sender(msg), name])])
    else
      var c := st.channels[ckey];
      var cmds := Normalize(msg.params);
      var run := RunModes(ServerPolicy(msg), c, true, cmds);
      UpdateChannelKeepsLinks(st, ckey, run.c);
      var st1 := st.(channels := st.channels[ckey := run.c]);
      if replyId > 0 then Reply(st1, run.out)
      else Reply(st1, run.out + [ToMembers(st1, ckey, FromNick(Sender(msg)), "MODE", [name] + IrcParams(cmds))])
  }

  /** After a services MODE, `t`, `s`, `r` and `i` carry the sign of their
      last change, every other flag is kept, and each member's operator bit
      follows the last `o` change naming the member. */
  lemma ServerModeEffect(st: State, msg: Message, replyId: nat, f: char, k: string)
    requires |msg.params| >= 1 && Fold(msg.params[0]) in st.channels
    ensures var before, after := st.channels[Fold(msg.params[0])], ServerMode(st, msg, replyId).st.channels[Fold(msg.params[0])];
      var cmds := Normalize(msg.params);
      && (f in {'t', 's', 'r', 'i'} ==> (f in after.modes <==> LastSign(cmds, f, f in before.modes)))
      && (f !in {'t', 's', 'r', 'i'} ==> (f in after.modes <==> f in before.modes))
      && (k in before.nicks ==> k in after.nicks && after.nicks[k] == LastOp(cmds, k, before.nicks[k]))
  {
    var p, c, cmds := ServerPolicy(msg), st.channels[Fold(msg.params[0])], Normalize(msg.params);
    ServerModeChannel(st, msg, replyId);
    if f in {'t', 's', 'r', 'i'} {
      RunFlag(p, c, cmds, f);
    } else {
      RunKeeps(p, c, true, cmds, f);
    }
    if k in c.nicks {
      RunOps(p, c, cmds, k);
    }
  }

  /** The channel after a services MODE is the channel after the run. */
  lemma ServerModeChannel(st: State, msg: Message, replyId: nat)
    requires |msg.params| >= 1 && Fold(msg.params[0]) in st.channels
    ensures ServerMode(st, msg, replyId).st.channels[Fold(msg.params[0])]
         == RunModes(ServerPolicy(msg), st.channels[Fold(msg.params[0])], true, Normalize(msg.params)).c
  {
  }

  /** Every unknown letter (including `x`, `n` and `b`) and every `o` naming a
      non-member is reported once; none of them stops the rest. */
  lemma ServerModeErrors(st: State, msg: Message, replyId: nat)
    requires |msg.params| >= 1 && Fold(msg.params[0]) in st.channels
    ensures var out, p, keys := ServerMode(st, msg, replyId).out, ServerPolicy(msg), st.channels[Fold(msg.params[0])].nicks.Keys;
      && Count(out, ERR_UNKNOWNMODE) == CountCmds(Normalize(msg.params), m => Unknown(p, m))
      && Count(out, ERR_USERNOTINCHANNEL) == CountCmds(Normalize(msg.params), m => OpOfStranger(p, keys, m))
  {
    var p, c, cmds := ServerPolicy(msg), st.channels[Fold(msg.params[0])], Normalize(msg.params);
    var run := RunModes(p, c, true, cmds);
    RunUnknowns(p, c, cmds);
    RunStrangers(p, c, cmds, c.nicks.Keys);
    if replyId == 0 {
      var st1 := st.(channels := st.channels[Fold(msg.params[0]) := run.c]);
      var mode := ToMembers(st1, Fold(msg.params[0]), FromNick(Sender(msg)), "MODE", [msg.params[0]] + IrcParams(cmds));
      CountAppend(run.out, [mode], ERR_UNKNOWNMODE);
      CountAppend(run.out, [mode], ERR_USERNOTINCHANNEL);
      CountOne(mode, ERR_UNKNOWNMODE);
      CountOne(mode, ERR_USERNOTINCHANNEL);
    }
  }

  /** Every message services MODE sends names the sender, so the handler
      reads `msg.Prefix.Name` exactly when it sends anything: always for a
      missing channel or outside a replay, and otherwise once per error. */
  lemma ServerModeNamesSender(st: State, msg: Message, replyId: nat)
    requires |msg.params| >= 1
    ensures var out := ServerMode(st, msg, replyId).out;
      && (forall i :: 0 <= i < |out| ==> NamesSender(out[i], msg))
      && (Fold(msg.params[0]) !in st.channels || replyId == 0 ==> |out| > 0)
  {
    var ckey := Fold(msg.params[0]);
    if ckey in st.channels {
      var run := RunModes(ServerPolicy(msg), st.channels[ckey], true, Normalize(msg.params));
      var out := ServerMode(st, msg, replyId).out;
      forall i | 0 <= i < |out| ensures NamesSender(out[i], msg) {
        if i < |run.out| {
          assert out[i] == run.out[i];
        }
      }
    }
  }

  lemma ServerModeValid(st: State, msg: Message, replyId: nat)
    requires Valid(st) && |msg.params| >= 1
    ensures Valid(ServerMode(st, msg, replyId).st)
  {
    SameLinksValid(st, ServerMode(st, msg, replyId).st);
  }

  // ---------------------------------------------------------------------
  // SERVER

  /** The link's password names one of the configured services. */
  predicate Authenticated(env: Env, s: Session) {
    exists i :: 0 <= i < |env.servicesPasswords| && s.pass == "services=" + env.servicesPasswords[i]
  }

  /** `cmdServer`, up to the burst of users and channels that follows the
      SERVER line. */
  function Server(env: Env, st: State, sid: SessionId, msg: Message): (r: Reply)
    requires sid in st.sessions && |msg.params| >= 2
    ensures SameLinks(st, r.st) && r.st.channels == st.channels && r.st.holds == st.holds
    ensures forall x :: x in st.sessions && x != sid ==> r.st.sessions[x] == st.sessions[x]
    ensures !Authenticated(env, st.sessions[sid]) ==>
              r == Reply(st, [Output(ToUser(sid), NoPrefix, "ERROR", ["Invalid password"])])
    ensures Authenticated(env, st.sessions[sid]) ==>
              && r.st.sessions[sid] == st.sessions[sid].(server := true)
              && r.st.serverSessions == st.serverSessions + [sid.id]
              && r.out == [Output(ToServices, NoPrefix, "SERVER", [env.serverName, "1", "23"])]
  {
    var s := st.sessions[sid];
    if !Authenticated(env, s) then
      Reply(st, [Output(ToUser(sid), NoPrefix, "ERROR", ["Invalid password"])])
    else
      var st1 := UpdateSession(st, sid, s.(server := true));
      UpdateKeepsLinks(st, sid, s.(server := true));
      Reply(st1.(serverSessions := st.serverSessions + [sid.id]), [Output(ToServices, NoPrefix, "SERVER", [env.serverName, "1", "23"])])
  }

  // ---------------------------------------------------------------------
  // SVSHOLD

  /** `cmdServerSvshold`: with a duration, reserves the nickname from the
      link's last activity on; without one, lifts the reservation. */
  function SvsHold(st: State, sid: SessionId, msg: Message): (r: Reply)
    requires sid in st.sessions && |msg.params| >= 1
    ensures r.st == st.(holds := r.st.holds)
    ensures forall k :: k != Fold(msg.params[0]) ==> (k in r.st.holds <==> k in st.holds) && (k in r.st.holds ==> r.st.holds[k] == st.holds[k])
    ensures |msg.params| == 1 ==> Fold(msg.params[0]) !in r.st.holds && r.out == []
    ensures |msg.params| > 1 && ParseSeconds(msg.params[1]).None? ==>
              r.st == st && |r.out| == 1 && r.out[0].to == ToServices && r.out[0].command == "NOTICE"
    ensures |msg.params| > 1 && ParseSeconds(msg.params[1]).Some? ==>
              && Fold(msg.params[0]) in r.st.holds && r.out == []
              && r.st.holds[Fold(msg.params[0])]
                   == Hold(st.sessions[sid].lastActivity, ParseSeconds(msg.params[1]).value, Trailing(msg))
  {
    var key := Fold(msg.params[0]);
    if |msg.params| > 1 then
      match ParseSeconds(msg.params[1])
      case None => Reply(st, [ToLink("NOTICE", [])])
      case Some(d) => Reply(st.(holds := st.holds[key := Hold(st.sessions[sid].lastActivity, d, Trailing(msg))]), [])
    else
      Reply(st.(holds := st.holds - {key}), [])
  }

  /** A hold placed by SVSHOLD makes NICK refuse the nickname, in any
      capitalisation, to every session whose last activity is not past the
      hold's end; lifting it removes that reason. */
  lemma SvsHoldBlocksNick(st: State, sid: SessionId, msg: Message, s: Session, nick: string)
    requires sid in st.sessions && |msg.params| >= 1 && Fold(nick) == Fold(msg.params[0])
    ensures var r := SvsHold(st, sid, msg).st;
      && (|msg.params| > 1 && ParseSeconds(msg.params[1]).Some? ==>
            (HeldFor(r, s, nick) <==> s.lastActivity <= st.sessions[sid].lastActivity + ParseSeconds(msg.params[1]).value))
      && (|msg.params| == 1 ==> !HeldFor(r, s, nick))
  {
  }

  /** SVSHOLD with a whole number of seconds written in decimal holds the
      nickname for exactly that long. */
  lemma SvsHoldSeconds(st: State, sid: SessionId, nick: string, n: int, reason: string)
    requires sid in st.sessions && -MaxInt64 - 1 <= n * NanosPerSecond <= MaxInt64
    ensures var r := SvsHold(st, sid, Message(None, "SVSHOLD", [nick, IntToString(n), reason])).st;
      Fold(nick) in r.holds && r.holds[Fold(nick)] == Hold(st.sessions[sid].lastActivity, n * NanosPerSecond, reason)
  {
    ParseSecondsFormat(n);
  }

  // ---------------------------------------------------------------------
  // SVSJOIN

  /** The channel SVSJOIN joins: the existing one, or a new one with no
      modes at all (unlike JOIN, which sets `n` and `t`). */
  function SvsJoinTarget(st: State, name: string): (c: Channel)
    ensures Fold(name) in st.channels ==> c == st.channels[Fold(name)]
    ensures Fold(name) !in st.channels ==> c.nicks == map[] && c.modes == {} && c.topicTime.None?
  {
    if Fold(name) in st.channels then st.channels[Fold(name)] else Channel(name, map[], {}, "", "", None)
  }

  /** `cmdServerSvsjoin`: joins the named user to a channel, creating it (with
      the user as operator) when needed; the user then sees the topic and the
      names as if it had asked for them. */
  function SvsJoin(st: State, msg: Message): (r: Reply)
    requires |msg.params| >= 2
    ensures r.st.nicks == st.nicks && r.st.holds == st.holds && r.st.sessions.Keys == st.sessions.Keys
    ensures var tkey := Fold(msg.params[0]);
      !Indexed(st, tkey) ==> r == Reply(st, [ToLink(ERR_NOSUCHNICK, [Sender(msg), msg.params[0]])])
    ensures var tkey := Fold(msg.params[0]);
      Indexed(st, tkey) && !IsValidChannel(msg.params[1]) ==>
        r == Reply(st, [ToLink(ERR_NOSUCHCHANNEL, [Sender(msg), msg.params[1]])])
    ensures var tkey, ckey := Fold(msg.params[0]), Fold(msg.params[1]);
      Indexed(st, tkey) && IsValidChannel(msg.params[1]) && ckey in st.channels && tkey in st.channels[ckey].nicks ==>
        r == Reply(st, [])
    ensures var tkey, ckey := Fold(msg.params[0]), Fold(msg.params[1]);
      Indexed(st, tkey) && IsValidChannel(msg.params[1]) && !(ckey in st.channels && tkey in st.channels[ckey].nicks) ==>
        var tsid, created := st.nicks[tkey], ckey !in st.channels;
        && ckey in r.st.channels && tkey in r.st.channels[ckey].nicks
        && r.st.channels[ckey].nicks[tkey] == created
        && r.st.channels[ckey].modes == (if created then {} else st.channels[ckey].modes)
        && r.st.sessions[tsid].channels == st.sessions[tsid].channels + {ckey}
        && (forall x :: x in st.sessions && x != tsid ==> r.st.sessions[x] == st.sessions[x])
        && (forall k :: k != ckey ==> (k in r.st.channels <==> k in st.channels) && (k in r.st.channels ==> r.st.channels[k] == st.channels[k]))
        && |r.out| >= 2
        && r.out[0] == ToMembers(r.st, ckey, FromNick(st.sessions[tsid].nick), "JOIN", [msg.params[1]])
        && r.out[1] == ToLink("SJOIN", ["1", msg.params[1], (if created then "@" else "") + st.sessions[tsid].nick])
  {
    var name := msg.params[1];
    var tkey, ckey := Fold(msg.params[0]), Fold(name);
    if !Indexed(st, tkey) then Reply(st, [ToLink(ERR_NOSUCHNICK, [Sender(msg), msg.params[0]])])
    else if !IsValidChannel(name) then Reply(st, [ToLink(ERR_NOSUCHCHANNEL, [Sender(msg), name])])
    else
      var c := SvsJoinTarget(st, name);
      if tkey in c.nicks then Reply(st, [])
      else
        var tsid, created := st.nicks[tkey], ckey !in st.channels;
        var t := st.sessions[tsid];
        var st1 := Link(st, ckey, c, tkey, created, tsid);
        var join := ToMembers(st1, ckey, FromNick(t.nick), "JOIN", [name]);
        var sjoin := ToLink("SJOIN", ["1", name, (if created then "@" else "") + t.nick]);
        Reply(st1, [join, sjoin] + Topic(st1, tsid, Message(None, "TOPIC", [name])).out + NamesReply(st1, tsid, name))
  }

  /** The refusals of SVSJOIN, the only replies that name the sender. */
  predicate SvsJoinRefused(st: State, msg: Message)
    requires |msg.params| >= 2
  {
    !Indexed(st, Fold(msg.params[0])) || !IsValidChannel(msg.params[1])
  }

  /** SVSJOIN's replies name the sender exactly when it refuses; a join
      speaks with the joining user's prefix and the server's. */
  lemma SvsJoinNamesSender(st: State, msg: Message)
    requires |msg.params| >= 2
    ensures var out := SvsJoin(st, msg).out;
      SvsJoinRefused(st, msg) <==> |out| == 1 && out[0].to == ToServices && NamesSender(out[0], msg) && IsError(out[0].command)
  {
  }

  /** The simulated TOPIC that ends SVSJOIN is a plain topic query. */
  lemma SvsJoinShowsTopic(st: State, msg: Message)
    requires |msg.params| >= 2 && Indexed(st, Fold(msg.params[0])) && IsValidChannel(msg.params[1])
    requires var tkey, ckey := Fold(msg.params[0]), Fold(msg.params[1]);
      !(ckey in st.channels && tkey in st.channels[ckey].nicks)
    ensures var r, tsid := SvsJoin(st, msg), st.nicks[Fold(msg.params[0])];
      r.out == r.out[..2] + TopicQuery(r.st, tsid, msg.params[1]) + NamesReply(r.st, tsid, msg.params[1])
  {
    var tkey, ckey := Fold(msg.params[0]), Fold(msg.params[1]);
    var tsid, created := st.nicks[tkey], ckey !in st.channels;
    var r := SvsJoin(st, msg);
    assert ckey in r.st.sessions[tsid].channels;
    var topic := Topic(r.st, tsid, Message(None, "TOPIC", [msg.params[1]]));
    assert topic.out == TopicQuery(r.st, tsid, msg.params[1]);
  }

  lemma SvsJoinValid(st: State, msg: Message)
    requires Valid(st) && |msg.params| >= 2
    ensures Valid(SvsJoin(st, msg).st)
  {
    var name := msg.params[1];
    var tkey, ckey := Fold(msg.params[0]), Fold(name);
    if Indexed(st, tkey) && IsValidChannel(name) {
      var c := SvsJoinTarget(st, name);
      if tkey !in c.nicks {
        var tsid := st.nicks[tkey];
        FoldEmpty(st.sessions[tsid].nick);
        assert Named(st, tsid);
        LinkValid(st, ckey, c, ckey !in st.channels, tsid);
      }
    }
  }

  // ---------------------------------------------------------------------
  // SVSPART

  /** `cmdServerSvspart`: the user must exist, the channel must exist and the
      user must be in it. */
  function SvsPart(st: State, msg: Message): (r: Reply)
    requires |msg.params| >= 2
    ensures r.st.nicks == st.nicks && r.st.holds == st.holds && r.st.sessions.Keys == st.sessions.Keys
    ensures var tkey := Fold(msg.params[0]);
      !Indexed(st, tkey) ==> r == Reply(st, [ToLink(ERR_NOSUCHNICK, [Sender(msg), msg.params[0]])])
    ensures var tkey, ckey := Fold(msg.params[0]), Fold(msg.params[1]);
      Indexed(st, tkey) && ckey !in st.channels ==> r == Reply(st, [ToLink(ERR_NOSUCHCHANNEL, [Sender(msg), msg.params[1]])])
    ensures var tkey, ckey := Fold(msg.params[0]), Fold(msg.params[1]);
      Indexed(st, tkey) && ckey in st.channels && tkey !in st.channels[ckey].nicks ==>
        r == Reply(st, [ToLink(ERR_NOTONCHANNEL, [Sender(msg), msg.params[1]])])
    ensures var tkey, ckey := Fold(msg.params[0]), Fold(msg.params[1]);
      Indexed(st, tkey) && ckey in st.channels && tkey in st.channels[ckey].nicks ==>
        var tsid := st.nicks[tkey];
        && (ckey in r.st.channels ==> r.st.channels[ckey].nicks == st.channels[ckey].nicks - {tkey})
        && r.st.sessions[tsid].channels == st.sessions[tsid].channels - {ckey}
        && |r.out| == 2 && r.out[0] == ToMembers(st, ckey, FromNick(st.sessions[tsid].nick), "PART", [msg.params[1]])
        && r.out[1] == r.out[0].(to := ToServices)
  {
    var name := msg.params[1];
    var tkey, ckey := Fold(msg.params[0]), Fold(name);
    if !Indexed(st, tkey) then Reply(st, [ToLink(ERR_NOSUCHNICK, [Sender(msg), msg.params[0]])])
    else if ckey !in st.channels then Reply(st, [ToLink(ERR_NOSUCHCHANNEL, [Sender(msg), name])])
    else if tkey !in st.channels[ckey].nicks then Reply(st, [ToLink(ERR_NOTONCHANNEL, [Sender(msg), name])])
    else
      var tsid := st.nicks[tkey];
      var part := ToMembers(st, ckey, FromNick(st.sessions[tsid].nick), "PART", [name]);
      Reply(Unlink(st, ckey, tkey, Some(tsid)), [part, part.(to := ToServices)])
  }

  /** The refusals of SVSPART, the only replies that name the sender. */
  predicate SvsPartRefused(st: State, msg: Message)
    requires |msg.params| >= 2
  {
    var tkey, ckey := Fold(msg.params[0]), Fold(msg.params[1]);
    !Indexed(st, tkey) || ckey !in st.channels || tkey !in st.channels[ckey].nicks
  }

  lemma SvsPartValid(st: State, msg: Message)
    requires Valid(st) && |msg.params| >= 2
    ensures Valid(SvsPart(st, msg).st)
  {
    var tkey, ckey := Fold(msg.params[0]), Fold(msg.params[1]);
    if Indexed(st, tkey) && ckey in st.channels && tkey in st.channels[ckey].nicks {
      UnlinkValid(st, ckey, tkey);
    }
  }

  // ---------------------------------------------------------------------
  // SVSMODE

  /** A user-mode string must start with a sign. */
  predicate Signed(modes: string) {
    |modes| > 0 && IsSign(modes[0])
  }

  /** The user after some SVSMODE changes, and the errors they caused. */
  datatype UserRun = UserRun(u: Session, out: seq<Output>)

  /** The SVSMODE loop: `d` sets the services id (whatever its sign), `r` the
      registered flag; any other letter is reported and skipped. */
  function SvsModeRun(u: Session, cmds: seq<ModeCmd>): (r: UserRun)
    ensures r.u == u.(modes := r.u.modes, svid := r.u.svid)
    ensures forall i :: 0 <= i < |r.out| ==> r.out[i] == ToLink(ERR_UMODEUNKNOWNFLAG, ["*"])
    decreases |cmds|
  {
    if |cmds| == 0 then UserRun(u, [])
    else if cmds[0].letter == 'd' then SvsModeRun(u.(svid := cmds[0].param), cmds[1..])
    else if cmds[0].letter == 'r' then SvsModeRun(u.(modes := SetFlag(u.modes, 'r', cmds[0].adding)), cmds[1..])
    else
      var rest := SvsModeRun(u, cmds[1..]);
      UserRun(rest.u, [ToLink(ERR_UMODEUNKNOWNFLAG, ["*"])] + rest.out)
  }

  /** The argument of the last change of `letter`, or `init` without one. */
  function LastParam(cmds: seq<ModeCmd>, letter: char, init: string): string
    decreases |cmds|
  {
    if |cmds| == 0 then init
    else if cmds[|cmds| - 1].letter == letter then cmds[|cmds| - 1].param
    else LastParam(cmds[..|cmds| - 1], letter, init)
  }

  lemma {:induction false} LastParamCons(m: ModeCmd, rest: seq<ModeCmd>, letter: char, init: string)
    ensures LastParam([m] + rest, letter, init) == LastParam(rest, letter, if m.letter == letter then m.param else init)
    decreases |rest|
  {
    if |rest| > 0 {
      assert ([m] + rest)[..|rest|] == [m] + rest[..|rest| - 1];
      if rest[|rest| - 1].letter != letter {
        LastParamCons(m, rest[..|rest| - 1], letter, init);
      }
    }
  }

  /** What SVSMODE leaves: `r` with the sign of its last change, every other
      mode as it was, and the services id from the last `d` change. */
  lemma {:induction false} SvsModeRunEffect(u: Session, cmds: seq<ModeCmd>, f: char)
    ensures var r := SvsModeRun(u, cmds);
      && (f in r.u.modes <==> if f == 'r' then LastSign(cmds, 'r', 'r' in u.modes) else f in u.modes)
      && r.u.svid == LastParam(cmds, 'd', u.svid)
    decreases |cmds|
  {
    if |cmds| > 0 {
      var m := cmds[0];
      assert cmds == [m] + cmds[1..];
      LastSignCons(m, cmds[1..], 'r', 'r' in u.modes);
      LastParamCons(m, cmds[1..], 'd', u.svid);
      if m.letter == 'd' {
        SvsModeRunEffect(u.(svid := m.param), cmds[1..], f);
      } else if m.letter == 'r' {
        SvsModeRunEffect(u.(modes := SetFlag(u.modes, 'r', m.adding)), cmds[1..], f);
      } else {
        SvsModeRunEffect(u, cmds[1..], f);
      }
    }
  }

  /** SVSMODE reports one error per change of a letter other than `d` and `r`. */
  lemma {:induction false} SvsModeRunErrors(u: Session, cmds: seq<ModeCmd>)
    ensures |SvsModeRun(u, cmds).out| == CountCmds(cmds, (m: ModeCmd) => m.letter != 'd' && m.letter != 'r')
    decreases |cmds|
  {
    if |cmds| > 0 {
      var m := cmds[0];
      if m.letter == 'd' {
        SvsModeRunErrors(u.(svid := m.param), cmds[1..]);
      } else if m.letter == 'r' {
        SvsModeRunErrors(u.(modes := SetFlag(u.modes, 'r', m.adding)), cmds[1..]);
      } else {
        SvsModeRunErrors(u, cmds[1..]);
      }
    }
  }

  /** `cmdServerSvsmode`: the user's new mode string goes to the user. */
  function SvsMode(st: State, sid: SessionId, msg: Message): (r: Reply)
    requires |msg.params| >= 2
    ensures SameLinks(st, r.st) && r.st.channels == st.channels && r.st.holds == st.holds
    ensures !Indexed(st, Fold(msg.params[0])) ==> r == Reply(st, [ToLink(ERR_NOSUCHNICK, ["*", msg.params[0]])])
    ensures Indexed(st, Fold(msg.params[0])) && !Signed(msg.params[1]) ==>
              r == Reply(st, [ToLink(ERR_UMODEUNKNOWNFLAG, ["*"])])
    ensures var tkey := Fold(msg.params[0]);
      Indexed(st, tkey) && Signed(msg.params[1]) ==>
        var tsid := st.nicks[tkey];
        && r.st.sessions == st.sessions[tsid := r.st.sessions[tsid]]
        && r.st.sessions[tsid] == st.sessions[tsid].(modes := r.st.sessions[tsid].modes, svid := r.st.sessions[tsid].svid)
        && |r.out| >= 1
        && r.out[|r.out| - 1] == Output(ToUser(tsid), FromLink(sid), "MODE", [st.sessions[tsid].nick, ModeString(r.st.sessions[tsid].modes)])
  {
    var tkey := Fold(msg.params[0]);
    if !Indexed(st, tkey) then Reply(st, [ToLink(ERR_NOSUCHNICK, ["*", msg.params[0]])])
    else if !Signed(msg.params[1]) then Reply(st, [ToLink(ERR_UMODEUNKNOWNFLAG, ["*"])])
    else
      var tsid := st.nicks[tkey];
      var t := st.sessions[tsid];
      var run := SvsModeRun(t, Normalize(msg.params));
      var mode := Output(ToUser(tsid), FromLink(sid), "MODE", [t.nick, ModeString(run.u.modes)]);
      Reply(UpdateSession(st, tsid, run.u), run.out + [mode])
  }

  lemma SvsModeValid(st: State, sid: SessionId, msg: Message)
    requires Valid(st) && |msg.params| >= 2
    ensures Valid(SvsMode(st, sid, msg).st)
  {
    SameLinksValid(st, SvsMode(st, sid, msg).st);
  }

  // ---------------------------------------------------------------------
  // SVSNICK

  /** The reasons SVSNICK does nothing: an invalid new nickname or an
      unknown old one. */
  predicate SvsNickRefused(st: State, msg: Message)
    requires |msg.params| >= 2
  {
    !IsValidNickname(msg.params[1]) || !Indexed(st, Fold(msg.params[0]))
  }

  function SvsNickError(st: State, msg: Message): (o: Output)
    requires |msg.params| >= 2
    ensures o.to == ToServices && IsError(o.command)
  {
    if !IsValidNickname(msg.params[1]) then ToLink(ERR_ERRONEUSNICKNAME, ["*", msg.params[1]])
    else ToLink(ERR_NOSUCHNICK, ["*", msg.params[0]])
  }

  /** The NICK line SVSNICK sends to the user, the user's channels and
      services, from the user's old prefix. */
  function NickChange(sid: SessionId, former: string, nick: string): (o: seq<Output>)
    ensures |o| == 3 && o[0].to == ToUser(sid) && o[1].to == ToCommonChannels(sid) && o[2].to == ToServices
  {
    var change := Output(ToUser(sid), FromNick(former), "NICK", [nick]);
    [change, change.(to := ToCommonChannels(sid)), change.(to := ToServices)]
  }

  /** `cmdServerSvsnick` as written: it indexes the new key, then deletes the
      old key, in the index and in every channel. When the two keys are the
      same (a change of capitalisation only) the second step undoes the
      first. */
  function SvsNickAsWritten(st: State, msg: Message): (r: Reply)
    requires |msg.params| >= 2
    ensures SvsNickRefused(st, msg) ==> r == Reply(st, [SvsNickError(st, msg)])
    ensures !SvsNickRefused(st, msg) ==>
      r.st == Rename(st, st.nicks[Fold(msg.params[0])], Fold(msg.params[0]), msg.params[1])
  {
    if SvsNickRefused(st, msg) then Reply(st, [SvsNickError(st, msg)])
    else
      var tsid := st.nicks[Fold(msg.params[0])];
      Reply(Rename(st, tsid, Fold(msg.params[0]), msg.params[1]), NickChange(tsid, st.sessions[tsid].nick, msg.params[1]))
  }

  /** As written, a change of capitalisation drops the user from the
      nickname index, so the directory is no longer consistent. */
  lemma SvsNickAsWrittenLosesCaseChange(st: State, msg: Message)
    requires Valid(st) && |msg.params| >= 2 && !SvsNickRefused(st, msg)
    requires Fold(msg.params[1]) == Fold(msg.params[0])
    ensures Fold(msg.params[0]) !in SvsNickAsWritten(st, msg).st.nicks
    ensures !Valid(SvsNickAsWritten(st, msg).st)
  {
    var r := SvsNickAsWritten(st, msg).st;
    var tsid := st.nicks[Fold(msg.params[0])];
    assert r.sessions[tsid].nick == msg.params[1];
    assert !IndexComplete(r);
  }

  /** A concrete case: "SVSNICK alice Alice" for the only user. */
  lemma SvsNickAliceCounterexample()
    ensures var st := State(map[SessionId(1, 0) := NewSession(0).(nick := "alice")],
                            map["alice" := SessionId(1, 0)], map[], map[], []);
      && Valid(st)
      && SvsNickAsWritten(st, Message(Some("NickServ"), "SVSNICK", ["alice", "Alice"])).st.nicks == map[]
  {
    var st := State(map[SessionId(1, 0) := NewSession(0).(nick := "alice")],
                    map["alice" := SessionId(1, 0)], map[], map[], []);
    assert Fold("alice") == "alice" && Fold("Alice") == "alice";
    assert Valid(st);
    assert IsValidNickname("Alice");
  }

  /** SVSNICK with a change of capitalisation handled as NICK handles it:
      the index key and the member entries stay where they are. */
  function SvsNick(st: State, msg: Message): (r: Reply)
    requires |msg.params| >= 2
    ensures r.st.holds == st.holds && r.st.sessions.Keys == st.sessions.Keys
    ensures SvsNickRefused(st, msg) ==> r == Reply(st, [SvsNickError(st, msg)])
    ensures var okey, tkey := Fold(msg.params[0]), Fold(msg.params[1]);
      !SvsNickRefused(st, msg) ==>
        var tsid := st.nicks[okey];
        && r.st.sessions == st.sessions[tsid := st.sessions[tsid].(nick := msg.params[1])]
        && tkey in r.st.nicks && r.st.nicks[tkey] == tsid
        && (tkey != okey ==> okey !in r.st.nicks && r.st.channels == RenameMembers(st.channels, okey, tkey))
        && (tkey == okey ==> r.st.nicks == st.nicks && r.st.channels == st.channels)
        && r.out == NickChange(tsid, st.sessions[tsid].nick, msg.params[1])
  {
    if SvsNickRefused(st, msg) then Reply(st, [SvsNickError(st, msg)])
    else
      var okey := Fold(msg.params[0]);
      var tsid := st.nicks[okey];
      var st1 := if Fold(msg.params[1]) == okey then SetNick(st, tsid, msg.params[1])
                 else Rename(st, tsid, okey, msg.params[1]);
      Reply(st1, NickChange(tsid, st.sessions[tsid].nick, msg.params[1]))
  }

  /** The corrected SVSNICK keeps the directory consistent whenever the new
      nickname is free or differs from the old one only in capitalisation,
      and agrees with the handler as written in every other case. */
  lemma SvsNickValid(st: State, msg: Message)
    requires Valid(st) && |msg.params| >= 2
    requires Fold(msg.params[1]) !in st.nicks || Fold(msg.params[1]) == Fold(msg.params[0])
    ensures Valid(SvsNick(st, msg).st)
    ensures Fold(msg.params[1]) != Fold(msg.params[0]) ==> SvsNick(st, msg) == SvsNickAsWritten(st, msg)
  {
    if !SvsNickRefused(st, msg) {
      var okey := Fold(msg.params[0]);
      var tsid := st.nicks[okey];
      assert Fold(st.sessions[tsid].nick) == okey;
      FoldEmpty(st.sessions[tsid].nick);
      if Fold(msg.params[1]) == okey {
        SameLinksValid(st, SetNick(st, tsid, msg.params[1]));
      } else {
        RenameValid(st, tsid, msg.params[1]);
      }
    }
  }
}

=== FILE: text.dfy ===
/** String helpers that the IRC server takes from Go's `strings` package and from
    its own case-folding and validity predicates. Strings are sequences of
    Unicode scalar values, as Go's `range` over a string yields runes. */
module Text {

  import opened Wrappers

  /** `unicode.IsSpace`, the whitespace `strings.TrimSpace` removes: the
      ASCII spaces, NEL and NO-BREAK SPACE in Latin-1, and beyond it the
      characters with Unicode's White_Space property. */
  predicate IsSpace(c: char) {
    || c == ' ' || c == '\t' || c == '\n' || c == '\r' || c == '\U{B}' || c == '\U{C}'
    || c == '\U{85}' || c == '\U{A0}'
    || c == '\U{1680}' || ('\U{2000}' <= c <= '\U{200A}')
    || c == '\U{2028}' || c == '\U{2029}' || c == '\U{202F}' || c == '\U{205F}' || c == '\U{3000}'
  }

  /** A string made of whitespace only (the empty string included). */
  predicate Blank(s: string) {
    forall i :: 0 <= i < |s| ==> IsSpace(s[i])
  }

  function TrimLeft(s: string): (r: string)
    ensures |r| <= |s| && r == s[|s| - |r|..]
    ensures |r| > 0 ==> !IsSpace(r[0])
    ensures Blank(s[..|s| - |r|])
    decreases |s|
  {
    if |s| > 0 && IsSpace(s[0]) then
      var r := TrimLeft(s[1..]);
      assert s[1..][..|s[1..]| - |r|] == s[1..|s| - |r|];
      r
    else s
  }

  function TrimRight(s: string): (r: string)
    ensures |r| <= |s| && r == s[..|r|]
    ensures |r| > 0 ==> !IsSpace(r[|r| - 1])
    ensures Blank(s[|r|..])
    decreases |s|
  {
    if |s| > 0 && IsSpace(s[|s| - 1]) then
      var r := TrimRight(s[..|s| - 1]);
      assert s[..|s| - 1][|r|..] == s[|r|..|s| - 1];
      r
    else s
  }

  /** `strings.TrimSpace`. */
  function TrimSpace(s: string): (r: string)
    ensures |r| <= |s|
    ensures |r| > 0 ==> !IsSpace(r[0]) && !IsSpace(r[|r| - 1])
  {
    TrimRight(TrimLeft(s))
  }

  /** Trimming leaves nothing exactly when the string is all whitespace. */
  lemma TrimSpaceEmptyIffBlank(s: string)
    ensures TrimSpace(s) == "" <==> Blank(s)
  {
    var l := TrimLeft(s);
    if TrimSpace(s) == "" {
      assert Blank(l[0..]);
      assert s == s[..|s| - |l|] + l;
    }
  }

  predicate HasPrefix(s: string, p: string) {
    |p| <= |s| && s[..|p|] == p
  }

  /** `strings.Split(s, sep)` for a one-character separator: always at least
      one part, the empty string giving `[""]`. */
  function Split(s: string, sep: char): (parts: seq<string>)
    ensures |parts| >= 1
    decreases |s|
  {
    if |s| == 0 then [""]
    else
      var rest := Split(s[1..], sep);
      if s[0] == sep then [""] + rest
      else [[s[0]] + rest[0]] + rest[1..]
  }

  /** The number of occurrences of `c` in `s`. */
  function Occurrences(s: string, c: char): nat
    decreases |s|
  {
    if |s| == 0 then 0 else (if s[0] == c then 1 else 0) + Occurrences(s[1..], c)
  }

  /** A split has one part more than there are separators. */
  lemma {:induction false} SplitLength(s: string, sep: char)
    ensures |Split(s, sep)| == Occurrences(s, sep) + 1
    ensures |Split(s, sep)| > 1 <==> sep in s
    decreases |s|
  {
    if |s| > 0 {
      SplitLength(s[1..], sep);
      assert sep in s <==> s[0] == sep || sep in s[1..] by {
        assert s == [s[0]] + s[1..];
      }
    }
  }

  /** `strings.Join(parts, sep)` for a one-character separator. */
  function Join(parts: seq<string>, sep: char): string
    decreases |parts|
  {
    if |parts| == 0 then ""
    else if |parts| == 1 then parts[0]
    else parts[0] + [sep] + Join(parts[1..], sep)
  }

  /** Joining the parts of a split gives back the original string. */
  lemma {:induction false} JoinSplit(s: string, sep: char)
    ensures Join(Split(s, sep), sep) == s
    decreases |s|
  {
    if |s| > 0 {
      var rest := Split(s[1..], sep);
      JoinSplit(s[1..], sep);
      if s[0] == sep {
        assert s == [sep] + s[1..];
      } else if |rest| == 1 {
        assert s == [s[0]] + s[1..];
      } else {
        var p := [[s[0]] + rest[0]] + rest[1..];
        assert p[1..] == rest[1..];
        assert s == [s[0]] + s[1..];
      }
    }
  }

  /** No part of a split contains the separator. */
  lemma {:induction false} SplitPartsFree(s: string, sep: char)
    ensures forall i :: 0 <= i < |Split(s, sep)| ==> sep !in Split(s, sep)[i]
    decreases |s|
  {
    if |s| > 0 {
      SplitPartsFree(s[1..], sep);
    }
  }

  /** Splitting a join of separator-free parts gives back the parts. */
  lemma {:induction false} SplitJoin(parts: seq<string>, sep: char)
    requires |parts| >= 1
    requires forall i :: 0 <= i < |parts| ==> sep !in parts[i]
    ensures Split(Join(parts, sep), sep) == parts
    decreases |parts|, |parts[0]|
  {
    if |parts[0]| > 0 {
      var tail := [parts[0][1..]] + parts[1..];
      assert forall i :: 0 <= i < |tail| ==> sep !in tail[i] by {
        forall i | 0 <= i < |tail| ensures sep !in tail[i] {
          if i == 0 { assert forall k :: 0 <= k < |parts[0][1..]| ==> parts[0][1..][k] == parts[0][k + 1]; }
          else { assert tail[i] == parts[i]; }
        }
      }
      SplitJoin(tail, sep);
      var j := Join(parts, sep);
      assert Join(tail, sep) == j[1..] by {
        if |parts| == 1 {
        } else {
          assert tail[1..] == parts[1..];
        }
      }
      assert j[0] == parts[0][0];
      assert parts[0] == [parts[0][0]] + parts[0][1..];
    } else if |parts| > 1 {
      SplitJoin(parts[1..], sep);
      var j := Join(parts, sep);
      assert j == [sep] + Join(parts[1..], sep);
      assert j[1..] == Join(parts[1..], sep);
      assert parts == [""] + parts[1..];
    }
  }

  function LowerChar(c: char): char {
    if 'A' <= c <= 'Z' then (c as int + 32) as char else c
  }

  /** Case folding of nicknames and channel names (`NickToLower`, `ChanToLower`):
      ASCII letters are mapped to lower case, everything else is kept. */
  function Fold(s: string): (r: string)
    ensures |r| == |s|
    ensures forall i :: 0 <= i < |s| ==> r[i] == LowerChar(s[i])
  {
    seq(|s|, i requires 0 <= i < |s| => LowerChar(s[i]))
  }

  /** Folding twice is folding once, so folded keys are stable. */
  lemma FoldIdempotent(s: string)
    ensures Fold(Fold(s)) == Fold(s)
  {
  }

  /** Only the empty string folds to the empty key. */
  lemma FoldEmpty(s: string)
    ensures Fold(s) == "" <==> s == ""
  {
  }

  predicate IsLetter(c: char) { 'a' <= c <= 'z' || 'A' <= c <= 'Z' }
  predicate IsDigit(c: char) { '0' <= c <= '9' }
  predicate IsSpecial(c: char) {
    c == '[' || c == ']' || c == '\\' || c == '`' || c == '_' || c == '^' || c == '{' || c == '|' || c == '}'
  }

  /** Nickname grammar of section 2.3.1 of RFC 2812: a letter or special
      character followed by letters, digits, specials or '-'. */
  predicate IsValidNickname(nick: string) {
    && |nick| > 0
    && (IsLetter(nick[0]) || IsSpecial(nick[0]))
    && forall i :: 1 <= i < |nick| ==> IsLetter(nick[i]) || IsDigit(nick[i]) || IsSpecial(nick[i]) || nick[i] == '-'
  }

  /** Channel names: '#' followed by at least one character that is not a
      space, comma or BEL (section 1.3 of RFC 2812). */
  predicate IsValidChannel(name: string) {
    && |name| > 1
    && name[0] == '#'
    && forall i :: 1 <= i < |name| ==> name[i] != ' ' && name[i] != ',' && name[i] != '\U{7}'
  }

  /** The services pseudo-users that clients may never take as nicknames. */
  predicate IsServicesNickname(nick: string) {
    Fold(nick) in {"nickserv", "chanserv", "operserv", "memoserv", "hostserv", "botserv"}
  }

  /** Decimal value of a digit string. */
  function DigitsValue(s: string): nat
    requires forall i :: 0 <= i < |s| ==> IsDigit(s[i])
    decreases |s|
  {
    if |s| == 0 then 0
    else
      assert IsDigit(s[|s| - 1]);
      DigitsValue(s[..|s| - 1]) * 10 + (s[|s| - 1] as int - '0' as int)
  }

  const NanosPerSecond: int := 1_000_000_000
  const MaxInt64: int := 0x7FFF_FFFF_FFFF_FFFF

  /** `time.ParseDuration(s + "s")` for a signed whole number of seconds,
      in nanoseconds; `None` for anything else. */
  function ParseSeconds(s: string): (r: Option<int>)
    ensures r.Some? ==> -MaxInt64 - 1 <= r.value <= MaxInt64
    ensures r.Some? ==> r.value % NanosPerSecond == 0
  {
    var neg := |s| > 0 && s[0] == '-';
    var digits := if |s| > 0 && (s[0] == '-' || s[0] == '+') then s[1..] else s;
    if |digits| == 0 || !(forall i :: 0 <= i < |digits| ==> IsDigit(digits[i])) then None
    else
      var v := DigitsValue(digits) * NanosPerSecond;
      if neg && v <= MaxInt64 + 1 then Some(-v)
      else if !neg && v <= MaxInt64 then Some(v)
      else None
  }


  function DigitChar(d: nat): (c: char)
    requires d < 10
    ensures IsDigit(c) && c as int - '0' as int == d
  {
    ('0' as int + d) as char
  }

  /** Decimal digits of `n` without leading zeros (`strconv.FormatInt` for
      non-negative values). */
  function NatToString(n: nat): (r: string)
    ensures |r| >= 1
    ensures forall i :: 0 <= i < |r| ==> IsDigit(r[i])
    decreases n
  {
    if n < 10 then [DigitChar(n)] else NatToString(n / 10) + [DigitChar(n % 10)]
  }

  /** `strconv.FormatInt(n, 10)`. */
  function IntToString(n: int): (r: string)
    ensures |r| >= 1
  {
    if n < 0 then "-" + NatToString(-n) else NatToString(n)
  }

  /** Reading back the digits of `n` gives `n`. */
  lemma {:induction false} NatToStringValue(n: nat)
    ensures DigitsValue(NatToString(n)) == n
    decreases n
  {
    var r := NatToString(n);
    if n >= 10 {
      NatToStringValue(n / 10);
      assert r[..|r| - 1] == NatToString(n / 10);
    }
  }

  /** A whole number of seconds written in decimal parses back to the same
      duration. */
  lemma ParseSecondsFormat(n: int)
    requires -MaxInt64 - 1 <= n * NanosPerSecond <= MaxInt64
    ensures ParseSeconds(IntToString(n)) == Some(n * NanosPerSecond)
  {
    var s := IntToString(n);
    if n < 0 {
      NatToStringValue(-n);
      assert s[1..] == NatToString(-n);
    } else {
      NatToStringValue(n);
      assert IsDigit(s[0]);
    }
  }
}

=== FILE: util.dfy ===
/** Helpers used by the operator tools: hiding private text in logged IRC
    messages, deciding from the nodes' status reports whether the cluster is
    healthy, and reading a comma-separated server list. */
module Util {

  import opened Wrappers
  import opened Text

  // ---------------------------------------------------------------------
  // Privacy filters

  /** A parsed IRC message with its trailing parameter kept apart. */
  datatype IrcMsg = IrcMsg(prefix: string, command: string, params: seq<string>, trailing: string)

  const Filtered: string := "<privacy filtered>"

  /** `PrivacyFilterIrcmsg`: message bodies and passwords are replaced;
      nothing else is touched, and a missing message stays missing. */
  function PrivacyFilterIrcmsg(m: Option<IrcMsg>): (r: Option<IrcMsg>)
    ensures m.None? <==> r.None?
    ensures m.Some? && (m.value.command == "PRIVMSG" || m.value.command == "NOTICE") ==>
              r == Some(m.value.(trailing := Filtered))
    ensures m.Some? && m.value.command == "PASS" ==>
              r == Some(m.value.(params := [Filtered], trailing := ""))
    ensures m.Some? && m.value.command !in {"PRIVMSG", "NOTICE", "PASS"} ==> r == m
  {
    match m
    case None => None
    case Some(msg) =>
      var msg1 := if msg.command == "PRIVMSG" || msg.command == "NOTICE" then msg.(trailing := Filtered) else msg;
      var msg2 := if msg1.command == "PASS" then msg1.(params := [Filtered], trailing := "") else msg1;
      Some(msg2)
  }

  /** Filtering twice filters no more than once, and the result carries no
      text of the original body or password. */
  lemma PrivacyFilterSettles(m: Option<IrcMsg>)
    ensures PrivacyFilterIrcmsg(PrivacyFilterIrcmsg(m)) == PrivacyFilterIrcmsg(m)
    ensures var r := PrivacyFilterIrcmsg(m);
      r.Some? && r.value.command in {"PRIVMSG", "NOTICE", "PASS"} ==>
        r.value.trailing in {Filtered, ""} && (r.value.command == "PASS" ==> r.value.params == [Filtered])
  {
  }

  /** A logged input message; the payload is the raw IRC line. */
  datatype RobustMessage = RobustMessage(id: int, session: int, kind: int, data: string)

  /** The IRC line parser and printer, which live in a library. */
  datatype IrcCodec = IrcCodec(parse: string -> Option<IrcMsg>, render: IrcMsg -> string)

  /** The filter applied to a message that parsed. */
  function FilterParsed(msg: IrcMsg): (r: IrcMsg)
    ensures PrivacyFilterIrcmsg(Some(msg)) == Some(r)
  {
    PrivacyFilterIrcmsg(Some(msg)).value
  }

  /** `PrivacyFilterMsg`: a copy with the payload parsed, filtered and
      printed again. A payload that does not parse gives the nil message,
      and printing it panics: that is `None`. */
  function PrivacyFilterMsg(codec: IrcCodec, m: RobustMessage): (r: Option<RobustMessage>)
    ensures r.None? <==> codec.parse(m.data).None?
    ensures r.Some? ==> r.value == m.(data := codec.render(FilterParsed(codec.parse(m.data).value)))
  {
    match codec.parse(m.data)
    case None => None
    case Some(msg) => Some(RobustMessage(m.id, m.session, m.kind, codec.render(FilterParsed(msg))))
  }

  /** `PrivacyFilterMsgs`: every message filtered, in the same order; it
      panics (`None`) at the first payload that does not parse. */
  function PrivacyFilterMsgs(codec: IrcCodec, ms: seq<RobustMessage>): (r: Option<seq<RobustMessage>>)
    ensures r.Some? ==> |r.value| == |ms|
    decreases |ms|
  {
    if |ms| == 0 then Some([])
    else
      match PrivacyFilterMsg(codec, ms[0])
      case None => None
      case Some(head) =>
        var rest := PrivacyFilterMsgs(codec, ms[1..]);
        if rest.None? then None else Some([head] + rest.value)
  }

  /** The list filter panics exactly when some payload does not parse. */
  lemma {:induction false} PrivacyFilterMsgsPanics(codec: IrcCodec, ms: seq<RobustMessage>)
    ensures PrivacyFilterMsgs(codec, ms).None? <==> exists i :: 0 <= i < |ms| && codec.parse(ms[i].data).None?
    decreases |ms|
  {
    if |ms| > 0 {
      PrivacyFilterMsgsPanics(codec, ms[1..]);
      if exists i :: 0 <= i < |ms| && codec.parse(ms[i].data).None? {
        var i :| 0 <= i < |ms| && codec.parse(ms[i].data).None?;
        if i > 0 { assert ms[1..][i - 1] == ms[i]; }
      }
      if exists i :: 0 <= i < |ms[1..]| && codec.parse(ms[1..][i].data).None? {
        var i :| 0 <= i < |ms[1..]| && codec.parse(ms[1..][i].data).None?;
        assert ms[i + 1] == ms[1..][i];
      }
    }
  }

  /** Otherwise the i-th result is the i-th message filtered. */
  lemma {:induction false} PrivacyFilterMsgsEach(codec: IrcCodec, ms: seq<RobustMessage>, i: int)
    requires 0 <= i < |ms| && PrivacyFilterMsgs(codec, ms).Some?
    ensures Some(PrivacyFilterMsgs(codec, ms).value[i]) == PrivacyFilterMsg(codec, ms[i])
    decreases |ms|
  {
    if i > 0 {
      PrivacyFilterMsgsEach(codec, ms[1..], i - 1);
      assert ms[1..][i - 1] == ms[i];
    }
  }

  /** Filtering a list is filtering its parts: it goes through exactly when
      both parts do, and then gives their results one after the other. */
  lemma {:induction false} PrivacyFilterMsgsAppend(codec: IrcCodec, a: seq<RobustMessage>, b: seq<RobustMessage>)
    ensures var ra, rb := PrivacyFilterMsgs(codec, a), PrivacyFilterMsgs(codec, b);
      PrivacyFilterMsgs(codec, a + b) == if ra.Some? && rb.Some? then Some(ra.value + rb.value) else None
    decreases |a|
  {
    if |a| == 0 {
      assert a + b == b;
      var rb := PrivacyFilterMsgs(codec, b);
      if rb.Some? { assert [] + rb.value == rb.value; }
    } else {
      assert (a + b)[0] == a[0];
      assert (a + b)[1..] == a[1..] + b;
      PrivacyFilterMsgsAppend(codec, a[1..], b);
      var h := PrivacyFilterMsg(codec, a[0]);
      var ra, rt, rb := PrivacyFilterMsgs(codec, a), PrivacyFilterMsgs(codec, a[1..]), PrivacyFilterMsgs(codec, b);
      var rab := PrivacyFilterMsgs(codec, a + b);
      var rtb := PrivacyFilterMsgs(codec, a[1..] + b);
      assert rab == if h.None? || rtb.None? then None else Some([h.value] + rtb.value);
      assert ra == if h.None? || rt.None? then None else Some([h.value] + rt.value);
      if h.Some? && rt.Some? && rb.Some? {
        assert [h.value] + (rt.value + rb.value) == ([h.value] + rt.value) + rb.value;
      }
    }
  }

  // ---------------------------------------------------------------------
  // Network health

  /** What one node reports about itself; times are in nanoseconds. */
  datatype ServerStatus = ServerStatus(server: string, state: string, leader: string, lastContact: int)

  /** The verdict, naming the node a failed check is about. */
  datatype Verdict =
    | Healthy
    | BadState(server: string)
    | LeaderMismatch(server: string)
    | StaleContact(server: string)
    | NoLeader

  /** Followers must have heard from the leader within two seconds. */
  const MaxContactAge: int := 2 * NanosPerSecond

  predicate RaftState(s: ServerStatus) {
    s.state == "Leader" || s.state == "Follower"
  }

  predicate Stale(s: ServerStatus, now: int) {
    s.state == "Follower" && now - s.lastContact > MaxContactAge
  }

  /** The check in `EnsureNetworkHealthy` over the statuses in the order the
      map happens to yield them: the first status naming a leader fixes the
      leader, and a status naming none is compared only when one is fixed. */
  function CheckHealthAsWritten(statuses: seq<ServerStatus>, now: int, leader: string): (h: Verdict)
    ensures h.BadState? ==> exists i :: 0 <= i < |statuses| && !RaftState(statuses[i])
    decreases |statuses|
  {
    if |statuses| == 0 then (if leader == "" then NoLeader else Healthy)
    else
      var s := statuses[0];
      var h := if !RaftState(s) then BadState(s.server)
        else if leader != "" && leader != s.leader then LeaderMismatch(s.server)
        else if Stale(s, now) then StaleContact(s.server)
        else CheckHealthAsWritten(statuses[1..], now, if leader == "" then s.leader else leader);
      assert h.BadState? && RaftState(s) ==> exists i :: 1 <= i < |statuses| && !RaftState(statuses[i]) by {
        if h.BadState? && RaftState(s) {
          var j :| 0 <= j < |statuses[1..]| && !RaftState(statuses[1..][j]);
          assert statuses[j + 1] == statuses[1..][j];
        }
      }
      h
  }

  /** The same statuses, visited in two orders, get different verdicts: one
      node naming no leader passes when it comes first and fails when it
      comes after the leader's own report. */
  lemma HealthAsWrittenDependsOnOrder()
    ensures var a := ServerStatus("a", "Follower", "", 0);
      var b := ServerStatus("b", "Leader", "b", 0);
      && CheckHealthAsWritten([a, b], 0, "") == Healthy
      && CheckHealthAsWritten([b, a], 0, "") == LeaderMismatch("a")
  {
    var a := ServerStatus("a", "Follower", "", 0);
    var b := ServerStatus("b", "Leader", "b", 0);
    assert [a, b][1..] == [b] && [b][1..] == [];
    assert CheckHealthAsWritten([b], 0, "") == Healthy;
  }

  /** Healthy as the doc comment of `EnsureNetworkHealthy` describes it: every
      node is leader or follower, all name the same leader, that leader is
      named, and every follower was contacted recently. */
  predicate HealthySpec(statuses: seq<ServerStatus>, now: int) {
    && |statuses| > 0 && statuses[0].leader != ""
    && forall s :: s in statuses ==> RaftState(s) && s.leader == statuses[0].leader && !Stale(s, now)
  }

  /** The check with the leader fixed by the first status visited, whatever
      it names. */
  function CheckHealth(statuses: seq<ServerStatus>, now: int, leader: Option<string>): (h: Verdict)
    decreases |statuses|
  {
    if |statuses| == 0 then (if leader.None? || leader.value == "" then NoLeader else Healthy)
    else
      var s := statuses[0];
      if !RaftState(s) then BadState(s.server)
      else if leader.Some? && leader.value != s.leader then LeaderMismatch(s.server)
      else if Stale(s, now) then StaleContact(s.server)
      else CheckHealth(statuses[1..], now, Some(s.leader))
  }

  /** Continuing with a fixed leader passes exactly when every remaining
      status is well and names that leader, and the leader is named. */
  lemma {:induction false} HealthFrom(statuses: seq<ServerStatus>, now: int, leader: string)
    ensures CheckHealth(statuses, now, Some(leader)) == Healthy <==>
      leader != "" && forall s :: s in statuses ==> RaftState(s) && s.leader == leader && !Stale(s, now)
    decreases |statuses|
  {
    if |statuses| > 0 {
      HealthFrom(statuses[1..], now, leader);
      assert forall s :: s in statuses <==> s == statuses[0] || s in statuses[1..] by {
        assert statuses == [statuses[0]] + statuses[1..];
      }
    }
  }

  /** The corrected check passes exactly on healthy statuses. */
  lemma HealthMeansHealthy(statuses: seq<ServerStatus>, now: int)
    ensures CheckHealth(statuses, now, None) == Healthy <==> HealthySpec(statuses, now)
  {
    if |statuses| > 0 {
      var s := statuses[0];
      HealthFrom(statuses[1..], now, s.leader);
      assert forall x :: x in statuses <==> x == s || x in statuses[1..] by {
        assert statuses == [s] + statuses[1..];
      }
    }
  }

  /** The verdict of the corrected check does not depend on the order in
      which the statuses are visited. */
  lemma HealthOrderFree(xs: seq<ServerStatus>, ys: seq<ServerStatus>, now: int)
    requires multiset(xs) == multiset(ys)
    ensures CheckHealth(xs, now, None) == Healthy <==> CheckHealth(ys, now, None) == Healthy
  {
    HealthMeansHealthy(xs, now);
    HealthMeansHealthy(ys, now);
    assert forall s :: s in xs <==> s in ys by {
      forall s ensures s in xs <==> s in ys {
        assert s in xs <==> s in multiset(xs);
        assert s in ys <==> s in multiset(ys);
      }
    }
    if HealthySpec(xs, now) && |ys| > 0 {
      assert ys[0] in xs;
    }
    if HealthySpec(ys, now) && |xs| > 0 {
      assert xs[0] in ys;
    }
  }

  /** When every node names a leader, the check as written and the corrected
      one agree. */
  lemma {:induction false} HealthAsWrittenWhenNamed(statuses: seq<ServerStatus>, now: int, leader: string)
    requires forall i :: 0 <= i < |statuses| ==> statuses[i].leader != ""
    ensures CheckHealthAsWritten(statuses, now, leader) == CheckHealth(statuses, now, if leader == "" then None else Some(leader))
    decreases |statuses|
  {
    if |statuses| > 0 {
      HealthAsWrittenWhenNamed(statuses[1..], now, if leader == "" then statuses[0].leader else leader);
    }
  }

  // ---------------------------------------------------------------------
  // Server lists

  /** The parts that are not blank, in order. */
  function NonBlank(parts: seq<string>): (r: seq<string>)
    ensures |r| <= |parts|
    ensures forall x :: x in r <==> x in parts && !Blank(x)
    decreases |parts|
  {
    if |parts| == 0 then []
    else
      var rest := NonBlank(parts[1..]);
      assert forall x :: x in parts <==> x == parts[0] || x in parts[1..] by {
        assert parts == [parts[0]] + parts[1..];
      }
      if Blank(parts[0]) then rest else [parts[0]] + rest
  }

  /** Filtering keeps the order: the filtered concatenation is the
      concatenation of the filtered halves. */
  lemma {:induction false} NonBlankAppend(a: seq<string>, b: seq<string>)
    ensures NonBlank(a + b) == NonBlank(a) + NonBlank(b)
    decreases |a|
  {
    if |a| == 0 {
      assert a + b == b;
    } else {
      assert (a + b)[0] == a[0] && (a + b)[1..] == a[1..] + b;
      NonBlankAppend(a[1..], b);
    }
  }

  /** One step of the filtering loop: an entry is appended as it stands
      (untrimmed) unless it is blank, after everything kept before it. */
  lemma NonBlankSnoc(xs: seq<string>, x: string)
    ensures NonBlank(xs + [x]) == NonBlank(xs) + (if Blank(x) then [] else [x])
  {
    NonBlankAppend(xs, [x]);
    assert [x][1..] == [];
  }

  /** The comma-list branch of `ResolveNetwork`: a network containing a comma
      is a list of servers, blank entries dropped, the others kept in order and
      untrimmed; otherwise the name is looked up in DNS, which this model
      leaves out (None). */
  function ResolveServerList(network: string): (r: Option<seq<string>>)
    ensures r.Some? <==> ',' in network
    ensures r.Some? ==> r.value == NonBlank(Split(network, ','))
    ensures r.Some? ==> forall x :: x in r.value <==> x in Split(network, ',') && !Blank(x)
  {
    SplitLength(network, ',');
    var parts := Split(network, ',');
    if |parts| > 1 then Some(NonBlank(parts)) else None
  }

  /** `ResolveNetwork`'s loop over the comma-separated parts, appending each
      non-blank part in turn; it computes the list `ResolveServerList` names. */
  method ResolveNetworkList(network: string) returns (isList: bool, servers: seq<string>)
    ensures isList <==> ',' in network
    ensures isList ==> ResolveServerList(network) == Some(servers)
  {
    SplitLength(network, ',');
    var parts := Split(network, ',');
    servers := [];
    isList := |parts| > 1;
    if !isList {
      return;
    }
    var i := 0;
    while i < |parts|
      invariant 0 <= i <= |parts|
      invariant servers == NonBlank(parts[..i])
    {
      assert parts[..i + 1] == parts[..i] + [parts[i]];
      NonBlankSnoc(parts[..i], parts[i]);
      if !Blank(parts[i]) {
        servers := servers + [parts[i]];
      }
      i := i + 1;
    }
    assert parts[..i] == parts;
  }
}

=== FILE: wrappers.dfy ===
/** Optional values, used wherever the Go code returns `nil` or a `(value, ok)` pair. */
module Wrappers {

  datatype Option<+T> = None | Some(value: T) {

    /** True if is Some */
    predicate IsSome() {
      Some?
    }

    /** Returns the value encapsulated in Some or a default value if None */
    function GetOr(default: T): T {
      match this
      case Some(v) => v
      case None => default
    }
  }
}
